=== FILE: README.md ===
# Habit tracker, modelled in Dafny

A model of the habit tracker web application: the dashboard, habits, history,
analytics and settings pages; the two client stores (`store/habitStore.ts` and
`src/store/habitStore.ts`) and the authentication store; the sign-in form; and
the server routes for habits, habit logs, statistics, notification settings,
site content, avatar upload, notification fan-out and the three e-mail routes
(daily reminder, weekly summary, achievement alert).

The application computes its "streak" in six different ways. The model keeps
every variant as written. Five of them walk over days and have their own
specification in `Streaks`:
- `WalkBack`: one day back per entry (the habits page, which starts
  from yesterday when today has no log, both stores and the achievement
  checks);
- `EvenGapWalk`: the gap must equal the count so far (the dashboard);
- `Fold` / `CurrentAndBest`: a current/best counter pair (the analytics
  view under `src/pages`);
- `IsLongestRun`: the longest run of consecutive days (the achievement
  e-mail's statistics);
- `CappedWalk`: a capped walk over a set of dates (the daily reminder and
  the weekly summary).

The sixth, the analytics page's "longest streak", is not a walk at all: it is
the largest number of logs of any one habit (`AnalyticsPage.LongestStreak`).

Each loop in the application is modelled as a `method` with a `while` or
`for` loop and proved equal to its specification.

Client state that the source updates in place is a `class` with `modifies`
clauses: both habit stores, the auth store, and the tables the routes write.

Time is a number of milliseconds. Every normalisation of an instant to a
calendar day is `Days.DayOf`, which numbers UTC days consecutively.

A Supabase query ending in `.single()` is `Entities.Single`. It yields a row
only when exactly one row matches. This matters for the duplicate-log checks:
they use `.single()`, so two existing rows read as "no existing row".

Each route's answer is a `Reply` (`Ok(status, data)` or `Fail(status, error)`).
A request's bearer token is resolved against a map of sessions
(`Requests.Authenticate`).

## Model

| member | source | states |
|---|---|---|
| Days.DayOfIff | app/habits/page.tsx:67-74 | an instant lies on day `d` exactly when it is in `[StartOfDay(d), StartOfDay(d+1))`, the day boundaries `setHours(0,0,0,0)` produces |
| Days.DayOfMonotone | app/habits/page.tsx:54-65 | a later instant never falls on an earlier day, so sorting timestamps newest first also sorts their days |
| Days.CeilDiv | app/habits/page.tsx:31 | `Math.ceil(a / b)` is the least `r` with `a <= r * b` |
| Days.Percent | components/Dashboard.tsx:83 | `whole > 0 ? part / whole * 100 : 0` is non-negative, 0 for no whole, and otherwise `r * whole == part * 100` |
| Days.PercentAtMost100 | components/Dashboard.tsx:82-83 | a part no larger than the whole is at most 100 percent |
| Days.SortDescBy | app/api/habit-logs/route.ts:50 | sorting newest first returns a permutation of the input in non-increasing key order |
| Days.SortDesc | app/habits/page.tsx:65 | `sort((a, b) => b - a)` is a permutation in non-increasing order |
| Days.SortAsc | app/api/emails/achievement-alert/route.ts:163 | ascending sort is a permutation in non-decreasing order |
| Days.SortDescMembers | app/habits/page.tsx:65 | sorting keeps exactly the members of the list |
| Days.DaysOfSortedDesc | app/habits/page.tsx:54-65 | instants in non-increasing order give days in non-increasing order |
| Days.Filter | app/habits/page.tsx:19 | `filter` keeps exactly the entries satisfying the predicate, and no others |
| Days.FilterAppend | app/habits/page.tsx:266-272 | filtering distributes over concatenation, so relative order is kept |
| Days.FilterKeepsAll | app/habits/page.tsx:266-272 | a filter every entry passes returns the whole list |
| Days.FilterSamePredicate | app/api/stats/route.ts:41-51 | filters whose predicates agree on every entry return the same list |
| Days.CountDisjoint | app/habits/page.tsx:277-280 | counts of two exclusive kinds add up to at most the length, and to the length when every entry is of one kind |
| Days.ExistsIffFilter | app/habits/page.tsx:128-133 | `some` holds exactly when the filter is non-empty |
| Days.MaxOf | src/pages/Analytics.tsx:146 | `Math.max(...values, 0)` bounds every value, is non-negative and is attained unless 0 |
| Strings.ToLower | app/habits/page.tsx:267 | lower-casing keeps the length and maps every character with `LowerChar` |
| Strings.Utf16Length | src/components/auth/AuthForm.tsx:47 | `length` counts UTF-16 code units: between one and two per character |
| Strings.Utf16LengthAppend | src/components/auth/AuthForm.tsx:47 | the code units of a concatenation add up |
| Strings.Utf16LengthBmp | src/components/auth/AuthForm.tsx:47 | without characters beyond U+FFFF, the code units are the characters |
| Strings.TrimStart | app/settings/page.tsx:175-179 | drops exactly the leading white space |
| Strings.TrimEnd | app/settings/page.tsx:175-179 | drops exactly the trailing white space |
| Strings.TrimEmptyIff | app/settings/page.tsx:175-179 | a string trims to empty exactly when it is all whitespace |
| Strings.TrimmedHasNoOuterWhitespace | app/settings/page.tsx:175-179 | a trimmed non-empty string neither starts nor ends with whitespace |
| Strings.PrefixBefore | app/api/habit-logs/route.ts:136 | `s.split(c)[0]` is the longest prefix without `c` |
| Strings.AfterLast | app/api/upload/avatar/route.ts:79 | `s.split(c).pop()` is the suffix after the last `c`, or the whole string when there is none |
| Entities.MergeIdempotent | store/habitStore.ts:154-156 | spreading a patch twice equals spreading it once, and an empty patch changes nothing |
| Entities.FullPatch | store/habitStore.ts:154-156 | spreading a full row replaces any old row by it |
| Entities.FindHabit | app/habits/page.tsx:16-17 | `find` returns a habit with the id that is in the list, and nothing exactly when no habit has the id |
| Entities.CompletedDays | app/habits/page.tsx:54-64 | a day is listed exactly when some log carries a string `completed_at` on it |
| Entities.LogsOf | app/habits/page.tsx:19 | the habit's logs are exactly the logs with its id |
| Entities.Single | src/store/habitStore.ts:133-140 | `.single()` yields a row exactly when one row matches, and that row |
| Entities.NewestFirst | app/api/habit-logs/route.ts:50 | a permutation with logs without `completed_at` first, then the others newest first |
| Entities.SortedAllTimed | app/api/habit-logs/route.ts:50 | sorting logs that all carry `completed_at` keeps that so |
| Entities.FilterSplitMultiset | app/api/habit-logs/route.ts:50 | the rows with and without `completed_at` together are all the rows |
| Streaks.WalkBack | store/habitStore.ts:283-298 | the count is the number of leading entries on `from`, `from-1`, ...; the next entry is off its expected day |
| Streaks.WalkBackUnique | store/habitStore.ts:283-298 | the characterisation determines the walk |
| Streaks.WalkBackSplit | app/habits/page.tsx:81-88 | walking on from entry `i` continues the walk from the start |
| Streaks.RepeatEndsWalk | store/habitStore.ts:286-296 | a day repeated in consecutive entries ends the walk at its second occurrence |
| Streaks.WalkBackCountsDistinctDays | app/habits/page.tsx:81-88 | the counted days are strictly decreasing and lie in `(from - r, from]` |
| Streaks.EvenGapWalk | components/Dashboard.tsx:117-133 | entry `k` is counted only if it lies on `today - 2k`; the next entry does not |
| Streaks.EvenGapWalkUnique | components/Dashboard.tsx:117-133 | the characterisation determines the walk |
| Streaks.EvenGapYesterdayIsZero | components/Dashboard.tsx:121-130 | a newest log of yesterday gives 0 |
| Streaks.EvenGapTodayYesterday | components/Dashboard.tsx:121-130 | logs today and yesterday give 1; today and two days ago give 2 |
| Streaks.FoldBounded | src/pages/Analytics.tsx:98-117 | each counter grows by at most one per log |
| Streaks.FoldTempPositive | src/pages/Analytics.tsx:98-117 | after one log the running counter is at least 1 |
| Streaks.CurrentAndBestBounds | src/pages/Analytics.tsx:89-122 | no logs give (0, 0); otherwise best >= 1; neither exceeds the number of logs |
| Streaks.CurrentNeverReset | src/pages/Analytics.tsx:98-121 | logs five and six days ago give a current streak of 1 and a best of 2: the current counter is never reset |
| Streaks.TwoLogsToday | src/pages/Analytics.tsx:98-121 | two logs today give current 1 and best 2 |
| Streaks.LongestRunUnique | app/api/emails/achievement-alert/route.ts:160-181 | at most one length is the longest run |
| Streaks.LongestRunBounds | app/api/emails/achievement-alert/route.ts:160-181 | a non-empty list's longest run is between 1 and its length |
| Streaks.RepeatBreaksRun | app/api/emails/achievement-alert/route.ts:167-178 | a repeated date never lies inside a run |
| Streaks.CappedWalk | app/api/emails/weekly-summary/route.ts:67-85 | the days `d`, `d-1`, ... counted are all present, at most `cap` of them, and the first day not counted is missing unless the cap was reached |
| Streaks.CappedWalkUnique | app/api/emails/weekly-summary/route.ts:67-85 | the characterisation determines the capped walk |
| Streaks.CappedWalkZero | app/api/emails/weekly-summary/route.ts:67-85 | no entry on the first day gives 0 |
| Streaks.CappedWalkBelowHorizon | app/api/emails/weekly-summary/route.ts:67-85 | with no date before `low`, the walk from `d` counts at most `d - low + 1` days |
| HabitLists.Prepend | store/habitStore.ts:125 | `[item, ...list]` puts the item first, followed by the list |
| HabitLists.UpdateById | store/habitStore.ts:154-156 | the map keeps length and order, merges the patch into exactly the habits with the id and leaves the others |
| HabitLists.UpdateByIdIdempotent | store/habitStore.ts:154-156 | applying the same update twice equals applying it once |
| HabitLists.RemoveById | store/habitStore.ts:184 | removal keeps exactly the habits with another id; their count plus the removed ones is the old length |
| HabitLists.RemoveByIdKeepsOrder | store/habitStore.ts:184 | removal distributes over concatenation, so order is kept |
| HabitLists.RemoveAfterUpdate | store/habitStore.ts:154-184 | deleting after an id-preserving update equals deleting straight away |
| HabitLists.RemoveAfterPrepend | store/habitStore.ts:125-184 | deleting a freshly created habit leaves what deleting from the old list leaves |
| Dashboard.CompletedHabitIds | components/Dashboard.tsx:65-69 | an id is in the set exactly when some log of that habit has `completed_at` on today |
| Dashboard.TodayHabitStatus | components/Dashboard.tsx:63-76 | one entry per habit, in order; flagged completed exactly when it has a log today; `canLogToday` is the negation |
| Dashboard.GetTodayStats | components/Dashboard.tsx:79-91 | the total is the number of habits and the completed count the number of habits with a log today; completed plus pending is the total; the rate is the completed percentage of the total, 0 without habits, within [0, 100] |
| Dashboard.CountStatuses | components/Dashboard.tsx:63-83 | counting completed statuses counts the habits with a log today |
| Dashboard.LoggedDays | components/Dashboard.tsx:112-114 | one day per log that carries `logged_at` |
| Dashboard.CalculateStreak | components/Dashboard.tsx:109-134 | the loop returns the even-gap walk over the sorted `logged_at` days |
| Dashboard.DashStreakBound | components/Dashboard.tsx:109-134 | the streak never exceeds the number of logs with `logged_at` |
| Dashboard.NoLoggedAtNoStreak | components/Dashboard.tsx:113 | logs without `logged_at`, which is every log the application writes, give a streak of 0 |
| Dashboard.DashStreakEvenDays | components/Dashboard.tsx:121-130 | counted days lie on today, two days ago, four days ago, ...; a newest day of yesterday counts nothing |
| Dashboard.TopBy | components/Dashboard.tsx:94-106 | no habits give null; otherwise the result is the first habit whose streak is maximal |
| HabitStore.SortedLogs | store/habitStore.ts:279-281 | the habit's logs, as a permutation, in non-increasing `completed_at` order |
| HabitStore.LogDays | store/habitStore.ts:287 | one day per log, read from its `completed_at` |
| HabitStore.SortedLogsMembers | store/habitStore.ts:279-281 | every sorted log is a log of the store with the habit's id |
| HabitStore.StoreStreakBound | store/habitStore.ts:277-299 | the streak never exceeds the number of the habit's logs |
| HabitStore.StreakMeansToday | store/habitStore.ts:277-309 | a positive streak implies today's status is true |
| HabitStore.TodayStartsStreak | store/habitStore.ts:277-309 | a log today, with no log dated after today, gives a streak of at least 1 |
| HabitStore.TodayStatusAndStreak | store/habitStore.ts:277-309 | no log today means a streak of 0; a log today with none after today means a streak of at least 1 |
| HabitStore.Store.constructor | store/habitStore.ts:74-77 | the store starts with no habits, no logs and not loading |
| HabitStore.Store.FetchHabits | store/habitStore.ts:79-104 | the habits are replaced only on a successful answer, and loading always ends |
| HabitStore.Store.CreateHabit | store/habitStore.ts:106-133 | on success the new habit comes first, followed by the old list; each error path gives its message and changes nothing |
| HabitStore.Store.UpdateHabit | store/habitStore.ts:135-165 | on success the habits with the id are merged with the answer; each error path gives its message and changes nothing |
| HabitStore.Store.DeleteHabit | store/habitStore.ts:167-193 | on success the habits with the id leave the list; each error path gives its message and changes nothing |
| HabitStore.Store.LogHabit | store/habitStore.ts:195-225 | on success the new log comes first, followed by the old logs; each error path gives its message and changes nothing |
| HabitStore.Store.FetchHabitLogs | store/habitStore.ts:227-251 | the logs are replaced only on a successful answer |
| HabitStore.SortedLogsCompleted | store/habitStore.ts:279-281 | filtering and sorting keep every log's `completed_at` |
| HabitStore.CountSortedStreak | store/habitStore.ts:283-298 | the counting loop over logs sorted newest first returns the one-day-per-entry walk from today over their days |
| HabitStore.Store.GetStreakCount | store/habitStore.ts:277-299 | the loop returns the one-day-per-entry walk from today over the habit's sorted log days |
| SrcHabitStore.ExistingLogs | src/store/habitStore.ts:133-139 | the check finds exactly the habit's and user's logs in `[dayT00:00:00, dayT23:59:59)` |
| SrcHabitStore.ExistingAtMostOne | src/store/habitStore.ts:133-144 | while every habit, user and day has at most one log, the check finds at most one, so `.single()` sees it |
| SrcHabitStore.NoneExisting | src/store/habitStore.ts:133-139 | with no log of the habit and user in the window the check finds nothing |
| SrcHabitStore.InsertKeepsOnePerDay | src/store/habitStore.ts:142-155 | inserting after the check found nothing keeps one log per habit, user and day |
| SrcHabitStore.LastSecondIsUnchecked | src/store/habitStore.ts:138-139 | a log in the last second of a day is outside that day's check window |
| SrcHabitStore.Tables.constructor | src/store/habitStore.ts:52-56 | the tables hold the given rows |
| SrcHabitStore.ActiveNewestFirst | src/store/habitStore.ts:52-56 | the active habits, as a permutation, newest created first |
| SrcHabitStore.LogsQuery | src/store/habitStore.ts:166-175 | a permutation of all logs, or of exactly the habit's logs when a non-empty id is given; logs without `completed_at` first, the others newest first |
| SrcHabitStore.Store.constructor | src/store/habitStore.ts:45-47 | the store starts with no habits, no logs and not loading |
| SrcHabitStore.Store.FetchHabits | src/store/habitStore.ts:49-63 | on success the habits are the active rows newest first; loading always ends |
| SrcHabitStore.Store.CreateHabit | src/store/habitStore.ts:65-87 | with no user nothing changes; on success the inserted row is in the table and comes first locally |
| SrcHabitStore.Store.UpdateHabit | src/store/habitStore.ts:89-106 | the table rows with the id are updated; the local list changes only when exactly one row matched |
| SrcHabitStore.Store.DeleteHabit | src/store/habitStore.ts:108-121 | a soft delete in the table; on success the habit leaves the local list |
| SrcHabitStore.Store.LogHabit | src/store/habitStore.ts:123-163 | refuses when exactly one log exists today; inserts otherwise; keeps the one-log-per-day invariant |
| SrcHabitStore.Store.FetchHabitLogs | src/store/habitStore.ts:165-180 | on success the logs are the query's rows |
| SrcHabitStore.Store.GetStreakCount | src/store/habitStore.ts:182-204 | the loop returns the same walk as the other store |
| HabitsPage.CalculateStreak | app/habits/page.tsx:50-91 | the loop returns the walk from today, or from yesterday when no log is today, over the sorted days |
| HabitsPage.PageStreakBound | app/habits/page.tsx:50-91 | the streak never exceeds the number of logs with a string `completed_at` |
| HabitsPage.YesterdayAndDayBefore | app/habits/page.tsx:74-79 | logs only yesterday and the day before give 2: the walk starts at yesterday |
| HabitsPage.RepeatedDayEndsStreak | app/habits/page.tsx:81-88 | a second log on a counted day ends the streak there |
| HabitsPage.CompletedTodayIffDay | app/habits/page.tsx:126-134 | completed today exactly when today is among the days of the habit's logs |
| HabitsPage.TodayLeadsSorted | app/habits/page.tsx:65-79 | in days sorted newest first and none after today, a present today comes first |
| HabitsPage.CompletedTodayStartsStreak | app/habits/page.tsx:50-134 | completed today means a streak of at least 1 |
| HabitsPage.NoDayAfterToday | app/habits/page.tsx:54-65 | with no log after today, no completion day is after today |
| HabitsPage.WindowStart | app/habits/page.tsx:26-29 | the later of the creation time and 30 days ago |
| HabitsPage.ExpectedDays | app/habits/page.tsx:31-32 | at most 30, at least 1 when the window is non-empty |
| HabitsPage.RecentLogs | app/habits/page.tsx:34-38 | exactly the logs with a string `completed_at` at or after the window start |
| HabitsPage.GetHabitStats | app/habits/page.tsx:15-47 | an unknown habit gives zeros; otherwise the total is the habit's log count, the streak never exceeds it, is positive only with a log today or yesterday and at least 1 when there is one, and the rate is the percentage of recent logs over the expected days |
| HabitsPage.WalkFromStartDay | app/habits/page.tsx:65-91 | the walk from the newest day is at least 1 when that day is the start day |
| HabitsPage.StreakIffRecentLog | app/habits/page.tsx:50-91 | a positive streak needs a log today or yesterday; with no future log, such a log gives a streak of at least 1 |
| HabitsPage.FutureLogEndsStreak | app/habits/page.tsx:65-88 | a log after today sorts first and stops the walk, so a log today alone does not guarantee a streak |
| HabitsPage.FilteredHabits | app/habits/page.tsx:266-272 | exactly the habits matching search, type and frequency, in order |
| HabitsPage.FilteredHabitsKeepsOrder | app/habits/page.tsx:266-272 | filtering distributes over concatenation |
| HabitsPage.NoFilterKeepsAll | app/habits/page.tsx:266-272 | an empty search with both filters on `all` keeps every habit |
| HabitsPage.Stats | app/habits/page.tsx:275-281 | the header counts; positive plus negative and daily plus weekly never exceed the total |
| HabitsPage.TypeCountsPartition | app/habits/page.tsx:277-278 | when every habit is positive or negative the two counts add up to the total |
| HabitsPage.NormaliseFrequency | app/habits/page.tsx:450-454 | `type \|\| 'daily'`, `count \|\| 1`, and `days` only when present |
| HabitsPage.ProcessSaveData | app/habits/page.tsx:445-455 | an empty reminder time becomes null; the frequency is normalised; the other fields are kept |
| HabitsPage.ProcessSaveDataIdempotent | app/habits/page.tsx:445-455 | normalising already normalised data changes nothing |
| SrcAnalytics.DaysSinceCreated | src/pages/Analytics.tsx:83-85 | the least whole number of days covering the time since creation |
| SrcAnalytics.ClampRate | src/pages/Analytics.tsx:128 | `Math.min(rate, 100)`: at most 100, at most the rate, and one of the two |
| SrcAnalytics.VisitOrder | src/pages/Analytics.tsx:94-100 | the log days in the order the loop visits them, newest first |
| SrcAnalytics.StreakLoop | src/pages/Analytics.tsx:89-122 | the loop returns the current/best fold over the visited days |
| SrcAnalytics.StatOf | src/pages/Analytics.tsx:75-132 | one habit's figures: its id, name and log count; a rate in [0, 100]; no logs give streaks of 0; otherwise best >= 1; both streaks bounded by the log count |
| SrcAnalytics.HabitStatFor | src/pages/Analytics.tsx:75-132 | the callback with its loop computes `StatOf` |
| SrcAnalytics.CurrentBelowBest | src/pages/Analytics.tsx:102-116 | a log on the day after the expected one extends only the running count, so current can stay below best |
| SrcAnalytics.Tally | src/pages/Analytics.tsx:63-66 | the reduce keeps every key it started with |
| SrcAnalytics.TallyCounts | src/pages/Analytics.tsx:63-66 | each type's entry is the number of habits of that type |
| SrcAnalytics.TypeData | src/pages/Analytics.tsx:68-71 | two entries: positive habits then negative habits, with their counts, names and colours |
| SrcAnalytics.TypeDataBound | src/pages/Analytics.tsx:68-71 | the two counts never exceed the number of habits |
| SrcAnalytics.SumRatesBounds | src/pages/Analytics.tsx:142 | rates in [0, 100] sum to at most 100 per statistic |
| SrcAnalytics.AverageCompletion | src/pages/Analytics.tsx:141-143 | 0 with no statistics; otherwise in [0, 100] when every rate is |
| SrcAnalytics.SumRatesBounds2 | src/pages/Analytics.tsx:141-143 | the average of rates in [0, 100] is in [0, 100] |
| SrcAnalytics.MaxBestStreak | src/pages/Analytics.tsx:146 | non-negative, at least every habit's best streak, and attained unless 0 |
| SrcAnalytics.InWeekIffDay | src/pages/Analytics.tsx:153-166 | a log is in the week query exactly when it was completed on one of the week's seven days |
| SrcAnalytics.WeekEntryOf | src/pages/Analytics.tsx:168-177 | the week's completed count is the logs in the week; the total is seven per habit; the rate is `completed / total * 100`, or 0 |
| SrcAnalytics.WeeklySeries | src/pages/Analytics.tsx:151-180 | seven entries, oldest first, seven days apart, the last starting today |
| SrcAnalytics.FetchAnalyticsData | src/pages/Analytics.tsx:49-186 | no habits leave the counts empty; otherwise one statistic per habit, the type distribution and the totals; always seven weeks |
| SrcAnalytics.LogsOfCompleted | src/pages/Analytics.tsx:76-80 | the per-habit query keeps the `completed_at` of every log |
| SrcAnalytics.CollectStats | src/pages/Analytics.tsx:75-134 | one statistic per habit, in order, each the habit's `StatOf` |
| SrcAnalytics.AppendStat | src/pages/Analytics.tsx:75-132 | one round of the `map` appends the habit's `StatOf` |
| SrcAnalytics.StatsGrow | src/pages/Analytics.tsx:75-134 | appending the next habit's statistic keeps the list equal to the habits' statistics |
| SrcAnalytics.FiguresBounded | src/pages/Analytics.tsx:134-147 | the average is in [0, 100] and the best streak is at most the number of logs |
| AnalyticsPage.ActiveHabits | app/analytics/page.tsx:85 | never more than all habits, and all of them exactly when every habit is active |
| AnalyticsPage.FilterShorter | app/analytics/page.tsx:85 | a filter that rejects some entry is strictly shorter than its input |
| AnalyticsPage.LongestStreak | app/analytics/page.tsx:88-91 | the largest per-habit log count, or 0: at least every habit's count, attained unless 0, and at most the number of logs |
| AnalyticsPage.Reverse | app/analytics/page.tsx:94-98 | `reverse` keeps the length and mirrors the positions |
| AnalyticsPage.Last7Days | app/analytics/page.tsx:94-98 | the seven days ending today, oldest first |
| AnalyticsPage.DayEntryOf | app/analytics/page.tsx:100-111 | a day's completed count is its logs, its total the daily habits, its rate `completed / total * 100` or 0 |
| AnalyticsPage.WeeklyData | app/analytics/page.tsx:100-111 | one entry per day of the last seven days, in the same order |
| AnalyticsPage.DayCountsDisjoint | app/analytics/page.tsx:100-103 | a log is counted on at most one day, so two days' counts add up to at most all logs |
| AnalyticsPage.PeriodRate | app/analytics/page.tsx:229-230 | non-negative, 0 without logs, otherwise `r * period == logs * 100` |
| AnalyticsPage.BarWidth | app/analytics/page.tsx:245 | at most 100, and the rate itself when it is not above 100 |
| AnalyticsPage.OverfullPeriod | app/analytics/page.tsx:229-245 | a habit logged more often than the period has days shows a rate above 100 and a full bar |
| Requests.TokenOf | app/api/stats/route.ts:12-20 | no header, or a header that is empty after removing the first `Bearer `, gives no token; otherwise the remainder |
| Requests.TokenOfBearer | app/api/stats/route.ts:12-13 | `Bearer t` yields `t`, and `Bearer ` alone yields no token |
| Requests.Authenticate | app/api/stats/route.ts:12-30 | no token gives `NoToken`; an unknown token `InvalidToken`; a known one its user |
| Requests.AuthFailure | app/api/stats/route.ts:15-30 | a failed authentication answers 401 |
| StatsRoute.HabitsQuery | app/api/stats/route.ts:41-51 | exactly the user's active habits, only the one asked for when a non-empty `habit_id` is given |
| StatsRoute.EmptyHabitIdIsNoFilter | app/api/stats/route.ts:34-51 | an empty `habit_id` selects the same habits as no `habit_id` at all |
| StatsRoute.LogsQuery | app/api/stats/route.ts:75-80 | exactly the user's logs of the selected habits completed on or after the start day |
| StatsRoute.CountWindowSplit | app/api/stats/route.ts:140-149 | two adjacent date windows count together what the window spanning both counts |
| StatsRoute.DayStatOf | app/api/stats/route.ts:113-126 | a day's entry counts the logs of that date against the number of habits |
| StatsRoute.WeeklyStats | app/api/stats/route.ts:111-127 | seven days in ascending order, the last one today, each its `DayStatOf` |
| StatsRoute.WeekStatOf | app/api/stats/route.ts:132-158 | week `w` back spans days `today - (7w + 6)` to `today - 7w`, labelled `Week 4-w`, out of seven per habit |
| StatsRoute.MonthlyStats | app/api/stats/route.ts:130-159 | after the `unshift`s the four weeks run oldest first |
| StatsRoute.MonthlyWindows | app/api/stats/route.ts:130-159 | the weeks are labelled `Week 1` to `Week 4`, tile the 28 days ending today without gaps, and their counts add up to the 28-day window's |
| StatsRoute.OverallRate | app/api/stats/route.ts:162-164 | `totalCompleted / (habits * period) * 100`, or 0 |
| StatsRoute.StreakEntries | app/api/stats/route.ts:96-108 | one entry per habit, in order, with the function's streak or 0 |
| StatsRoute.BuildStats | app/api/stats/route.ts:91-180 | the payload holds the habit count, today's completions, the overall rate, one streak entry per habit, the last seven days and the last four weeks oldest first, the period and the log count |
| StatsRoute.LogsAndStats | app/api/stats/route.ts:75-180 | 400 with the logs query's message when it fails; otherwise 200 with the payload computed over exactly the logs the query selects |
| StatsRoute.GetStats | app/api/stats/route.ts:10-186 | 401 without a valid token; 400 with a query error; the empty payload without habits; otherwise the figures above |
| AchievementAlert.AlertAuth | app/api/emails/achievement-alert/route.ts:26-42 | a missing or empty header gives no user; a user only for a token the service knows |
| AchievementAlert.MissingSettingsNotSkipped | app/api/emails/achievement-alert/route.ts:62 | a user without a settings row is not skipped |
| AchievementAlert.LongestRunLoop | app/api/emails/achievement-alert/route.ts:160-181 | the loop returns the longest run of dates one day apart, 0 for no dates |
| AchievementAlert.ExtendRun | app/api/emails/achievement-alert/route.ts:173-175 | a date one day after the last extends a maximal stretch |
| AchievementAlert.BoundExtends | app/api/emails/achievement-alert/route.ts:175 | the running maximum bounds every stretch seen so far |
| AchievementAlert.RunStartsAfter | app/api/emails/achievement-alert/route.ts:176-178 | a restart point is never inside an earlier stretch |
| AchievementAlert.AscendingDates | app/api/emails/achievement-alert/route.ts:154-163 | the user's log days in ascending order |
| AchievementAlert.GetUserStats | app/api/emails/achievement-alert/route.ts:132-187 | the counts of the user's active habits and of their logs completed today, and the longest run of consecutive days, 0 exactly when there are no logs |
| AchievementAlert.RepeatedDateRestarts | app/api/emails/achievement-alert/route.ts:167-178 | two logs on one day followed by the next day give a run of 2 |
| AchievementAlert.AchievementInfo | app/api/emails/achievement-alert/route.ts:199-254 | a known type keeps its entry, an unknown one falls back to `habit_completion`; only the streak entry carries a milestone and only three entries the habit name |
| AchievementAlert.DefaultMilestoneTitle | app/api/emails/achievement-alert/route.ts:207 | without a milestone the title reads `7天连续完成！` |
| AchievementAlert.AlertPost | app/api/emails/achievement-alert/route.ts:23-129 | 401 without a valid token; skipped when alerts are off; 500 with a send error; otherwise the achievement's type and title, and the caller's stats as `GetUserStats` states them |
| AchievementAlert.HabitName | app/api/emails/achievement-alert/route.ts:71-81 | no habit id gives no name; a name only of the user's habit with that id |
| AchievementAlert.RecentDays | app/api/emails/achievement-alert/route.ts:330-336 | at most 100 log days, newest first |
| AchievementAlert.EntriesFor | app/api/emails/achievement-alert/route.ts:356-366 | one entry exactly when the streak is a milestone, naming the habit and the milestone |
| AchievementAlert.HabitStreak | app/api/emails/achievement-alert/route.ts:338-353 | a habit's streak is at most 100 |
| AchievementAlert.StreakAchievements | app/api/emails/achievement-alert/route.ts:328-368 | at most one entry per habit |
| AchievementAlert.CountStreak | app/api/emails/achievement-alert/route.ts:343-353 | the loop returns the one-day-per-entry walk from today |
| AchievementAlert.MilestoneCheck | app/api/emails/achievement-alert/route.ts:356-366 | the loop returns the habit's milestone entries |
| AchievementAlert.HabitAchievements | app/api/emails/achievement-alert/route.ts:330-367 | one habit's pass yields exactly the entries its walk-back streak over its newest logs earns: none without logs, one when the streak is a milestone |
| AchievementAlert.CheckStreakAchievements | app/api/emails/achievement-alert/route.ts:315-371 | no habits give no entries; otherwise the entries of every habit in order |
| AchievementAlert.MilestoneEntriesExact | app/api/emails/achievement-alert/route.ts:317-366 | a streak of 8 yields nothing, a streak of 7 one entry, and every entry names a milestone |
| DailyReminder.SplitToken | app/api/emails/daily-reminder/route.ts:59 | `split(' ')[1]` of a `Bearer ` header contains no space |
| DailyReminder.SplitTokenBearer | app/api/emails/daily-reminder/route.ts:57-59 | a token without a space is read back whole |
| DailyReminder.Authenticate | app/api/emails/daily-reminder/route.ts:31-76 | the service key needs a body `user_id` (400) of a known user (404); another `Bearer ` token needs a session (401); anything else is 401 |
| DailyReminder.StreakLoop | app/api/emails/daily-reminder/route.ts:158-182 | the loop returns the walk over present days from today, capped at seven days |
| DailyReminder.EntryOf | app/api/emails/daily-reminder/route.ts:148-194 | an entry keeps the habit's id and name; its streak is at most 7 and positive exactly when today has a log; it is completed exactly when today has a log |
| DailyReminder.CompletedMeansStreak | app/api/emails/daily-reminder/route.ts:164-186 | completed today exactly when the streak is positive |
| DailyReminder.Entries | app/api/emails/daily-reminder/route.ts:147-196 | one entry per habit, in order |
| DailyReminder.HabitsWithStreaks | app/api/emails/daily-reminder/route.ts:147-196 | the loop over the habits returns `Entries` |
| DailyReminder.Weekday | app/api/emails/daily-reminder/route.ts:207 | `getDay()` lies in 0..6 |
| DailyReminder.WeekdayCycle | app/api/emails/daily-reminder/route.ts:207 | weekdays repeat every seven days and advance by one per day |
| DailyReminder.NotScheduledOnlyWeekly | app/api/emails/daily-reminder/route.ts:199-212 | only a weekly frequency with a day list that lacks today makes a habit not due |
| DailyReminder.TodayHabits | app/api/emails/daily-reminder/route.ts:199-212 | exactly the entries whose habit is due today, in order |
| DailyReminder.CountsOf | app/api/emails/daily-reminder/route.ts:257-259 | every due habit is completed or pending, and the two add up to the count |
| DailyReminder.ActiveHabits | app/api/emails/daily-reminder/route.ts:105-115 | a permutation of exactly the user's active habits, oldest created first |
| DailyReminder.ReminderPost | app/api/emails/daily-reminder/route.ts:25-274 | authentication failures answer their status; otherwise, in the route's order, the exact skip reply when reminders are off, when there are no active habits and when none is due today; 500 `Failed to fetch habits` on a query error; 500 `Email sending failed: ` and the sender's message on a send error; else the counts of the habits due today |
| WeeklySummary.FetchedRows | app/api/emails/weekly-summary/route.ts:52-59 | exactly the user's completed rows dated on or after seven days ago |
| WeeklySummary.HabitDates | app/api/emails/weekly-summary/route.ts:74-78 | a date is listed exactly when some fetched completed row of the habit is on it |
| WeeklySummary.StreakLoop | app/api/emails/weekly-summary/route.ts:67-85 | the loop returns the walk over the habit's dates from today, capped at 30 days |
| WeeklySummary.EntryOf | app/api/emails/weekly-summary/route.ts:62-93 | an entry keeps the habit's name, counts its fetched rows, has seven total days and a streak of at most 30 |
| WeeklySummary.EntryFor | app/api/emails/weekly-summary/route.ts:62-92 | the map body for one habit, with its streak loop, builds exactly that habit's entry |
| WeeklySummary.StreakWithinFetchedWeek | app/api/emails/weekly-summary/route.ts:52-85 | the query's seven-day horizon caps the streak at 8 despite the 30-day loop, and a day without a row today gives 0 |
| WeeklySummary.SummaryEntries | app/api/emails/weekly-summary/route.ts:62-93 | no habit data gives no entries; otherwise one entry per habit, in order |
| WeeklySummary.SummaryPost | app/api/emails/weekly-summary/route.ts:12-124 | 401 without a valid token; 500 with the send error; otherwise the e-mail to the caller's username with one entry per active habit and the profile name or `用户` |
| NotificationTrigger.EligibleUsers | app/api/notifications/trigger/route.ts:134-155 | an unknown type has no query; a known one selects exactly the rows whose flag is on, and welcome selects every row |
| NotificationTrigger.EligibleIffShouldSend | app/api/notifications/trigger/route.ts:134-176 | for a known type, a row is selected exactly when its preference allows sending |
| NotificationTrigger.ShouldSendDefaults | app/api/notifications/trigger/route.ts:158-176 | no settings row or the welcome type always send; an unknown type with a row never does |
| NotificationTrigger.Endpoint | app/api/notifications/trigger/route.ts:180-201 | a route exactly for the four known types |
| NotificationTrigger.EndpointsDistinct | app/api/notifications/trigger/route.ts:186-201 | different types go to different routes |
| NotificationTrigger.ForwardBody | app/api/notifications/trigger/route.ts:210-213 | the body carries the user's id as `user_id` and every other field of the data unchanged |
| NotificationTrigger.FailureMessage | app/api/notifications/trigger/route.ts:224 | the failure message is never empty |
| NotificationTrigger.SendByType | app/api/notifications/trigger/route.ts:179-242 | delivered exactly when the type is known and the route answers ok, to the type's route with the forwarded body; an unknown type fails with its message |
| NotificationTrigger.FanOut | app/api/notifications/trigger/route.ts:95-117 | sent plus failed never exceed the number of users, and there is one error per failure |
| NotificationTrigger.FanOutAppend | app/api/notifications/trigger/route.ts:100-117 | a failure never stops the later users: the counts over `a + b` combine those over `a` and `b` |
| NotificationTrigger.TallyOfAppend | app/api/notifications/trigger/route.ts:95-117 | counting two runs of outcomes in turn adds their counters and joins their errors in order |
| NotificationTrigger.MissingUserUncounted | app/api/notifications/trigger/route.ts:102-112 | a user the directory does not know counts neither as sent nor as failed |
| NotificationTrigger.FanOutOne | app/api/notifications/trigger/route.ts:102-116 | each user counts once, as a success, or as a failure with its message |
| NotificationTrigger.TryUser | app/api/notifications/trigger/route.ts:100-116 | one user's attempt adds exactly that user's outcome to the counters |
| NotificationTrigger.SendToAll | app/api/notifications/trigger/route.ts:82-131 | an unknown type fails with its message; no eligible user sends nothing; otherwise the loop returns the fan-out over the eligible users |
| NotificationTrigger.SendToUser | app/api/notifications/trigger/route.ts:42-79 | an unknown user is not found; a preference may skip; otherwise the result of sending by type |
| NotificationTrigger.Trigger | app/api/notifications/trigger/route.ts:10-39 | a missing type is 400; a `user_id` targets one user; otherwise an unknown type fails with its message, no eligible user sends nothing, and eligible users get the fan-out's counts |
| HistoryPage.FilteredLogs | app/history/page.tsx:62-74 | exactly the logs of the selected month that match the habit filter and the search, in order |
| HistoryPage.NoneOnDay | app/history/page.tsx:77-84 | a list with no log on a day has an empty group for it |
| HistoryPage.GroupExtend | app/history/page.tsx:77-84 | one more log joins exactly the group of its own day, at its end |
| HistoryPage.AddToGroup | app/history/page.tsx:77-83 | one reduce step keeps the grouping invariant: distinct keys that are exactly the days seen, each group that day's logs in order |
| HistoryPage.GroupLogs | app/history/page.tsx:77-84 | the reduce yields one distinct key per day with a log, and each group is that day's logs in order |
| HistoryPage.OccursOnce | app/history/page.tsx:77-84 | a distinct key occurs once |
| HistoryPage.GroupSizesExtend | app/history/page.tsx:77-84 | one more log adds one to the group sizes when its day is a key |
| HistoryPage.GroupSizesSum | app/history/page.tsx:77-84 | every log is in exactly one group: the group sizes add up to the number of logs |
| HistoryPage.GroupSizesEmpty | app/history/page.tsx:77-84 | no logs give empty groups |
| HistoryPage.GroupsAtMostLogs | app/history/page.tsx:77-84 | each group holds a log, so there are never more groups than logs |
| HistoryPage.Calendar | app/history/page.tsx:87-119 | 42 cells of consecutive days from the Sunday before the first of the month; exactly the month's days are current and carry their group; the others are empty |
| HistoryPage.SummaryOf | app/history/page.tsx:340-369 | the records, the active days, at most all habits involved, and records per active day, or 0 |
| HistoryPage.GroupsAreFilters | app/history/page.tsx:107 | `groupedLogs[d] \|\| []` is the day's filter for every day |
| HistoryPage.CountsOfGroups | app/history/page.tsx:77-84 | the grouping covers every log once, so there are no more groups than logs |
| HistoryPage.AverageAtLeastOne | app/history/page.tsx:366-368 | an active day averages at least one record |
| HistoryPage.CalendarShowsGroups | app/history/page.tsx:87-119 | a calendar over a grouping whose groups are the day filters shows each month day's filtered logs |
| HistoryPage.DistinctCardinality | app/history/page.tsx:349 | distinct keys are as many as the set of keys |
| HistoryPage.KeysCountActiveDays | app/history/page.tsx:349 | the grouping's keys are as many as the distinct days with a log |
| HistoryPage.SummaryOfGroups | app/history/page.tsx:340-369 | the summary over the grouping counts the records, the distinct days, and bounds the average |
| HistoryPage.History | app/history/page.tsx:62-119 | the filtered logs; a calendar whose month cells hold exactly that day's filtered logs; a summary whose active days are the distinct days of the filtered logs, never more than the records, with an average of 0 without active days and at least 1 otherwise |
| HistoryPage.LogInItsCell | app/history/page.tsx:98-116 | in the page's calendar, a log of the selected month appears in the cell of its day and in no other |
| HabitLogsRoute.DateKey | app/api/habit-logs/route.ts:136 | the date part contains no `T` and starts the timestamp |
| HabitLogsRoute.DateKeyOfTimestamp | app/api/habit-logs/route.ts:135-136 | the date part of `<date>T<time>` is `<date>` |
| HabitLogsRoute.Existing | app/api/habit-logs/route.ts:139-145 | exactly the habit's logs, of any user, in `[dateT00:00:00.000Z, dateT23:59:59.999Z)` |
| HabitLogsRoute.NoneExisting | app/api/habit-logs/route.ts:139-145 | with no log of the habit in the window the check finds nothing |
| HabitLogsRoute.ExistingAtMostOne | app/api/habit-logs/route.ts:139-147 | while no two logs of a habit share a day's window, the check finds at most one, so `.single()` sees it |
| HabitLogsRoute.InsertKeepsOnePerWindow | app/api/habit-logs/route.ts:147-164 | inserting after the check found nothing keeps one log per habit and window |
| HabitLogsRoute.LastMillisecondUnchecked | app/api/habit-logs/route.ts:143-144 | a log in the last millisecond of a day is outside that day's window |
| HabitLogsRoute.LogTable.constructor | app/api/habit-logs/route.ts:155-157 | the table holds the given rows |
| HabitLogsRoute.OwnedHabit | app/api/habit-logs/route.ts:121-133 | a habit only when exactly one row has the id and the caller as owner |
| HabitLogsRoute.Post | app/api/habit-logs/route.ts:89-185 | 401; 400 without a habit id; 404 unless the caller owns the habit; 409 when the check finds one log; the insert error as 400; otherwise the new log is appended, and the invariant is kept |
| HabitLogsRoute.Take | app/api/habit-logs/route.ts:51 | `limit(n)` keeps the first `min(n, length)` rows |
| HabitLogsRoute.PageFromSelection | app/api/habit-logs/route.ts:49-66 | every returned log is a selected log |
| HabitLogsRoute.Get | app/api/habit-logs/route.ts:10-86 | 401; the query error as 400; otherwise `min(limit, selected)` selected logs, those without `completed_at` first then newest first, with no newer selected log left out |
| HabitLogsRoute.PrefixKeepsNewer | app/api/habit-logs/route.ts:50-51 | a prefix of the ordered selection leaves out no log newer than one it keeps |
| HabitLogsRoute.GetReturnsSelectedRows | app/api/habit-logs/route.ts:10-86 | every returned log is a stored log of the caller's habits that passes the filters |
| HabitLogsRoute.DefaultLimit | app/api/habit-logs/route.ts:36 | without a limit at most 50 logs come back, and all of them when fewer are selected |
| HabitsRoute.HabitTable.constructor | app/api/habits/route.ts:93-104 | the table holds the given rows |
| HabitsRoute.ActiveNewestFirst | app/api/habits/route.ts:33-38 | exactly the user's active habits, never more rows than the table, newest created first |
| HabitsRoute.Get | app/api/habits/route.ts:10-58 | 401 without a valid token; the query error as 400; otherwise the caller's active habits, newest first |
| HabitsRoute.OrDefault | app/api/habits/route.ts:98-99 | `x \|\| d`: the value when present and non-empty, the default otherwise |
| HabitsRoute.NewHabit | app/api/habits/route.ts:95-102 | the caller owns the row; it has the given name and reminder time, is active, and takes icon 🎯, type positive and a daily frequency when those are missing |
| HabitsRoute.Post | app/api/habits/route.ts:61-125 | 401; 400 without a name; the insert error as 400 with nothing written; otherwise exactly the new habit is appended and returned |
| HabitsRoute.CreatedHabitListed | app/api/habits/route.ts:33-38 | a habit created by a user appears in that user's next listing and in no other user's |
| NotificationSettingsRoute.Defaults | app/api/user/notifications/route.ts:47-55 | every notification on, reminders at 09:00, owned by the user |
| NotificationSettingsRoute.Get | app/api/user/notifications/route.ts:10-68 | 401; 400 on an error other than no rows; otherwise the caller's row, or the defaults when the caller has none |
| NotificationSettingsRoute.Apply | app/api/user/notifications/route.ts:96-107 | an update keeps the row's owner, and an update with no fields leaves the row as it is |
| NotificationSettingsRoute.Inserted | app/api/user/notifications/route.ts:111-123 | a new row is the defaults overridden by the fields the request supplies |
| NotificationSettingsRoute.ApplyIdempotent | app/api/user/notifications/route.ts:96-107 | sending the same update twice leaves the row as sending it once |
| NotificationSettingsRoute.SettingsTable.constructor | app/api/user/notifications/route.ts:33-37 | the table holds the given rows |
| NotificationSettingsRoute.Put | app/api/user/notifications/route.ts:71-158 | 401; the caller's row is updated when it exists and inserted when the update finds none; any error gives 400 and writes nothing; no other user's row changes |
| NotificationSettingsRoute.PutThenGet | app/api/user/notifications/route.ts:33-60 | after the caller's row is written, the caller's GET returns it and another user's GET is unchanged |
| NotificationSettingsRoute.EmptyPutStoresDefaults | app/api/user/notifications/route.ts:47-55 | a first PUT without fields stores the same settings GET reported as defaults |
| SettingsPage.ReminderTimeIsClockTime | app/settings/page.tsx:175 | the pattern `^([01]?[0-9]\|2[0-3]):[0-5][0-9]$` accepts exactly `H:MM` or `HH:MM` with an hour of at most 23 and a minute of at most 59 |
| SettingsPage.ReminderTimeExamples | app/settings/page.tsx:175 | `9:05`, `09:00` and `23:59` pass; `24:00`, `7:5` and `09:60` fail |
| SettingsPage.CheckNotifications | app/settings/page.tsx:170-180 | the save goes ahead exactly when the reminder time is empty or a clock time; otherwise the invalid-time message is shown |
| SettingsPage.DefaultsPass | app/settings/page.tsx:19-24 | the page's initial settings pass the check |
| SettingsPage.Load | app/settings/page.tsx:52-92 | a successful reply with data replaces the four settings; a 401, a 404 or any other failure keeps the current ones |
| SettingsPage.CheckProfile | app/settings/page.tsx:106-133 | a name made only of white space is refused with the empty-name message; otherwise the trimmed, non-empty name is sent |
| SettingsPage.SentNameTrimmed | app/settings/page.tsx:111-132 | the name sent neither begins nor ends with white space |
| AuthForm.CountCharAppend | src/components/auth/AuthForm.tsx:41 | counting a character in a concatenation adds the counts of the parts |
| AuthForm.CountCharNone | src/components/auth/AuthForm.tsx:41 | a text without the character counts none of it |
| AuthForm.EmailShape | src/components/auth/AuthForm.tsx:41 | an address the pattern accepts has no white space and exactly one `@` |
| AuthForm.EmailExamples | src/components/auth/AuthForm.tsx:41 | `a@b.c` passes; `a@b`, `@b.c` and `a@.c` fail |
| AuthForm.AstralPasswordLength | src/components/auth/AuthForm.tsx:47 | three emoji are three characters but six code units, enough for the length rule |
| AuthForm.ValidateForm | src/components/auth/AuthForm.tsx:36-62 | the form is valid iff no error is recorded; the email is flagged iff empty or malformed, the password iff shorter than 6 UTF-16 code units, the name and the confirmation only when registering, each with its own message, and the name and confirmation messages are the required-name and mismatch texts |
| AuthForm.GetErrorMessage | src/components/auth/AuthForm.tsx:64-98 | the resend option appears iff a login failed for an unconfirmed email; the message shown is never empty |
| AuthForm.Fallback | src/components/auth/AuthForm.tsx:97 | an unknown message is shown as it is, an empty one as the generic failure text, without the resend option |
| AuthForm.UnknownMessageShownAsIs | src/components/auth/AuthForm.tsx:64-98 | an empty message gives the generic text and an unmatched one is shown unchanged, on login and on sign-up |
| AuthForm.HandleInputChange | src/components/auth/AuthForm.tsx:29-34 | the field takes the typed value; its error, if any, is blanked; every other value and error is kept |
| AuthStore.ProfileTable.constructor | src/store/authStore.ts:49-52 | the table holds the given names |
| AuthStore.ProfileTable.Insert | src/store/authStore.ts:49-52 | a new id gets the name; an existing id's insert fails and changes nothing |
| AuthStore.Store.constructor | src/store/authStore.ts:16-19 | nobody signed in, still loading |
| AuthStore.Store.SignIn | src/store/authStore.ts:21-32 | the user and session are adopted only when both come back; the error is returned unchanged; signed in iff a session is held |
| AuthStore.Store.SignUp | src/store/authStore.ts:34-56 | as sign-in, and a signed-in new user also gets a profile row with the given name unless one exists |
| AuthStore.Store.SignOut | src/store/authStore.ts:58-61 | always ends with no user and no session |
| AuthStore.Store.Initialize | src/store/authStore.ts:71-110 | a stored session is adopted, none keeps the state; loading always ends false |
| AuthStore.Store.OnAuthStateChange | src/store/authStore.ts:81-107 | a sign-out or an event without a session clears both; any other event adopts its session; only a sign-in with a metadata name may add a profile, and only for a user without one |
| AuthStore.Lifecycle | src/store/authStore.ts:16-111 | after initialising, signing in, a refresh and a sign-out, nobody is signed in, loading is over and the invariant holds |
| AvatarUpload.Extension | app/api/upload/avatar/route.ts:71 | the text after the last `.`, the whole name when it has none; never contains a `.` |
| AvatarUpload.ObjectKey | app/api/upload/avatar/route.ts:72 | every key lies under `avatars/` |
| AvatarUpload.KeyKeepsExtension | app/api/upload/avatar/route.ts:71-72 | the file's extension is recovered as the text after the key's last `.` |
| AvatarUpload.AfterLastOfSuffix | app/api/upload/avatar/route.ts:71-72 | appending `.` and dot-free text makes that text the part after the last `.` |
| AvatarUpload.PublicUrl | app/api/upload/avatar/route.ts:86 | the public address ends with the object's key |
| AvatarUpload.Upload | app/api/upload/avatar/route.ts:19-113 | 401; then, checked in this order, 400 `No file provided`, 400 `请选择图片文件` for a type not starting with `image/`, 400 `图片大小不能超过5MB` above 5 MiB, and 400 with the profile update's error message; success exactly when all pass, and then the address of the stored key |
| AvatarUpload.SizeBoundary | app/api/upload/avatar/route.ts:63 | exactly 5 MiB is accepted and one byte more is refused |
| ContentRoute.GetCategory | app/api/content/route.ts:13 | the requested category, or `general` when it is absent or empty |
| ContentRoute.RowsOf | app/api/content/route.ts:15-18 | exactly the rows of the category |
| ContentRoute.ContentMap | app/api/content/route.ts:28-31 | the reduce loop builds the map that `Reduced` specifies |
| ContentRoute.ReducedLastWins | app/api/content/route.ts:28-31 | the map has exactly the rows' keys, and each holds the value of the last row with that key |
| ContentRoute.Get | app/api/content/route.ts:10-44 | the query error as 400; otherwise the key-to-value map of the requested category |
| ContentRoute.GetReadsTable | app/api/content/route.ts:15-31 | over a listing of the stored table, the map holds exactly the category's keys with their stored values |
| ContentRoute.PutThenGet | app/api/content/route.ts:15-31 | after a row is stored, its category's map returns its value under its key |
| ContentRoute.ContentTable.constructor | app/api/content/route.ts:82-91 | the table holds the given rows |
| ContentRoute.Put | app/api/content/route.ts:47-112 | 401; 400 `Key and value are required` when the key or the value is missing or empty; 400 with the upsert's error message when it fails; nothing written on any failure; otherwise the row is written under its key, the category defaulting to `general` |

## Left out
- Time zones: every day normalisation (`toISOString` in UTC, `setHours` and `toDateString` in local time, `getDay`) is the one UTC day number `Days.DayOf`, so the mismatches between local and UTC days at different call sites are not modelled.
- Rounding: `Math.round`, `toFixed` and the pixel maths of the bars are left out; rates and averages are exact reals.
- Floating point: `Math.ceil` over milliseconds is exact integer division (`Days.CeilDiv`); `NaN` from an unparsable date is not modelled.
- Timestamps without `completed_at`: where the source reads `completed_at` of every log unconditionally, a null column gives `new Date(null)`, the epoch (1 January 1970), so such a log would count as completed on day 0; the model instead requires every log to carry one (`AllCompleted`); this covers `HabitStore.Store.GetStreakCount`, `SrcHabitStore.Store.GetStreakCount`, `SrcAnalytics.FetchAnalyticsData` and the achievement-alert streaks.
- Network and external services: Supabase queries, the authentication service, Resend sends, the R2 object store and `fetch` calls are tables, maps or parameters (their answers and errors); query builders and JSON parsing are not modelled.
- The `get_habit_streak` database function of the statistics route is a parameter; its own definition is not part of this model.
- Row-level security: every table is read as the service role reads it; the database's access policies are not modelled.
- Concurrency: `Promise.all` fan-outs are sequential, and each check-then-insert of a log is one atomic step, so two concurrent inserts on one day are not modelled.
- The `catch` blocks that answer 500 and log to the console: a thrown exception is not modelled; the errors the routes inspect are parameters.
- `parseInt` of the query parameters: the limit and the period are numbers or absent; a non-numeric text is not modelled.
- Column defaults: the inserts of habits, habit logs and notification settings leave some columns to the database, and the model assumes their defaults: `created_at` is the instant of the insert (`now`), a new habit's `is_active` is true, and an absent notification setting takes the value GET reports by default (`true` for the three flags, `09:00` for the reminder time), as `HabitsRoute.NewHabit`, `HabitLogsRoute.Post` and `NotificationSettingsRoute.Inserted` state.
- `updated_at`: the timestamps the routes write on update are not part of the rows.
- `AnalyticsPage.PeriodRate`: the period is one of the page's three options (7, 30, 90), as its selector allows; other values are not modelled.
- `SrcHabitStore.Store.LogHabit`: requires the table invariant of at most one log per habit, user and day, which the store's own inserts keep; a table that already breaks it is not modelled.
- `store/habitStore.ts` `fetchStats`: it only copies the statistics route's answer into the store's `stats` field, which nothing in the model reads; the route itself is `StatsRoute.GetStats`.
- `src/store/authStore.ts` `resendConfirmation`: it only forwards to the authentication service and returns its error, without changing the store.
- The form submit handlers (`handleSubmit` of the sign-in form, the settings page's save requests) beyond their guards, and month navigation (`navigateMonth`) of the history page, which is `Date` arithmetic.
- Rendering: JSX, labels, colours, toasts, confirmation dialogs and the e-mail templates; only the figures they display are modelled.
- Text: `toLowerCase` folds ASCII letters only, and `trim` and `\s` recognise the ASCII white space characters plus no-break space and the byte-order mark, not every Unicode space.
- The text of the e-mails and the achievement descriptions beyond their titles and milestones.

=== FILE: achievement_alert.dfy ===
/**
 * The achievement-alert email route (app/api/emails/achievement-alert/route.ts):
 * the preference gate and the email contents of POST, the user statistics
 * with their longest-run loop, the achievement lookup, and the streak
 * milestone check of GET. Sending the email is a parameter (its error, if
 * any).
 */
module AchievementAlert {
  import opened Wrappers
  import opened Days
  import opened Strings
  import opened Entities
  import opened Streaks
  import opened Requests

  // ---------------------------------------------------------------------
  // Authentication and the preference gate

  /**
   * `if (!authHeader)` rejects a missing or empty header; otherwise the header
   * with `Bearer ` removed, possibly empty, is looked up.
   */
  function AlertAuth(header: Option<string>, sessions: map<string, User>): (r: Option<User>)
    ensures header.None? || header.value == "" ==> r.None?
    ensures r.Some? ==>
      (ReplaceFirst(header.value, BEARER, "") in sessions && r.value == sessions[ReplaceFirst(header.value, BEARER, "")])
  {
    if header.None? || header.value == "" then None
    else
      var token := ReplaceFirst(header.value, BEARER, "");
      if token in sessions then Some(sessions[token]) else None
  }

  /** The alert is skipped only when a settings row exists and turns achievement alerts off. */
  predicate AlertsDisabled(settings: Option<NotificationSettings>) {
    settings.Some? && !settings.value.achievementAlerts
  }

  /** A user without a settings row is not skipped. */
  lemma MissingSettingsNotSkipped()
    ensures !AlertsDisabled(None)
  {
  }

  // ---------------------------------------------------------------------
  // User statistics

  /**
   * The loop of `getUserStats` over the dates in ascending order: the
   * longest stretch of dates one day apart, 0 with no dates.
   */
  method LongestRunLoop(dates: seq<int>) returns (currentStreak: nat)
    ensures IsLongestRun(dates, currentStreak)
  {
    currentStreak := 0;
    if |dates| > 0 {
      var streak := 1;
      var maxStreak := 1;
      ghost var lo, hi := 0, 1;
      var i := 1;
      while i < |dates|
        invariant 1 <= i <= |dates|
        invariant 1 <= streak <= i && MaximalRunEndingAt(dates, i - streak, i)
        invariant 1 <= maxStreak && ConsecutiveRun(dates, lo, hi) && hi <= i && hi - lo == maxStreak
        invariant RunsBoundedBy(dates, i, maxStreak)
        invariant streak <= maxStreak
      {
        if dates[i] - dates[i - 1] == 1 {
          ExtendRun(dates, i - streak, i);
          streak := streak + 1;
          if streak > maxStreak {
            lo, hi := i + 1 - streak, i + 1;
          }
          maxStreak := Max(maxStreak, streak);
        } else {
          streak := 1;
        }
        BoundExtends(dates, i, i + 1 - streak, maxStreak);
        i := i + 1;
      }
      currentStreak := maxStreak;
    }
  }

  /** `[lo, j)` is a stretch one day apart that cannot be extended to the left. */
  predicate MaximalRunEndingAt(s: seq<int>, lo: int, j: int) {
    ConsecutiveRun(s, lo, j) && (lo == 0 || s[lo] != s[lo - 1] + 1)
  }

  /** No stretch within the first `i` dates is longer than `m`. */
  ghost predicate RunsBoundedBy(s: seq<int>, i: int, m: int) {
    forall a, b :: 0 <= a < b <= i && ConsecutiveRun(s, a, b) ==> b - a <= m
  }

  /** A date one day after the last one extends a stretch, keeping it maximal. */
  lemma ExtendRun(s: seq<int>, lo: int, i: int)
    requires MaximalRunEndingAt(s, lo, i) && i < |s| && s[i] - s[i - 1] == 1
    ensures MaximalRunEndingAt(s, lo, i + 1)
  {
  }

  /** A maximal stretch ending at `i + 1` of length at most `m` extends the bound to the first `i + 1` dates. */
  lemma BoundExtends(s: seq<int>, i: int, lo: int, m: int)
    requires 0 <= i < |s| && RunsBoundedBy(s, i, m)
    requires MaximalRunEndingAt(s, lo, i + 1) && i + 1 - lo <= m
    ensures RunsBoundedBy(s, i + 1, m)
  {
    forall a, b | 0 <= a < b <= i + 1 && ConsecutiveRun(s, a, b) ensures b - a <= m {
      if b == i + 1 {
        RunStartsAfter(s, a, lo, b);
      }
    }
  }

  /** A stretch ending at `j` cannot start before the start `lo` of a stretch that cannot be extended to the left. */
  lemma RunStartsAfter(s: seq<int>, a: int, lo: int, j: int)
    requires ConsecutiveRun(s, a, j) && 0 <= lo < j
    requires lo == 0 || s[lo] != s[lo - 1] + 1
    ensures a >= lo
  {
    if lo > 0 {
      assert s[lo] != s[lo - 1] + 1;
    }
  }

  datatype UserStats = UserStats(totalHabits: nat, completedToday: nat, currentStreak: nat)

  /** The user's log days in ascending order: `dates` of `getUserStats`. */
  function AscendingDates(logTable: seq<HabitLog>, userId: Id): (r: seq<int>)
    requires AllCompleted(logTable)
    ensures forall i, j :: 0 <= i < j < |r| ==> r[i] <= r[j]
  {
    var mine := Filter(logTable, (l: HabitLog) => l.userId == userId);
    assert AllCompleted(mine) by {
      forall m | 0 <= m < |mine| ensures mine[m].completedAt.Some? {
        var n :| 0 <= n < |logTable| && logTable[n] == mine[m];
      }
    }
    SortAsc(DaysOf(CompletionTimes(mine)))
  }

  /**
   * `stats` are the user's statistics: the number of active habits, the
   * number of logs completed today, and the longest run of consecutive log
   * days, which is 0 exactly when the user has no logs.
   */
  ghost predicate StatsOf(stats: UserStats, habitTable: seq<Habit>, logTable: seq<HabitLog>, userId: Id, today: int)
    requires AllCompleted(logTable)
  {
    stats.totalHabits == Count(habitTable, (h: Habit) => h.userId == userId && h.isActive)
    && stats.completedToday == Count(logTable, (l: HabitLog) => l.userId == userId && CompletedOn(l, today))
    && IsLongestRun(AscendingDates(logTable, userId), stats.currentStreak)
    && (AscendingDates(logTable, userId) == [] <==> stats.currentStreak == 0)
  }

  /**
   * `getUserStats`: the user's active habits, logs completed today, and the
   * longest run of consecutive log days (0 with no logs, otherwise at least 1).
   */
  method GetUserStats(habitTable: seq<Habit>, logTable: seq<HabitLog>, userId: Id, today: int)
    returns (stats: UserStats)
    requires AllCompleted(logTable)
    ensures StatsOf(stats, habitTable, logTable, userId, today)
  {
    var totalHabits := Count(habitTable, (h: Habit) => h.userId == userId && h.isActive);
    var completedToday := Count(logTable, (l: HabitLog) => l.userId == userId && CompletedOn(l, today));
    var dates := AscendingDates(logTable, userId);
    var currentStreak := LongestRunLoop(dates);
    if dates != [] {
      LongestRunBounds(dates, currentStreak);
    }
    stats := UserStats(totalHabits, completedToday, currentStreak);
  }

  /** A repeated date breaks the run: two logs on one day followed by the next day give a run of 2. */
  lemma RepeatedDateRestarts(d: int)
    ensures IsLongestRun([d, d, d + 1], 2)
  {
    var s := [d, d, d + 1];
    assert ConsecutiveRun(s, 1, 3);
    forall a, b | 0 <= a < b <= 3 && ConsecutiveRun(s, a, b) ensures b - a <= 2 {
      assert s[1] != s[0] + 1;
    }
  }

  // ---------------------------------------------------------------------
  // Achievement lookup

  datatype Achievement = Achievement(
    kind: string,
    title: string,
    emoji: string,
    habitName: Option<string>,
    milestone: Option<int>)

  const KNOWN_TYPES: seq<string> :=
    ["streak_milestone", "habit_completion", "weekly_goal", "monthly_goal", "first_habit", "consistency", "comeback"]

  /** `milestone || 7`: an absent or zero milestone reads as 7. */
  function MilestoneOr7(milestone: Option<int>): int {
    if milestone.None? || milestone.value == 0 then 7 else milestone.value
  }

  /**
   * `generateAchievementInfo`: the entry of the requested type, or the
   * `habit_completion` entry for any other string. Only the streak,
   * completion and first-habit entries carry the habit name, and only the
   * streak entry carries the milestone.
   */
  function AchievementInfo(kind: string, habitName: Option<string>, milestone: Option<int>): (r: Achievement)
    ensures kind in KNOWN_TYPES ==> r.kind == kind
    ensures kind !in KNOWN_TYPES ==> r.kind == "habit_completion"
    ensures r.kind == "streak_milestone" ==>
      (r.title == IntToString(MilestoneOr7(milestone)) + "天连续完成！" && r.milestone == milestone)
    ensures r.kind != "streak_milestone" ==> r.milestone.None?
    ensures r.habitName == (if r.kind in ["streak_milestone", "habit_completion", "first_habit"] then habitName else None)
  {
    match kind
    case "streak_milestone" =>
      Achievement(kind, IntToString(MilestoneOr7(milestone)) + "天连续完成！", "🔥", habitName, milestone)
    case "weekly_goal" => Achievement(kind, "周目标达成！", "🎯", None, None)
    case "monthly_goal" => Achievement(kind, "月度目标达成！", "🏆", None, None)
    case "first_habit" => Achievement(kind, "第一个习惯！", "🌱", habitName, None)
    case "consistency" => Achievement(kind, "一致性大师！", "💪", None, None)
    case "comeback" => Achievement(kind, "重新出发！", "🎉", None, None)
    case _ => Achievement("habit_completion", "习惯完成成就！", "✅", habitName, None)
  }

  /** Without a milestone the streak title reads `7天连续完成！`. */
  lemma DefaultMilestoneTitle(habitName: Option<string>)
    ensures AchievementInfo("streak_milestone", habitName, None).title == "7天连续完成！"
  {
  }

  // ---------------------------------------------------------------------
  // POST

  datatype AlertEmail = AlertEmail(to: string, username: string, achievement: Achievement, stats: UserStats)

  datatype AlertResult = Skipped | Sent(email: AlertEmail)

  /**
   * POST: authenticate, apply the preference gate, then build the email from
   * the habit name (looked up among the user's habits with `.single()`),
   * the user statistics and the achievement (`habit_completion` when no type
   * is given). A send error gives 500 with its message.
   */
  method AlertPost(header: Option<string>, sessions: map<string, User>,
                   achievementType: Option<string>, habitId: Option<Id>, milestone: Option<int>,
                   profileName: Option<string>, settings: Option<NotificationSettings>,
                   habitTable: seq<Habit>, logTable: seq<HabitLog>, today: int, sendError: Option<string>)
    returns (reply: Reply<AlertResult>)
    requires AllCompleted(logTable)
    ensures AlertAuth(header, sessions).None? ==> reply.Fail? && reply.status == 401
    ensures AlertAuth(header, sessions).Some? && AlertsDisabled(settings) ==> reply == Ok(200, Skipped)
    ensures AlertAuth(header, sessions).Some? && !AlertsDisabled(settings) && sendError.Some? ==>
      reply == Fail(500, sendError.value)
    ensures AlertAuth(header, sessions).Some? && !AlertsDisabled(settings) && sendError.None? ==>
      reply.Ok? && reply.data.Sent?
      && reply.data.email.to == AlertAuth(header, sessions).value.email
      && reply.data.email.username == (if profileName.Some? && profileName.value != "" then profileName.value else "用户")
      && reply.data.email.achievement == AchievementInfo(RequestedType(achievementType),
           HabitName(habitTable, habitId, AlertAuth(header, sessions).value.id), milestone)
      && StatsOf(reply.data.email.stats, habitTable, logTable, AlertAuth(header, sessions).value.id, today)
  {
    var user := AlertAuth(header, sessions);
    if user.None? {
      if header.None? || header.value == "" {
        return Fail(401, "Authorization header required");
      }
      return Fail(401, "Invalid token");
    }
    if AlertsDisabled(settings) {
      return Ok(200, Skipped);
    }
    var habitName := HabitName(habitTable, habitId, user.value.id);
    var stats := GetUserStats(habitTable, logTable, user.value.id, today);
    var achievement := AchievementInfo(RequestedType(achievementType), habitName, milestone);
    if sendError.Some? {
      return Fail(500, sendError.value);
    }
    var username := if profileName.Some? && profileName.value != "" then profileName.value else "用户";
    reply := Ok(200, Sent(AlertEmail(user.value.email, username, achievement, stats)));
  }

  /** `achievementType || 'habit_completion'`. */
  function RequestedType(achievementType: Option<string>): string {
    if achievementType.Some? && achievementType.value != "" then achievementType.value else "habit_completion"
  }

  /** The name of the habit with that id owned by the user, when exactly one row matches. */
  function HabitName(habitTable: seq<Habit>, habitId: Option<Id>, userId: Id): (r: Option<string>)
    ensures habitId.None? ==> r.None?
    ensures r.Some? ==> exists i :: (0 <= i < |habitTable| && habitTable[i].id == habitId.value
      && habitTable[i].userId == userId && habitTable[i].name == r.value)
  {
    if habitId.None? || habitId.value == "" then None
    else
      match Single(Filter(habitTable, (h: Habit) => h.id == habitId.value && h.userId == userId))
      case None => None
      case Some(h) => Some(h.name)
  }

  // ---------------------------------------------------------------------
  // GET: streak milestones

  const MILESTONES: seq<int> := [7, 14, 30, 60, 100]
  const LOG_LIMIT: nat := 100

  datatype MilestoneEntry = MilestoneEntry(habitId: Id, habitName: string, milestone: int)

  /** The days of a habit's newest (at most 100) logs of the user, newest first. */
  function RecentDays(logTable: seq<HabitLog>, habitId: Id, userId: Id): (r: seq<int>)
    requires AllCompleted(logTable)
    ensures |r| <= LOG_LIMIT
    ensures forall i, j :: 0 <= i < j < |r| ==> r[i] >= r[j]
  {
    var mine := Filter(logTable, (l: HabitLog) => l.habitId == habitId && l.userId == userId);
    assert AllCompleted(mine) by {
      forall m | 0 <= m < |mine| ensures mine[m].completedAt.Some? {
        var n :| 0 <= n < |logTable| && logTable[n] == mine[m];
      }
    }
    var newest := SortDesc(CompletionTimes(mine));
    var limited := newest[..Min(|newest|, LOG_LIMIT)];
    DaysOfSortedDesc(limited);
    DaysOf(limited)
  }

  /** The entries one habit contributes: one when its streak is a milestone, none otherwise. */
  function EntriesFor(h: Habit, streak: nat): (r: seq<MilestoneEntry>)
    ensures |r| <= 1
    ensures |r| == 1 <==> streak in MILESTONES
    ensures |r| == 1 ==> r[0] == MilestoneEntry(h.id, h.name, streak)
  {
    if streak in MILESTONES then [MilestoneEntry(h.id, h.name, streak)] else []
  }

  /** The walk of log `i` against the day `i` days before today, over the recent days. */
  function HabitStreak(logTable: seq<HabitLog>, h: Habit, userId: Id, today: int): (r: nat)
    requires AllCompleted(logTable)
    ensures r <= LOG_LIMIT
  {
    WalkBack(RecentDays(logTable, h.id, userId), today)
  }

  /** The achievements of the habits `hs`, in order. */
  function StreakAchievements(hs: seq<Habit>, logTable: seq<HabitLog>, userId: Id, today: int): (r: seq<MilestoneEntry>)
    requires AllCompleted(logTable)
    ensures |r| <= |hs|
  {
    if hs == [] then []
    else
      var last := hs[|hs| - 1];
      StreakAchievements(hs[..|hs| - 1], logTable, userId, today)
        + EntriesFor(last, HabitStreak(logTable, last, userId, today))
  }

  /** The achievements of the first `k + 1` habits extend those of the first `k` by habit `k`'s entries. */
  lemma StreakAchievementsStep(hs: seq<Habit>, k: nat, logTable: seq<HabitLog>, userId: Id, today: int)
    requires AllCompleted(logTable) && k < |hs|
    ensures StreakAchievements(hs[..k + 1], logTable, userId, today)
      == StreakAchievements(hs[..k], logTable, userId, today) + EntriesFor(hs[k], HabitStreak(logTable, hs[k], userId, today))
  {
    assert hs[..k + 1][..k] == hs[..k];
  }

  /** The counting loop of one habit: stops at the first log not on the expected day. */
  method CountStreak(days: seq<int>, today: int) returns (currentStreak: nat)
    ensures currentStreak == WalkBack(days, today)
  {
    currentStreak := 0;
    var i := 0;
    while i < |days|
      invariant 0 <= i <= |days| && currentStreak == i
      invariant forall k :: 0 <= k < i ==> days[k] == today - k
    {
      if days[i] == today - i {
        currentStreak := currentStreak + 1;
      } else {
        break;
      }
      i := i + 1;
    }
    WalkBackUnique(days, today, currentStreak);
  }

  /** The milestone loop: an entry for each milestone equal to the streak. */
  method MilestoneCheck(h: Habit, currentStreak: nat) returns (entries: seq<MilestoneEntry>)
    ensures entries == EntriesFor(h, currentStreak)
  {
    entries := [];
    var j := 0;
    while j < |MILESTONES|
      invariant 0 <= j <= |MILESTONES|
      invariant entries == (if currentStreak in MILESTONES[..j] then [MilestoneEntry(h.id, h.name, currentStreak)] else [])
    {
      assert MILESTONES[..j + 1] == MILESTONES[..j] + [MILESTONES[j]];
      if currentStreak == MILESTONES[j] {
        entries := entries + [MilestoneEntry(h.id, h.name, MILESTONES[j])];
      }
      j := j + 1;
    }
    assert MILESTONES[..j] == MILESTONES;
  }

  /** The loop body for one habit: no logs give nothing; otherwise its streak loop, then its milestone loop. */
  method HabitAchievements(h: Habit, logTable: seq<HabitLog>, userId: Id, today: int)
    returns (entries: seq<MilestoneEntry>)
    requires AllCompleted(logTable)
    ensures entries == EntriesFor(h, HabitStreak(logTable, h, userId, today))
  {
    var days := RecentDays(logTable, h.id, userId);
    if |days| > 0 {
      var currentStreak := CountStreak(days, today);
      entries := MilestoneCheck(h, currentStreak);
    } else {
      entries := [];
    }
  }

  /** `checkStreakAchievements` over the user's active habits (none when the query returns no data). */
  method CheckStreakAchievements(habits: Option<seq<Habit>>, logTable: seq<HabitLog>, userId: Id, today: int)
    returns (achievements: seq<MilestoneEntry>)
    requires AllCompleted(logTable)
    ensures habits.None? ==> achievements == []
    ensures habits.Some? ==> achievements == StreakAchievements(habits.value, logTable, userId, today)
  {
    achievements := [];
    if habits.None? {
      return;
    }
    var hs := habits.value;
    var k := 0;
    while k < |hs|
      invariant 0 <= k <= |hs|
      invariant achievements == StreakAchievements(hs[..k], logTable, userId, today)
    {
      StreakAchievementsStep(hs, k, logTable, userId, today);
      var entries := HabitAchievements(hs[k], logTable, userId, today);
      achievements := achievements + entries;
      k := k + 1;
    }
    assert hs[..k] == hs;
  }

  /** Every entry names a milestone; a streak of 8 yields nothing and a streak of 7 yields exactly one entry. */
  lemma MilestoneEntriesExact(h: Habit)
    ensures EntriesFor(h, 8) == []
    ensures EntriesFor(h, 7) == [MilestoneEntry(h.id, h.name, 7)]
    ensures forall s: nat :: |EntriesFor(h, s)| == 1 ==> EntriesFor(h, s)[0].milestone in MILESTONES
  {
  }
}

=== FILE: analytics_page.dfy ===
/**
 * The figures of the Next.js analytics page (app/analytics/page.tsx),
 * computed from the store's habits and logs.
 */
module AnalyticsPage {
  import opened Days
  import opened Entities

  /** `habits.filter(h => h.is_active !== false).length`: never more than all habits. */
  function ActiveHabits(habits: seq<Habit>): (r: nat)
    ensures r <= |habits|
    ensures r == |habits| <==> forall i :: 0 <= i < |habits| ==> habits[i].isActive
  {
    var active := Filter(habits, (h: Habit) => h.isActive);
    if forall i :: 0 <= i < |habits| ==> habits[i].isActive then
      FilterKeepsAll(habits, (h: Habit) => h.isActive);
      |active|
    else
      FilterShorter(habits, (h: Habit) => h.isActive);
      |active|
  }

  /** A filter that rejects some entry is strictly shorter than its input. */
  lemma {:induction false} FilterShorter<T>(s: seq<T>, p: T -> bool)
    requires exists i :: 0 <= i < |s| && !p(s[i])
    ensures |Filter(s, p)| < |s|
  {
    if p(s[0]) {
      var i :| 0 <= i < |s| && !p(s[i]);
      assert s[1..][i - 1] == s[i];
      FilterShorter(s[1..], p);
    }
  }

  /** The number of logs of one habit. */
  function LogCount(habitLogs: seq<HabitLog>, h: Habit): nat {
    |LogsOf(habitLogs, h.id)|
  }

  /**
   * The "longest streak" card, `Math.max(0, ...habits.map(h => logs of h .length))`:
   * the largest per-habit log count, 0 with no habits, never above the total log count.
   */
  function LongestStreak(habits: seq<Habit>, habitLogs: seq<HabitLog>): (r: int)
    ensures 0 <= r <= |habitLogs|
    ensures forall i :: 0 <= i < |habits| ==> LogCount(habitLogs, habits[i]) <= r
    ensures r == 0 || exists i :: 0 <= i < |habits| && LogCount(habitLogs, habits[i]) == r
  {
    MaxOf(habits, (h: Habit) => LogCount(habitLogs, h))
  }

  function Reverse<T>(s: seq<T>): (r: seq<T>)
    ensures |r| == |s|
    ensures forall i :: 0 <= i < |s| ==> r[i] == s[|s| - 1 - i]
  {
    if s == [] then [] else Reverse(s[1..]) + [s[0]]
  }

  /** `Array.from({ length: 7 }, (_, i) => today - i).reverse()`: the seven days ending today, oldest first. */
  function Last7Days(today: int): (r: seq<int>)
    ensures |r| == 7
    ensures forall j :: 0 <= j < 7 ==> r[j] == today - 6 + j
    ensures r[6] == today
  {
    Reverse(seq(7, i => today - i))
  }

  predicate IsDaily(h: Habit) {
    h.frequency.Some? && h.frequency.value.kind == "daily"
  }

  /** `log => log.completed_at?.startsWith(date)`. */
  function CompletedOnDay(date: int): HabitLog -> bool {
    (l: HabitLog) => CompletedOn(l, date)
  }

  datatype DayEntry = DayEntry(date: int, completed: nat, total: nat, rate: real)

  /** One day of `weeklyData`: logs completed that day over the number of daily habits. */
  function DayEntryOf(habits: seq<Habit>, habitLogs: seq<HabitLog>, date: int): (r: DayEntry)
    ensures r.date == date
    ensures r.completed == Count(habitLogs, CompletedOnDay(date))
    ensures r.total == Count(habits, IsDaily)
    ensures r.total == 0 ==> r.rate == 0.0
    ensures r.rate == Percent(r.completed, r.total)
  {
    var completed := Count(habitLogs, CompletedOnDay(date));
    var total := Count(habits, IsDaily);
    DayEntry(date, completed, total, Percent(completed, total))
  }

  /** `weeklyData`: one entry per day of `last7Days`, in the same order. */
  function WeeklyData(habits: seq<Habit>, habitLogs: seq<HabitLog>, today: int): (r: seq<DayEntry>)
    ensures |r| == 7
    ensures forall j :: 0 <= j < 7 ==> r[j] == DayEntryOf(habits, habitLogs, today - 6 + j)
  {
    Map(Last7Days(today), (d: int) => DayEntryOf(habits, habitLogs, d))
  }

  /** A log completes on at most one day, so the counts of two different days add up to at most all logs. */
  lemma {:induction false} DayCountsDisjoint(habitLogs: seq<HabitLog>, d1: int, d2: int)
    requires d1 != d2
    ensures Count(habitLogs, CompletedOnDay(d1)) + Count(habitLogs, CompletedOnDay(d2))
      <= |habitLogs|
  {
    CountDisjoint(habitLogs, CompletedOnDay(d1), CompletedOnDay(d2));
  }

  /**
   * The per-habit rate of the distribution card over the selected period
   * (7, 30 or 90 days): 0 with no logs, otherwise logs over period days.
   */
  function PeriodRate(logCount: nat, period: int): (r: real)
    requires period in {7, 30, 90}
    ensures r >= 0.0
    ensures logCount == 0 ==> r == 0.0
    ensures logCount > 0 ==> r * period as real == logCount as real * 100.0
  {
    if logCount > 0 then (logCount as real / period as real) * 100.0 else 0.0
  }

  /** The bar width `Math.min(rate, 100)`: never above 100, and the rate itself when it is not. */
  function BarWidth(rate: real): (r: real)
    ensures r <= 100.0
    ensures rate <= 100.0 ==> r == rate
  {
    if rate <= 100.0 then rate else 100.0
  }

  /** A habit logged more often than the period has days shows a rate above 100 and a full bar. */
  lemma OverfullPeriod(logCount: nat, period: int)
    requires period in {7, 30, 90} && logCount > period
    ensures PeriodRate(logCount, period) > 100.0
    ensures BarWidth(PeriodRate(logCount, period)) == 100.0
  {
    var r := PeriodRate(logCount, period);
    assert r * period as real > period as real * 100.0;
  }
}

=== FILE: auth_form.dfy ===
/**
 * The validation and error reporting of the sign-in / sign-up form
 * (src/components/auth/AuthForm.tsx). Field values and field errors are maps
 * from field name to text, as the form keeps them.
 */
module AuthForm {
  import opened Wrappers
  import opened Strings

  const EMAIL: string := "email"
  const PASSWORD: string := "password"
  const NAME: string := "name"
  const CONFIRM: string := "confirmPassword"

  const EMAIL_REQUIRED: string := "请输入邮箱地址"
  const EMAIL_INVALID: string := "请输入有效的邮箱地址"
  const PASSWORD_REQUIRED: string := "请输入密码"
  const PASSWORD_SHORT: string := "密码至少需要6个字符"
  const NAME_REQUIRED: string := "请输入姓名"
  const PASSWORD_MISMATCH: string := "两次输入的密码不一致"

  const MIN_PASSWORD: nat := 6

  datatype Mode = Login | Register

  // ---------------------------------------------------------------------
  // The email pattern `^[^\s@]+@[^\s@]+\.[^\s@]+$`

  /** Text of the class `[^\s@]`: no white space and no `@`. */
  predicate Plain(t: string) {
    forall k :: 0 <= k < |t| ==> !IsWhitespace(t[k]) && t[k] != '@'
  }

  /** `[^\s@]+\.[^\s@]+`: plain text with a `.` that has text on both sides. */
  predicate DottedDomain(d: string) {
    Plain(d) && exists i :: 0 < i < |d| - 1 && d[i] == '.'
  }

  predicate EmailMatches(s: string) {
    exists at :: 0 <= at < |s| && s[at] == '@' && s[..at] != "" && Plain(s[..at]) && DottedDomain(s[at + 1..])
  }

  function CountChar(s: string, c: char): nat {
    if s == [] then 0 else (if s[0] == c then 1 else 0) + CountChar(s[1..], c)
  }

  lemma {:induction false} CountCharAppend(a: string, b: string, c: char)
    ensures CountChar(a + b, c) == CountChar(a, c) + CountChar(b, c)
  {
    if a == [] {
      assert a + b == b;
    } else {
      assert (a + b)[1..] == a[1..] + b;
      CountCharAppend(a[1..], b, c);
    }
  }

  lemma {:induction false} CountCharNone(s: string, c: char)
    requires forall k :: 0 <= k < |s| ==> s[k] != c
    ensures CountChar(s, c) == 0
  {
    if s != [] {
      CountCharNone(s[1..], c);
    }
  }

  /** An accepted address has no white space and exactly one `@`. */
  lemma EmailShape(s: string)
    requires EmailMatches(s)
    ensures forall k :: 0 <= k < |s| ==> !IsWhitespace(s[k])
    ensures CountChar(s, '@') == 1
  {
    var at :| 0 <= at < |s| && s[at] == '@' && s[..at] != "" && Plain(s[..at]) && DottedDomain(s[at + 1..]);
    var local, domain := s[..at], s[at + 1..];
    assert s == local + ['@'] + domain;
    PlainAroundAt(local, domain);
    OneAtBetweenPlain(local, domain);
  }

  /** Plain text on both sides of an `@` leaves exactly that one `@`. */
  lemma OneAtBetweenPlain(local: string, domain: string)
    requires Plain(local) && Plain(domain)
    ensures CountChar(local + ['@'] + domain, '@') == 1
  {
    CountCharNone(local, '@');
    CountCharNone(domain, '@');
    CountCharAppend(local + ['@'], domain, '@');
    CountCharAppend(local, ['@'], '@');
  }

  /** Plain text on both sides of an `@` leaves no white space anywhere. */
  lemma PlainAroundAt(local: string, domain: string)
    requires Plain(local) && Plain(domain)
    ensures forall k :: 0 <= k < |local + ['@'] + domain| ==> !IsWhitespace((local + ['@'] + domain)[k])
  {
    var s := local + ['@'] + domain;
    forall k | 0 <= k < |s| ensures !IsWhitespace(s[k]) {
      if k < |local| {
        assert s[k] == local[k];
      } else if k > |local| {
        assert s[k] == domain[k - |local| - 1];
      }
    }
  }

  lemma EmailExamples()
    ensures EmailMatches("a@b.c")
    ensures !EmailMatches("a@b") && !EmailMatches("@b.c") && !EmailMatches("a@.c")
  {
    assert "a@b.c"[..1] == "a" && "a@b.c"[2..] == "b.c";
    assert "b.c"[1] == '.';
    assert "a@b"[2..] == "b";
    assert "a@.c"[2..] == ".c";
  }

  // ---------------------------------------------------------------------
  // validateForm

  /** The error the email field gets, if any. */
  function EmailError(email: string): Option<string> {
    if email == "" then Some(EMAIL_REQUIRED)
    else if !EmailMatches(email) then Some(EMAIL_INVALID)
    else None
  }

  /** Three characters beyond U+FFFF are six code units: long enough for the password rule. */
  lemma AstralPasswordLength()
    ensures |"\U{1F600}\U{1F600}\U{1F600}"| == 3
    ensures Utf16Length("\U{1F600}\U{1F600}\U{1F600}") == 6 >= MIN_PASSWORD
  {
    var e := "\U{1F600}";
    assert "\U{1F600}\U{1F600}\U{1F600}" == e + e + e;
    Utf16LengthAppend(e + e, e);
    Utf16LengthAppend(e, e);
    assert e[..0] == [];
  }

  /**
   * `validateForm`: records an error per failing field in a fresh map; the
   * name and the confirmation are checked only when registering. The form is
   * valid iff no error was recorded.
   */
  method ValidateForm(form: map<string, string>, mode: Mode) returns (valid: bool, newErrors: map<string, string>)
    ensures valid <==> newErrors == map[]
    ensures newErrors.Keys <= {EMAIL, PASSWORD, NAME, CONFIRM}
    ensures var email := if EMAIL in form then form[EMAIL] else "";
      (EMAIL in newErrors <==> email == "" || !EmailMatches(email))
      && (EMAIL in newErrors ==> newErrors[EMAIL] == (if email == "" then EMAIL_REQUIRED else EMAIL_INVALID))
    ensures var pw := if PASSWORD in form then form[PASSWORD] else "";
      (PASSWORD in newErrors <==> Utf16Length(pw) < MIN_PASSWORD)
      && (PASSWORD in newErrors ==> newErrors[PASSWORD] == (if pw == "" then PASSWORD_REQUIRED else PASSWORD_SHORT))
    ensures NAME in newErrors <==> mode == Register && (NAME !in form || form[NAME] == "")
    ensures NAME in newErrors ==> newErrors[NAME] == NAME_REQUIRED
    ensures CONFIRM in newErrors ==> newErrors[CONFIRM] == PASSWORD_MISMATCH
    ensures CONFIRM in newErrors <==> (mode == Register
      && (if PASSWORD in form then form[PASSWORD] else "") != (if CONFIRM in form then form[CONFIRM] else ""))
  {
    var email := if EMAIL in form then form[EMAIL] else "";
    var password := if PASSWORD in form then form[PASSWORD] else "";
    var name := if NAME in form then form[NAME] else "";
    var confirm := if CONFIRM in form then form[CONFIRM] else "";
    newErrors := map[];
    if email == "" {
      newErrors := newErrors[EMAIL := EMAIL_REQUIRED];
    } else if !EmailMatches(email) {
      newErrors := newErrors[EMAIL := EMAIL_INVALID];
    }
    if password == "" {
      newErrors := newErrors[PASSWORD := PASSWORD_REQUIRED];
    } else if Utf16Length(password) < MIN_PASSWORD {
      newErrors := newErrors[PASSWORD := PASSWORD_SHORT];
    }
    if mode == Register {
      if name == "" {
        newErrors := newErrors[NAME := NAME_REQUIRED];
      }
      if password != confirm {
        newErrors := newErrors[CONFIRM := PASSWORD_MISMATCH];
      }
    }
    valid := |newErrors.Keys| == 0;
    if !valid {
      assert newErrors != map[];
    }
  }

  // ---------------------------------------------------------------------
  // getErrorMessage

  datatype Feedback = Feedback(userMessage: string, showResend: bool)

  const FALLBACK: string := "操作失败，请重试"

  /** The message of a failed request: known login and sign-up errors are translated; others are shown as they are. */
  function GetErrorMessage(message: string, isLogin: bool): (r: Feedback)
    ensures r.showResend <==> isLogin && (Contains(message, "Email not confirmed") || Contains(message, "email_not_confirmed"))
    ensures r.userMessage != ""
  {
    if isLogin then
      if Contains(message, "Email not confirmed") || Contains(message, "email_not_confirmed") then
        Feedback("请先验证您的邮箱地址后再登录", true)
      else if Contains(message, "Invalid login credentials") then Feedback("邮箱或密码错误，请检查后重试", false)
      else if Contains(message, "Too many requests") then Feedback("登录尝试次数过多，请稍后再试", false)
      else if Contains(message, "User not found") then Feedback("该邮箱尚未注册，请先注册账户", false)
      else Fallback(message)
    else
      if Contains(message, "User already registered") then Feedback("该邮箱已被注册，请直接登录", false)
      else if Contains(message, "Password should be at least") then Feedback("密码长度至少需要6个字符", false)
      else if Contains(message, "Invalid email") then Feedback("请输入有效的邮箱地址", false)
      else if Contains(message, "Signup is disabled") then Feedback("当前不允许注册新用户", false)
      else Fallback(message)
  }

  function Fallback(message: string): (r: Feedback)
    ensures r.userMessage == (if message == "" then FALLBACK else message) && !r.showResend
  {
    Feedback(if message == "" then FALLBACK else message, false)
  }

  /** A message matching no known error is shown unchanged; an empty one becomes the generic text. */
  lemma UnknownMessageShownAsIs(isLogin: bool)
    ensures GetErrorMessage("", isLogin) == Feedback(FALLBACK, false)
    ensures GetErrorMessage("quota", isLogin) == Feedback("quota", false)
  {
    assert !Contains("", "Email not confirmed") && !Contains("", "User already registered");
  }

  // ---------------------------------------------------------------------
  // handleInputChange

  /** Typing into a field sets its value and blanks its error if it had one; every other entry is kept. */
  function HandleInputChange(form: map<string, string>, errors: map<string, string>, field: string, value: string)
    : (r: (map<string, string>, map<string, string>))
    ensures r.0 == form[field := value]
    ensures r.1.Keys == errors.Keys
    ensures field in errors ==> r.1[field] == ""
    ensures forall f :: f in errors && f != field ==> r.1[f] == errors[f]
  {
    (form[field := value], if field in errors && errors[field] != "" then errors[field := ""] else errors)
  }
}

=== FILE: auth_store.dfy ===
/**
 * The client-side session store of the Vite application
 * (src/store/authStore.ts): the signed-in `user`, its `session` and a
 * `loading` flag, changed by sign-in, sign-up, sign-out, initialisation and
 * the authentication events. What the authentication service answers is a
 * parameter of each action; the `user_profiles` table is the object
 * `ProfileTable`.
 */
module AuthStore {
  import opened Wrappers
  import opened Entities

  const SIGNED_IN: string := "SIGNED_IN"
  const SIGNED_OUT: string := "SIGNED_OUT"

  /** The `user_profiles` table: a display name per user id. */
  class ProfileTable {
    var names: map<Id, string>

    constructor(names0: map<Id, string>)
      ensures names == names0
    {
      names := names0;
    }

    /** An insert keyed by id; an existing id makes the insert fail, and the failure is ignored. */
    method Insert(id: Id, name: string)
      modifies this
      ensures names == if id in old(names) then old(names) else old(names)[id := name]
    {
      if id !in names {
        names := names[id := name];
      }
    }
  }

  class Store {
    var user: Option<User>
    var session: Option<Session>
    var loading: bool

    /** Signed in exactly when there is a session. */
    predicate Valid()
      reads this
    {
      user.None? <==> session.None?
    }

    /** The initial state: nobody signed in, still loading. */
    constructor()
      ensures user.None? && session.None? && loading
      ensures Valid()
    {
      user := None;
      session := None;
      loading := true;
    }

    /** `signIn`: the state changes only when both a user and a session come back; the error is returned as is. */
    method SignIn(dataUser: Option<User>, dataSession: Option<Session>, error: Option<string>)
      returns (result: Option<string>)
      requires Valid()
      modifies this
      ensures Valid()
      ensures result == error
      ensures dataUser.Some? && dataSession.Some? ==> user == dataUser && session == dataSession
      ensures !(dataUser.Some? && dataSession.Some?) ==> user == old(user) && session == old(session)
      ensures loading == old(loading)
    {
      if dataUser.Some? && dataSession.Some? {
        user := dataUser;
        session := dataSession;
      }
      result := error;
    }

    /** `signUp`: like `signIn`, and a signed-in new user also gets a profile row with the given name. */
    method SignUp(dataUser: Option<User>, dataSession: Option<Session>, error: Option<string>, name: string,
                  profiles: ProfileTable)
      returns (result: Option<string>)
      requires Valid()
      modifies this, profiles
      ensures Valid()
      ensures result == error
      ensures dataUser.Some? && dataSession.Some? ==> (user == dataUser && session == dataSession
        && profiles.names == if dataUser.value.id in old(profiles.names) then old(profiles.names)
                             else old(profiles.names)[dataUser.value.id := name])
      ensures !(dataUser.Some? && dataSession.Some?) ==>
        user == old(user) && session == old(session) && profiles.names == old(profiles.names)
      ensures loading == old(loading)
    {
      if dataUser.Some? && dataSession.Some? {
        user := dataUser;
        session := dataSession;
        profiles.Insert(dataUser.value.id, name);
      }
      result := error;
    }

    /** `signOut`: always ends signed out. */
    method SignOut()
      modifies this
      ensures user.None? && session.None? && loading == old(loading)
      ensures Valid()
    {
      user := None;
      session := None;
    }

    /** `initialize`: adopts a stored session if there is one, and always ends with `loading` false. */
    method Initialize(stored: Option<Session>)
      requires Valid()
      modifies this
      ensures Valid() && !loading
      ensures stored.Some? ==> user == Some(stored.value.user) && session == stored
      ensures stored.None? ==> user == old(user) && session == old(session)
    {
      loading := true;
      if stored.Some? {
        user := Some(stored.value.user);
        session := stored;
      }
      loading := false;
    }

    /**
     * The authentication-event handler: a sign-out or any event without a
     * session clears both; any other event with a session adopts it. A
     * sign-in of a user whose metadata has a name and who has no profile
     * also creates the profile.
     */
    method OnAuthStateChange(event: string, eventSession: Option<Session>, metadataName: Option<string>,
                             profiles: ProfileTable)
      modifies this, profiles
      ensures Valid() && loading == old(loading)
      ensures (event == SIGNED_OUT || eventSession.None?) ==> user.None? && session.None?
      ensures !(event == SIGNED_OUT || eventSession.None?) ==>
        user == Some(eventSession.value.user) && session == eventSession
      ensures (event == SIGNED_IN && eventSession.Some? && metadataName.Some? && metadataName.value != "") ==>
        var id := eventSession.value.user.id;
        profiles.names == if id in old(profiles.names) then old(profiles.names) else old(profiles.names)[id := metadataName.value]
      ensures !(event == SIGNED_IN && eventSession.Some? && metadataName.Some? && metadataName.value != "") ==>
        profiles.names == old(profiles.names)
    {
      if event == SIGNED_IN && eventSession.Some? {
        user := Some(eventSession.value.user);
        session := eventSession;
        if metadataName.Some? && metadataName.value != "" {
          profiles.Insert(eventSession.value.user.id, metadataName.value);
        }
      } else if event == SIGNED_OUT {
        user := None;
        session := None;
      } else if eventSession.Some? {
        user := Some(eventSession.value.user);
        session := eventSession;
      } else {
        user := None;
        session := None;
      }
    }
  }

  /**
   * One session of use: initialising, signing in, a token refresh and a
   * sign-out keep the invariant and end with nobody signed in and loading over.
   */
  method Lifecycle(stored: Option<Session>, u: User, s: Session, profiles: ProfileTable)
    returns (store: Store)
    modifies profiles
    ensures store.Valid() && !store.loading && store.user.None? && store.session.None?
  {
    store := new Store();
    store.Initialize(stored);
    var _ := store.SignIn(Some(u), Some(s), None);
    assert store.user == Some(u);
    store.OnAuthStateChange("TOKEN_REFRESHED", Some(s), None, profiles);
    assert store.session == Some(s);
    store.SignOut();
  }
}

=== FILE: avatar_upload.dfy ===
/**
 * The avatar upload route (app/api/upload/avatar/route.ts): checks the
 * uploaded file, names the stored object after the user and the upload time,
 * and records the object's public URL in the user's profile. The object store
 * and the profile update are parameters (the latter through its error).
 */
module AvatarUpload {
  import opened Wrappers
  import opened Strings
  import opened Entities
  import opened Requests

  /** The `file` field of the form: its MIME type, its size in bytes and its name. */
  datatype UploadedFile = UploadedFile(mimeType: string, size: nat, name: string)

  const MAX_SIZE: nat := 5 * 1024 * 1024
  const IMAGE_PREFIX: string := "image/"
  const KEY_PREFIX: string := "avatars/"

  /** `name.split('.').pop()`: the text after the last `.`, or the whole name when it has none. */
  function Extension(name: string): (ext: string)
    ensures '.' !in ext
    ensures '.' !in name ==> ext == name
    ensures '.' in name ==> |ext| < |name| && name[|name| - |ext| - 1] == '.' && ext == name[|name| - |ext|..]
  {
    AfterLast(name, '.')
  }

  /** `avatars/<userId>-<timestamp>.<ext>`. */
  function ObjectKey(userId: Id, timestamp: int, ext: string): (key: string)
    ensures StartsWith(key, KEY_PREFIX)
  {
    var key := KEY_PREFIX + userId + "-" + IntToString(timestamp) + "." + ext;
    assert key[..|KEY_PREFIX|] == KEY_PREFIX;
    key
  }

  /** The extension is recoverable from the key: it is the text after the key's last `.`. */
  lemma KeyKeepsExtension(userId: Id, timestamp: int, name: string)
    ensures AfterLast(ObjectKey(userId, timestamp, Extension(name)), '.') == Extension(name)
  {
    var ext := Extension(name);
    var key := ObjectKey(userId, timestamp, ext);
    var head := KEY_PREFIX + userId + "-" + IntToString(timestamp);
    assert key == head + "." + ext;
    AfterLastOfSuffix(head, ext);
  }

  /** Appending `.` and dot-free text makes that text the part after the last `.`. */
  lemma {:induction false} AfterLastOfSuffix(head: string, ext: string)
    requires '.' !in ext
    ensures AfterLast(head + "." + ext, '.') == ext
    decreases |ext|
  {
    var s := head + "." + ext;
    if ext == [] {
      assert s[|s| - 1] == '.';
    } else {
      var init := ext[..|ext| - 1];
      assert s[..|s| - 1] == head + "." + init;
      assert s[|s| - 1] == ext[|ext| - 1];
      AfterLastOfSuffix(head, init);
      assert init + [ext[|ext| - 1]] == ext;
    }
  }

  /** The public address of an object: `https://<bucket>.<account>.r2.dev/<key>`. */
  function PublicUrl(bucket: string, account: string, key: string): (url: string)
    ensures |key| <= |url| && url[|url| - |key|..] == key
  {
    var url := "https://" + bucket + "." + account + ".r2.dev/" + key;
    assert url[|url| - |key|..] == key;
    url
  }

  /**
   * POST: 401 without a valid token; 400 without a file, for a non-image
   * type, for more than 5 MiB, or when the profile update fails; otherwise
   * the public URL of the stored object.
   */
  function Upload(header: Option<string>, sessions: map<string, User>, file: Option<UploadedFile>,
                  now: int, bucket: string, account: string, updateError: Option<string>): (reply: Reply<string>)
    ensures !Authenticate(header, sessions).Authed? ==> reply.Fail? && reply.status == 401
    ensures Authenticate(header, sessions).Authed? && file.None? ==> reply == Fail(400, "No file provided")
    ensures Authenticate(header, sessions).Authed? && file.Some? && !StartsWith(file.value.mimeType, IMAGE_PREFIX) ==>
      reply == Fail(400, "请选择图片文件")
    ensures (Authenticate(header, sessions).Authed? && file.Some? && StartsWith(file.value.mimeType, IMAGE_PREFIX)
      && file.value.size > MAX_SIZE) ==> reply == Fail(400, "图片大小不能超过5MB")
    ensures (Authenticate(header, sessions).Authed? && file.Some? && StartsWith(file.value.mimeType, IMAGE_PREFIX)
      && file.value.size <= MAX_SIZE && updateError.Some?) ==> reply == Fail(400, updateError.value)
    ensures reply.Ok? ==> (file.Some? && StartsWith(file.value.mimeType, IMAGE_PREFIX) && file.value.size <= MAX_SIZE
      && updateError.None?
      && reply.data == PublicUrl(bucket, account,
           ObjectKey(Authenticate(header, sessions).user.id, now, Extension(file.value.name))))
    ensures (Authenticate(header, sessions).Authed? && file.Some? && StartsWith(file.value.mimeType, IMAGE_PREFIX)
      && file.value.size <= MAX_SIZE && updateError.None?) ==> reply.Ok?
  {
    var auth := Authenticate(header, sessions);
    if !auth.Authed? then AuthFailure(auth)
    else if file.None? then Fail(400, "No file provided")
    else if !StartsWith(file.value.mimeType, IMAGE_PREFIX) then Fail(400, "请选择图片文件")
    else if file.value.size > MAX_SIZE then Fail(400, "图片大小不能超过5MB")
    else
      var key := ObjectKey(auth.user.id, now, Extension(file.value.name));
      var url := PublicUrl(bucket, account, key);
      if updateError.Some? then Fail(400, updateError.value) else Ok(200, url)
  }

  /** Exactly 5 MiB is accepted, one byte more is refused. */
  lemma SizeBoundary(header: Option<string>, sessions: map<string, User>, now: int, bucket: string, account: string)
    requires Authenticate(header, sessions).Authed?
    ensures Upload(header, sessions, Some(UploadedFile("image/png", MAX_SIZE, "a.png")), now, bucket, account, None).Ok?
    ensures Upload(header, sessions, Some(UploadedFile("image/png", MAX_SIZE + 1, "a.png")), now, bucket, account, None)
      == Fail(400, "图片大小不能超过5MB")
  {
    assert StartsWith("image/png", IMAGE_PREFIX) by {
      assert "image/png"[..6] == IMAGE_PREFIX;
    }
  }
}

=== FILE: content_route.dfy ===
/**
 * The app-content route (app/api/content/route.ts): GET turns the rows of a
 * category into a key-to-value map; PUT upserts one row. The `app_content`
 * table is the object `ContentTable`, keyed by content key.
 */
module ContentRoute {
  import opened Wrappers
  import opened Entities
  import opened Requests

  const GENERAL: string := "general"

  datatype ContentRow = ContentRow(key: string, value: string, category: string)

  /** GET's category: `searchParams.get("category") || "general"`, so an empty one is also the default. */
  function GetCategory(param: Option<string>): (c: string)
    ensures param.None? || param.value == "" ==> c == GENERAL
    ensures param.Some? && param.value != "" ==> c == param.value
  {
    if param.Some? && param.value != "" then param.value else GENERAL
  }

  /** The rows of a category, in the order the query returns them. */
  function RowsOf(rows: seq<ContentRow>, category: string): (r: seq<ContentRow>)
    ensures forall i :: 0 <= i < |r| ==> r[i] in rows && r[i].category == category
    ensures forall i :: 0 <= i < |rows| && rows[i].category == category ==> rows[i] in r
  {
    Days.Filter(rows, (row: ContentRow) => row.category == category)
  }

  /** The value of the reduce over `rows`: each row writes its key, so a later row overwrites an earlier one. */
  function Reduced(rows: seq<ContentRow>): map<string, string> {
    if rows == [] then map[]
    else Reduced(rows[..|rows| - 1])[rows[|rows| - 1].key := rows[|rows| - 1].value]
  }

  /** `content.reduce((acc, item) => { acc[item.key] = item.value; return acc }, {})`. */
  method ContentMap(rows: seq<ContentRow>) returns (acc: map<string, string>)
    ensures acc == Reduced(rows)
  {
    acc := map[];
    for i := 0 to |rows|
      invariant acc == Reduced(rows[..i])
    {
      assert rows[..i + 1][..i] == rows[..i];
      acc := acc[rows[i].key := rows[i].value];
    }
    assert rows[..|rows|] == rows;
  }

  /**
   * The map has exactly the keys of the rows, and each key holds the value of
   * the last row with that key.
   */
  lemma ReducedLastWins(rows: seq<ContentRow>)
    ensures forall k :: k in Reduced(rows) <==> exists i :: 0 <= i < |rows| && rows[i].key == k
    ensures forall k :: k in Reduced(rows) ==> exists i :: (0 <= i < |rows| && rows[i].key == k
      && Reduced(rows)[k] == rows[i].value && forall j :: i < j < |rows| ==> rows[j].key != k)
  {
    ReducedKeys(rows);
    ReducedValues(rows);
  }

  /** The keys of the map are the keys of the rows. */
  lemma {:induction false} ReducedKeys(rows: seq<ContentRow>)
    ensures forall k :: k in Reduced(rows) <==> exists i :: 0 <= i < |rows| && rows[i].key == k
  {
    if rows != [] {
      var init := rows[..|rows| - 1];
      var last := rows[|rows| - 1];
      ReducedKeys(init);
      forall k ensures k in Reduced(rows) <==> exists i :: 0 <= i < |rows| && rows[i].key == k {
        if k in Reduced(rows) && k != last.key {
          assert Reduced(rows) == Reduced(init)[last.key := last.value];
          assert k in Reduced(init);
          var i :| 0 <= i < |init| && init[i].key == k;
          assert init[i] == rows[i];
        }
        if exists i :: 0 <= i < |rows| && rows[i].key == k {
          var i :| 0 <= i < |rows| && rows[i].key == k;
          if i < |init| {
            assert init[i] == rows[i];
          }
        }
      }
    }
  }

  /** Each key of the map holds the value of the last row with that key. */
  lemma {:induction false} ReducedValues(rows: seq<ContentRow>)
    ensures forall k :: k in Reduced(rows) ==> exists i :: (0 <= i < |rows| && rows[i].key == k
      && Reduced(rows)[k] == rows[i].value && forall j :: i < j < |rows| ==> rows[j].key != k)
  {
    if rows != [] {
      var init := rows[..|rows| - 1];
      var last := rows[|rows| - 1];
      ReducedValues(init);
      forall k | k in Reduced(rows)
        ensures exists i :: (0 <= i < |rows| && rows[i].key == k
          && Reduced(rows)[k] == rows[i].value && forall j :: i < j < |rows| ==> rows[j].key != k)
      {
        if k == last.key {
          assert Reduced(rows)[k] == rows[|rows| - 1].value;
        } else {
          var i :| 0 <= i < |init| && init[i].key == k
            && Reduced(init)[k] == init[i].value && forall j :: i < j < |init| ==> init[j].key != k;
          assert init[i] == rows[i];
          assert forall j :: i < j < |rows| ==> rows[j].key != k by {
            forall j | i < j < |rows| ensures rows[j].key != k {
              if j < |init| {
                assert init[j] == rows[j];
              }
            }
          }
        }
      }
    }
  }

  /** GET: the map of the requested category (`general` by default); a query error gives 400. */
  method Get(rows: seq<ContentRow>, categoryParam: Option<string>, queryError: Option<string>)
    returns (reply: Reply<map<string, string>>)
    ensures queryError.Some? ==> reply == Fail(400, queryError.value)
    ensures queryError.None? ==> reply == Ok(200, Reduced(RowsOf(rows, GetCategory(categoryParam))))
  {
    if queryError.Some? {
      return Fail(400, queryError.value);
    }
    var content := RowsOf(rows, GetCategory(categoryParam));
    var contentMap := ContentMap(content);
    reply := Ok(200, contentMap);
  }

  /** `listing` is the table read out in some order: every stored row once under its key. */
  predicate Lists(listing: seq<ContentRow>, table: map<string, ContentRow>) {
    (forall i :: 0 <= i < |listing| ==> listing[i].key in table && table[listing[i].key] == listing[i])
    && (forall k :: k in table ==> table[k].key == k && table[k] in listing)
  }

  /** GET over a listing of the table maps exactly the category's keys to their stored values. */
  lemma GetReadsTable(listing: seq<ContentRow>, table: map<string, ContentRow>, category: string)
    requires Lists(listing, table)
    ensures forall k :: k in Reduced(RowsOf(listing, category)) <==> k in table && table[k].category == category
    ensures forall k :: k in Reduced(RowsOf(listing, category)) ==> Reduced(RowsOf(listing, category))[k] == table[k].value
  {
    forall k | k in table && table[k].category == category ensures k in Reduced(RowsOf(listing, category)) {
      StoredRowIsRead(listing, table, category, k);
    }
    forall k | k in Reduced(RowsOf(listing, category))
      ensures k in table && table[k].category == category && Reduced(RowsOf(listing, category))[k] == table[k].value
    {
      ReadKeyIsStored(listing, table, category, k);
    }
  }

  lemma StoredRowIsRead(listing: seq<ContentRow>, table: map<string, ContentRow>, category: string, k: string)
    requires Lists(listing, table)
    requires k in table && table[k].category == category
    ensures k in Reduced(RowsOf(listing, category))
  {
    var rows := RowsOf(listing, category);
    var i :| 0 <= i < |listing| && listing[i] == table[k];
    assert listing[i] in rows;
    var j :| 0 <= j < |rows| && rows[j] == listing[i];
    assert rows[j].key == k;
    ReducedKeys(rows);
  }

  lemma ReadKeyIsStored(listing: seq<ContentRow>, table: map<string, ContentRow>, category: string, k: string)
    requires Lists(listing, table)
    requires k in Reduced(RowsOf(listing, category))
    ensures k in table && table[k].category == category && Reduced(RowsOf(listing, category))[k] == table[k].value
  {
    var rows := RowsOf(listing, category);
    ReducedValues(rows);
    var i :| 0 <= i < |rows| && rows[i].key == k && Reduced(rows)[k] == rows[i].value
      && forall j :: i < j < |rows| ==> rows[j].key != k;
    assert rows[i] in listing;
    var n :| 0 <= n < |listing| && listing[n] == rows[i];
  }

  /** After a PUT of a row, GET of its category over the new table returns its value under its key. */
  lemma PutThenGet(listing: seq<ContentRow>, table: map<string, ContentRow>, row: ContentRow)
    requires Lists(listing, table[row.key := row])
    ensures row.key in Reduced(RowsOf(listing, row.category))
    ensures Reduced(RowsOf(listing, row.category))[row.key] == row.value
  {
    GetReadsTable(listing, table[row.key := row], row.category);
  }

  /** The `app_content` table, one row per key. */
  class ContentTable {
    var rows: map<string, ContentRow>

    constructor(rows0: map<string, ContentRow>)
      ensures rows == rows0
    {
      rows := rows0;
    }
  }

  /**
   * PUT: 401 without a valid token; 400 when the key or the value is absent
   * or empty, or when the upsert fails; otherwise the row `(key, value,
   * category)` is written, the category defaulting to `general` only when it
   * is absent.
   */
  method Put(table: ContentTable, header: Option<string>, sessions: map<string, User>,
             key: Option<string>, value: Option<string>, category: Option<string>, upsertError: Option<string>)
    returns (reply: Reply<ContentRow>)
    modifies table
    ensures !Authenticate(header, sessions).Authed? ==> reply.Fail? && reply.status == 401
    ensures Authenticate(header, sessions).Authed? && (key.None? || key.value == "" || value.None? || value.value == "") ==>
      reply == Fail(400, "Key and value are required")
    ensures reply.Fail? ==> table.rows == old(table.rows)
    ensures reply.Ok? ==> (key.Some? && value.Some? && upsertError.None?
      && reply.data == ContentRow(key.value, value.value, category.GetOr(GENERAL))
      && table.rows == old(table.rows)[key.value := reply.data])
    ensures (Authenticate(header, sessions).Authed? && key.Some? && key.value != "" && value.Some? && value.value != "")
      ==> (reply.Ok? <==> upsertError.None?)
    ensures (Authenticate(header, sessions).Authed? && key.Some? && key.value != "" && value.Some? && value.value != ""
      && upsertError.Some?) ==> reply == Fail(400, upsertError.value)
  {
    var auth := Authenticate(header, sessions);
    if !auth.Authed? {
      return AuthFailure(auth);
    }
    if key.None? || key.value == "" || value.None? || value.value == "" {
      return Fail(400, "Key and value are required");
    }
    if upsertError.Some? {
      return Fail(400, upsertError.value);
    }
    var row := ContentRow(key.value, value.value, category.GetOr(GENERAL));
    table.rows := table.rows[key.value := row];
    reply := Ok(200, row);
  }
}

=== FILE: daily_reminder.dfy ===
/**
 * The daily-reminder email route (app/api/emails/daily-reminder/route.ts):
 * the two ways of authenticating, the skip conditions, each habit's streak
 * over the last seven days and completion today, the scheduled-today filter
 * and the counts of the reply. Sending the email is a parameter (its error,
 * if any).
 */
module DailyReminder {
  import opened Wrappers
  import opened Days
  import opened Strings
  import opened Entities
  import opened Streaks
  import opened Requests

  // ---------------------------------------------------------------------
  // Authentication

  datatype Caller = Caller(user: User, service: bool)

  /** `authHeader.split(' ')[1]` for a header starting with `Bearer `: the text up to the next space. */
  function SplitToken(header: string): (r: string)
    requires StartsWith(header, BEARER)
    ensures ' ' !in r
  {
    PrefixBefore(header[|BEARER|..], ' ')
  }

  /** A token with no space in it is read back whole; with a space, only up to it. */
  lemma SplitTokenBearer(t: string)
    ensures StartsWith(BEARER + t, BEARER)
    ensures ' ' !in t ==> SplitToken(BEARER + t) == t
  {
    assert (BEARER + t)[..|BEARER|] == BEARER;
    assert (BEARER + t)[|BEARER|..] == t;
  }

  /**
   * The header `Bearer <service key>` authenticates the service, which names
   * the user in the body (400 when it does not, 404 when the user does not
   * exist); any other `Bearer ` header is a user token (401 when unknown);
   * anything else is 401.
   */
  function Authenticate(header: Option<string>, serviceKey: string, bodyUserId: Option<Id>,
                        usersById: map<Id, User>, sessions: map<string, User>): (r: Result<Caller>)
    ensures header.None? ==> r == Failure(401, "Missing or invalid authorization header")
    ensures header.Some? && header.value == BEARER + serviceKey ==>
      (bodyUserId.None? || bodyUserId.value == "" ==> r.Failure? && r.status == 400)
      && (bodyUserId.Some? && bodyUserId.value != "" && bodyUserId.value !in usersById ==> r.Failure? && r.status == 404)
      && (bodyUserId.Some? && bodyUserId.value != "" && bodyUserId.value in usersById ==>
            r == Success(Caller(usersById[bodyUserId.value], true)))
    ensures header.Some? && header.value != BEARER + serviceKey && !StartsWith(header.value, BEARER) ==>
      r == Failure(401, "Missing or invalid authorization header")
    ensures header.Some? && header.value != BEARER + serviceKey && StartsWith(header.value, BEARER) ==>
      (SplitToken(header.value) in sessions ==> r == Success(Caller(sessions[SplitToken(header.value)], false)))
      && (SplitToken(header.value) !in sessions ==> r == Failure(401, "Invalid token"))
  {
    if header.Some? && header.value == BEARER + serviceKey then
      if bodyUserId.None? || bodyUserId.value == "" then
        Failure(400, "Missing user_id in request body for service role authentication")
      else if bodyUserId.value !in usersById then Failure(404, "User not found")
      else Success(Caller(usersById[bodyUserId.value], true))
    else if header.Some? && StartsWith(header.value, BEARER) then
      var token := SplitToken(header.value);
      if token in sessions then Success(Caller(sessions[token], false)) else Failure(401, "Invalid token")
    else Failure(401, "Missing or invalid authorization header")
  }

  datatype Result<T> = Success(value: T) | Failure(status: int, message: string)

  // ---------------------------------------------------------------------
  // Per-habit entries

  const STREAK_DAYS: nat := 7

  /** The days on which the habit has a log of the user. */
  function HabitLogDays(logTable: seq<HabitLog>, habitId: Id, userId: Id): seq<int> {
    CompletedDays(Filter(logTable, (l: HabitLog) => l.habitId == habitId && l.userId == userId))
  }

  /**
   * The streak loop: for `i` from 0 to 6, stop at the first day `today - i`
   * without a log, otherwise count it.
   */
  method StreakLoop(days: seq<int>, today: int) returns (streak: nat)
    ensures streak == CappedWalk(days, today, STREAK_DAYS)
  {
    streak := 0;
    var i := 0;
    while i < STREAK_DAYS
      invariant 0 <= i <= STREAK_DAYS && streak == i
      invariant forall k :: today - i < k <= today ==> k in days
    {
      var hasLogForDay := today - i in days;
      if hasLogForDay {
        streak := streak + 1;
      } else {
        break;
      }
      i := i + 1;
    }
    CappedWalkUnique(days, today, STREAK_DAYS, streak);
  }

  datatype ReminderHabit = ReminderHabit(id: Id, name: string, streak: nat, isCompleted: bool)

  /** `!!todayLogs.find(log => log.habit_id === habit.id)` over the user's logs of today. */
  predicate IsCompleted(logTable: seq<HabitLog>, habitId: Id, userId: Id, today: int) {
    exists i :: 0 <= i < |logTable| && logTable[i].userId == userId && logTable[i].habitId == habitId
      && CompletedOn(logTable[i], today)
  }

  /** One habit's entry: its capped streak and whether it was completed today. */
  function EntryOf(h: Habit, logTable: seq<HabitLog>, userId: Id, today: int): (r: ReminderHabit)
    ensures r.id == h.id && r.name == h.name
    ensures r.streak <= STREAK_DAYS
    ensures r.streak > 0 <==> today in HabitLogDays(logTable, h.id, userId)
    ensures r.isCompleted <==> IsCompleted(logTable, h.id, userId, today)
  {
    var days := HabitLogDays(logTable, h.id, userId);
    assert today !in days ==> CappedWalk(days, today, STREAK_DAYS) == 0;
    ReminderHabit(h.id, h.name, CappedWalk(days, today, STREAK_DAYS), IsCompleted(logTable, h.id, userId, today))
  }

  /** A habit with a log today is completed and has a streak of at least one. */
  lemma CompletedMeansStreak(h: Habit, logTable: seq<HabitLog>, userId: Id, today: int)
    ensures IsCompleted(logTable, h.id, userId, today) <==> today in HabitLogDays(logTable, h.id, userId)
    ensures EntryOf(h, logTable, userId, today).isCompleted <==> EntryOf(h, logTable, userId, today).streak > 0
  {
    var mine := Filter(logTable, (l: HabitLog) => l.habitId == h.id && l.userId == userId);
    if IsCompleted(logTable, h.id, userId, today) {
      var i :| 0 <= i < |logTable| && logTable[i].userId == userId && logTable[i].habitId == h.id
        && CompletedOn(logTable[i], today);
      var j :| 0 <= j < |mine| && mine[j] == logTable[i];
      assert CompletedOn(mine[j], today);
    }
    if today in HabitLogDays(logTable, h.id, userId) {
      var j :| 0 <= j < |mine| && CompletedOn(mine[j], today);
      var i :| 0 <= i < |logTable| && logTable[i] == mine[j];
    }
  }

  /** One entry per habit, in order. */
  function Entries(habits: seq<Habit>, logTable: seq<HabitLog>, userId: Id, today: int): (r: seq<ReminderHabit>)
    ensures |r| == |habits|
    ensures forall k :: 0 <= k < |habits| ==> r[k] == EntryOf(habits[k], logTable, userId, today)
  {
    Map(habits, (h: Habit) => EntryOf(h, logTable, userId, today))
  }

  /** The `habits.map(...)` awaited with `Promise.all`, with the streak loop for each habit. */
  method HabitsWithStreaks(habits: seq<Habit>, logTable: seq<HabitLog>, userId: Id, today: int)
    returns (entries: seq<ReminderHabit>)
    ensures entries == Entries(habits, logTable, userId, today)
  {
    entries := [];
    var k := 0;
    while k < |habits|
      invariant 0 <= k <= |habits| && |entries| == k
      invariant forall m :: 0 <= m < k ==> entries[m] == EntryOf(habits[m], logTable, userId, today)
    {
      var h := habits[k];
      var streak := StreakLoop(HabitLogDays(logTable, h.id, userId), today);
      var isCompleted := IsCompleted(logTable, h.id, userId, today);
      entries := entries + [ReminderHabit(h.id, h.name, streak, isCompleted)];
      k := k + 1;
    }
  }

  // ---------------------------------------------------------------------
  // Scheduled today

  /** `getDay()` of a day number: day 0 (1 January 1970) was a Thursday, and 0 is Sunday. */
  function Weekday(d: int): (r: int)
    ensures 0 <= r < 7
  {
    (d + 4) % 7
  }

  /** Weekdays repeat every seven days, and consecutive days have consecutive weekdays. */
  lemma WeekdayCycle(d: int)
    ensures Weekday(d + 7) == Weekday(d)
    ensures Weekday(d + 1) == (Weekday(d) + 1) % 7
  {
  }

  /**
   * A habit is due today when it has no frequency, is daily, or has any
   * shape other than weekly-with-days; weekly with days is due only on those
   * weekdays.
   */
  predicate ScheduledToday(f: Option<Frequency>, weekday: int) {
    if f.None? then true
    else if f.value.kind == "daily" then true
    else if f.value.kind == "weekly" && f.value.days.Some? then weekday in f.value.days.value
    else true
  }

  /** Only a weekly frequency with a list of days can make a habit not due. */
  lemma NotScheduledOnlyWeekly(f: Option<Frequency>, weekday: int)
    ensures !ScheduledToday(f, weekday) <==>
      f.Some? && f.value.kind == "weekly" && f.value.days.Some? && weekday !in f.value.days.value
  {
  }

  /** The entry's habit (the first with its id) is due today; an entry with no habit is kept. */
  predicate EntryScheduled(habits: seq<Habit>, e: ReminderHabit, weekday: int) {
    match FindHabit(habits, e.id)
    case None => true
    case Some(h) => ScheduledToday(h.frequency, weekday)
  }

  function TodayHabits(entries: seq<ReminderHabit>, habits: seq<Habit>, weekday: int): (r: seq<ReminderHabit>)
    ensures |r| <= |entries|
    ensures forall i :: 0 <= i < |r| ==> r[i] in entries && EntryScheduled(habits, r[i], weekday)
    ensures forall i :: 0 <= i < |entries| && EntryScheduled(habits, entries[i], weekday) ==> entries[i] in r
  {
    Filter(entries, (e: ReminderHabit) => EntryScheduled(habits, e, weekday))
  }

  // ---------------------------------------------------------------------
  // The request

  datatype Counts = Counts(habitsCount: nat, completedCount: nat, pendingCount: nat)

  function Done(): ReminderHabit -> bool {
    (h: ReminderHabit) => h.isCompleted
  }

  function Pending(): ReminderHabit -> bool {
    (h: ReminderHabit) => !h.isCompleted
  }

  /** The reply counts: every due habit is either completed or pending. */
  function CountsOf(todayHabits: seq<ReminderHabit>): (r: Counts)
    ensures r.habitsCount == |todayHabits|
    ensures r.completedCount + r.pendingCount == r.habitsCount
  {
    CountDisjoint(todayHabits, Done(), Pending());
    Counts(|todayHabits|, Count(todayHabits, Done()), Count(todayHabits, Pending()))
  }

  datatype ReminderResult = Skipped(message: string) | Sent(counts: Counts)

  /** The habits query's filter: the user's rows with `is_active`. */
  function ActiveOf(userId: Id): Habit -> bool {
    (h: Habit) => h.userId == userId && h.isActive
  }

  /** The user's active habits, oldest created first. */
  function ActiveHabits(habitTable: seq<Habit>, userId: Id): (r: seq<Habit>)
    ensures multiset(r) == multiset(Filter(habitTable, ActiveOf(userId)))
    ensures forall h :: h in r <==> h in habitTable && h.userId == userId && h.isActive
    ensures forall i, j :: 0 <= i < j < |r| ==> r[i].createdAt <= r[j].createdAt
  {
    var mine := Filter(habitTable, ActiveOf(userId));
    var r := SortDescBy(mine, (h: Habit) => -h.createdAt);
    assert forall h :: h in r <==> h in mine by {
      forall h ensures h in r <==> h in mine {
        assert h in r <==> h in multiset(r);
        assert h in mine <==> h in multiset(mine);
      }
    }
    r
  }

  /**
   * POST: authenticate; skip when the settings row turns daily reminders
   * off, when there are no active habits, or when none is due today; a
   * habits query error or a send error gives 500; otherwise the counts.
   */
  method ReminderPost(header: Option<string>, serviceKey: string, bodyUserId: Option<Id>,
                      usersById: map<Id, User>, sessions: map<string, User>,
                      settings: Option<NotificationSettings>, habitTable: seq<Habit>, habitsError: bool,
                      logTable: seq<HabitLog>, now: Instant, sendError: Option<string>)
    returns (reply: Reply<ReminderResult>)
    ensures Authenticate(header, serviceKey, bodyUserId, usersById, sessions).Failure? ==>
      reply == Fail(Authenticate(header, serviceKey, bodyUserId, usersById, sessions).status,
                    Authenticate(header, serviceKey, bodyUserId, usersById, sessions).message)
    ensures Authenticate(header, serviceKey, bodyUserId, usersById, sessions).Success? ==>
      var user := Authenticate(header, serviceKey, bodyUserId, usersById, sessions).value.user;
      var habits := ActiveHabits(habitTable, user.id);
      var due := TodayHabits(Entries(habits, logTable, user.id, DayOf(now)), habits, Weekday(DayOf(now)));
      if settings.Some? && !settings.value.dailyReminder then
        reply == Ok(200, Skipped("Daily reminder is disabled for this user"))
      else if habitsError then reply == Fail(500, "Failed to fetch habits")
      else if habits == [] then reply == Ok(200, Skipped("No active habits found for user"))
      else if due == [] then reply == Ok(200, Skipped("No habits scheduled for today"))
      else if sendError.Some? then reply == Fail(500, "Email sending failed: " + sendError.value)
      else reply == Ok(200, Sent(CountsOf(due)))
  {
    var auth := Authenticate(header, serviceKey, bodyUserId, usersById, sessions);
    if auth.Failure? {
      return Fail(auth.status, auth.message);
    }
    var user := auth.value.user;
    if settings.Some? && !settings.value.dailyReminder {
      return Ok(200, Skipped("Daily reminder is disabled for this user"));
    }
    if habitsError {
      return Fail(500, "Failed to fetch habits");
    }
    var habits := ActiveHabits(habitTable, user.id);
    if habits == [] {
      return Ok(200, Skipped("No active habits found for user"));
    }
    var today := DayOf(now);
    var entries := HabitsWithStreaks(habits, logTable, user.id, today);
    var todayHabits := TodayHabits(entries, habits, Weekday(today));
    if todayHabits == [] {
      return Ok(200, Skipped("No habits scheduled for today"));
    }
    if sendError.Some? {
      return Fail(500, "Email sending failed: " + sendError.value);
    }
    reply := Ok(200, Sent(CountsOf(todayHabits)));
  }
}

=== FILE: dashboard.dfy ===
/**
 * The dashboard (components/Dashboard.tsx): today's status of every habit,
 * today's counts, the habit with the highest streak and the dashboard's own
 * streak counter.
 */
module Dashboard {
  import opened Wrappers
  import opened Days
  import opened Entities
  import opened Streaks

  // ---------------------------------------------------------------------
  // Today's status

  datatype HabitStatus = HabitStatus(habit: Habit, isCompletedToday: bool, canLogToday: bool)

  /** Some log of the habit has a `completed_at` starting with today's date. */
  predicate DoneToday(habitId: Id, habitLogs: seq<HabitLog>, today: int) {
    exists i :: 0 <= i < |habitLogs| && habitLogs[i].habitId == habitId && CompletedOn(habitLogs[i], today)
  }

  /** The ids of the habits with a log today (`completedHabitIds`). */
  function CompletedHabitIds(habitLogs: seq<HabitLog>, today: int): (r: set<Id>)
    ensures forall id :: id in r <==> DoneToday(id, habitLogs, today)
  {
    set i | 0 <= i < |habitLogs| && CompletedOn(habitLogs[i], today) :: habitLogs[i].habitId
  }

  /** `getTodayHabitStatus`: one entry per habit, in order, flagged completed exactly when it has a log today. */
  function TodayHabitStatus(habits: seq<Habit>, habitLogs: seq<HabitLog>, today: int): (r: seq<HabitStatus>)
    ensures |r| == |habits|
    ensures forall i :: 0 <= i < |r| ==> r[i].habit == habits[i]
    ensures forall i :: 0 <= i < |r| ==> r[i].isCompletedToday == DoneToday(habits[i].id, habitLogs, today)
    ensures forall i :: 0 <= i < |r| ==> r[i].canLogToday == !r[i].isCompletedToday
  {
    var ids := CompletedHabitIds(habitLogs, today);
    Map(habits, (h: Habit) => HabitStatus(h, h.id in ids, h.id !in ids))
  }

  datatype TodayStats = TodayStats(totalHabits: nat, completedHabits: nat, pendingHabits: int, completionRate: real)

  /** A habit with a log today. */
  function DoneTodayBy(habitLogs: seq<HabitLog>, today: int): Habit -> bool {
    (h: Habit) => DoneToday(h.id, habitLogs, today)
  }

  /** A status flagged completed. */
  function StatusDone(): HabitStatus -> bool {
    (st: HabitStatus) => st.isCompletedToday
  }

  /** Counting the completed statuses counts the habits they flag as done today. */
  lemma {:induction false} CountStatuses(statuses: seq<HabitStatus>, habits: seq<Habit>, habitLogs: seq<HabitLog>, today: int)
    requires |statuses| == |habits|
    requires forall i :: 0 <= i < |statuses| ==> statuses[i].isCompletedToday == DoneToday(habits[i].id, habitLogs, today)
    ensures Count(statuses, StatusDone()) == Count(habits, DoneTodayBy(habitLogs, today))
  {
    if statuses != [] {
      forall i | 0 <= i < |statuses[1..]|
        ensures statuses[1..][i].isCompletedToday == DoneToday(habits[1..][i].id, habitLogs, today)
      {
        assert statuses[1..][i] == statuses[i + 1] && habits[1..][i] == habits[i + 1];
      }
      CountStatuses(statuses[1..], habits[1..], habitLogs, today);
    }
  }

  /**
   * `getTodayStats`: the number of habits, the number of those with a log
   * today, the rest pending, and the completed share as a percentage (0 with
   * no habits, never above 100).
   */
  function GetTodayStats(habits: seq<Habit>, habitLogs: seq<HabitLog>, today: int): (r: TodayStats)
    ensures r.totalHabits == |habits|
    ensures r.completedHabits == Count(habits, DoneTodayBy(habitLogs, today))
    ensures r.completedHabits + r.pendingHabits == r.totalHabits
    ensures 0 <= r.completedHabits <= r.totalHabits
    ensures r.completionRate == Percent(r.completedHabits, r.totalHabits)
    ensures r.totalHabits == 0 ==> r.completionRate == 0.0
    ensures 0.0 <= r.completionRate <= 100.0
  {
    var todayHabits := TodayHabitStatus(habits, habitLogs, today);
    var total := |todayHabits|;
    var completed := Count(todayHabits, StatusDone());
    CountStatuses(todayHabits, habits, habitLogs, today);
    PercentAtMost100(completed, total);
    TodayStats(total, completed, total - completed, Percent(completed, total))
  }

  // ---------------------------------------------------------------------
  // Streak

  /** The days of the logs' `logged_at`, for the logs that have one, in order. */
  function LoggedDays(logs: seq<HabitLog>): (r: seq<int>)
    ensures |r| == Count(logs, (l: HabitLog) => l.loggedAt.Some?)
  {
    if logs == [] then []
    else if logs[0].loggedAt.Some? then [DayOf(logs[0].loggedAt.value)] + LoggedDays(logs[1..])
    else LoggedDays(logs[1..])
  }

  /**
   * The dashboard's streak: the `logged_at` days newest first, where the
   * `k`-th counted day must lie `2k` days before today.
   */
  function DashStreak(logs: seq<HabitLog>, today: int): nat {
    if logs == [] then 0 else EvenGapWalk(SortDesc(LoggedDays(logs)), today, 0)
  }

  /** `calculateStreak`: the gap to a moving current day must equal the count so far. */
  method CalculateStreak(logs: seq<HabitLog>, today: int) returns (streak: nat)
    ensures streak == DashStreak(logs, today)
  {
    if |logs| == 0 {
      return 0;
    }
    var sortedLogs := SortDesc(LoggedDays(logs));
    streak := 0;
    var currentDate := today;
    while streak < |sortedLogs|
      invariant streak <= |sortedLogs|
      invariant currentDate == today - streak
      invariant forall k :: 0 <= k < streak ==> sortedLogs[k] == today - 2 * k
    {
      var diffDays := currentDate - sortedLogs[streak];
      if diffDays == streak {
        streak := streak + 1;
        currentDate := currentDate - 1;
      } else {
        break;
      }
    }
    EvenGapWalkUnique(sortedLogs, today, 0, streak);
  }

  /** The streak never exceeds the number of logs that carry `logged_at`. */
  lemma DashStreakBound(logs: seq<HabitLog>, today: int)
    ensures DashStreak(logs, today) <= Count(logs, (l: HabitLog) => l.loggedAt.Some?) <= |logs|
  {
  }

  /** Log rows as the application writes them carry no `logged_at`, so their streak is always 0. */
  lemma NoLoggedAtNoStreak(logs: seq<HabitLog>, today: int)
    requires forall i :: 0 <= i < |logs| ==> logs[i].loggedAt.None?
    ensures DashStreak(logs, today) == 0
  {
    FilterNone(logs);
  }

  lemma {:induction false} FilterNone(logs: seq<HabitLog>)
    requires forall i :: 0 <= i < |logs| ==> logs[i].loggedAt.None?
    ensures Count(logs, (l: HabitLog) => l.loggedAt.Some?) == 0
  {
    if logs != [] {
      FilterNone(logs[1..]);
    }
  }

  /** Counted days lie on today, two days ago, four days ago, ...; a newest day of yesterday counts nothing. */
  lemma DashStreakEvenDays(logs: seq<HabitLog>, today: int)
    requires logs != []
    ensures forall k :: 0 <= k < DashStreak(logs, today) ==> SortDesc(LoggedDays(logs))[k] == today - 2 * k
    ensures SortDesc(LoggedDays(logs)) != [] && SortDesc(LoggedDays(logs))[0] == today - 1 ==>
      DashStreak(logs, today) == 0
  {
  }

  // ---------------------------------------------------------------------
  // Top streak habit

  datatype Top = Top(habit: Habit, streak: nat)

  function HabitStreak(h: Habit, habitLogs: seq<HabitLog>, today: int): nat {
    DashStreak(LogsOf(habitLogs, h.id), today)
  }

  /** One step of the reduce: a habit replaces the current top only with a strictly greater streak. */
  function TopStep(top: Option<Top>, h: Habit, streakOf: Habit -> nat): Top {
    if top.None? || streakOf(h) > top.value.streak then Top(h, streakOf(h)) else top.value
  }

  /**
   * The reduce of `getTopStreakHabit` over any streak function: null exactly
   * when there are no habits; otherwise a habit with the greatest streak, the
   * earliest one among equals.
   */
  function TopBy(habits: seq<Habit>, streakOf: Habit -> nat): (r: Option<Top>)
    ensures r.None? <==> habits == []
    ensures r.Some? ==> forall j :: 0 <= j < |habits| ==> streakOf(habits[j]) <= r.value.streak
    ensures r.Some? ==> exists i :: (0 <= i < |habits| && r.value.habit == habits[i]
      && r.value.streak == streakOf(habits[i])
      && forall j :: 0 <= j < i ==> streakOf(habits[j]) < r.value.streak)
  {
    if habits == [] then None
    else
      var init := habits[..|habits| - 1];
      var prev := TopBy(init, streakOf);
      var last := habits[|habits| - 1];
      assert forall j :: 0 <= j < |init| ==> init[j] == habits[j];
      Some(TopStep(prev, last, streakOf))
  }

  /** `getTopStreakHabit` with the dashboard's streak of each habit's logs. */
  function TopStreakHabit(habits: seq<Habit>, habitLogs: seq<HabitLog>, today: int): Option<Top> {
    TopBy(habits, (h: Habit) => HabitStreak(h, habitLogs, today))
  }
}

=== FILE: days.dfy ===
/**
 * Time and list primitives shared by the whole application.
 *
 * An instant is a number of milliseconds since the epoch. Every normalisation
 * of an instant to a calendar day that the application performs
 * (`toISOString().split('T')[0]`, `setHours(0, 0, 0, 0)`, `toDateString()`)
 * is modelled by the one function `DayOf`, which numbers days consecutively.
 */
module Days {

  type Instant = int

  const MS_PER_DAY: int := 86400000

  /** The day an instant falls on. */
  function DayOf(t: Instant): int {
    t / MS_PER_DAY
  }

  /** The first millisecond of day `d` (`T00:00:00.000`). */
  function StartOfDay(d: int): Instant {
    d * MS_PER_DAY
  }

  /** An instant lies on day `d` exactly when it is in `[StartOfDay(d), StartOfDay(d + 1))`. */
  lemma DayOfIff(t: Instant, d: int)
    ensures DayOf(t) == d <==> StartOfDay(d) <= t < StartOfDay(d + 1)
  {
    var q := DayOf(t);
    assert StartOfDay(q) <= t < StartOfDay(q + 1);
    if d < q {
      assert StartOfDay(d + 1) <= StartOfDay(q);
    } else if d > q {
      assert StartOfDay(q + 1) <= StartOfDay(d);
    }
  }

  /** Later instants never fall on earlier days. */
  lemma DayOfMonotone(a: Instant, b: Instant)
    requires a <= b
    ensures DayOf(a) <= DayOf(b)
  {
  }

  /** `Math.ceil(a / b)` for a positive divisor. */
  function CeilDiv(a: int, b: int): (r: int)
    requires b > 0
    ensures (r - 1) * b < a <= r * b
  {
    -((-a) / b)
  }

  /** `whole > 0 ? (part / whole) * 100 : 0`, before any rounding. */
  function Percent(part: nat, whole: int): (r: real)
    ensures r >= 0.0
    ensures whole <= 0 ==> r == 0.0
    ensures whole > 0 ==> r * whole as real == part as real * 100.0
  {
    if whole > 0 then (part as real / whole as real) * 100.0 else 0.0
  }

  /** A part no larger than the whole is at most 100 percent. */
  lemma PercentAtMost100(part: nat, whole: int)
    requires part <= whole
    ensures Percent(part, whole) <= 100.0
  {
    if whole > 0 {
      var w := whole as real;
      assert w / w == 1.0;
      assert part as real / w <= w / w;
    }
  }

  function Max(a: int, b: int): int {
    if a >= b then a else b
  }

  function Min(a: int, b: int): int {
    if a <= b then a else b
  }

  /** Every pair of entries is in non-increasing order of `key`. */
  predicate SortedDescBy<T>(s: seq<T>, key: T -> int) {
    forall i, j :: 0 <= i < j < |s| ==> key(s[i]) >= key(s[j])
  }

  /** Inserts `x` into a list sorted by non-increasing `key`, before the first entry it is not below. */
  function InsertDescBy<T>(x: T, s: seq<T>, key: T -> int): (r: seq<T>)
    requires SortedDescBy(s, key)
    ensures |r| == |s| + 1
    ensures multiset(r) == multiset(s) + multiset{x}
    ensures SortedDescBy(r, key)
    ensures key(r[0]) == key(x) || (s != [] && key(r[0]) == key(s[0]))
  {
    if s == [] || key(x) >= key(s[0]) then
      [x] + s
    else
      var t := InsertDescBy(x, s[1..], key);
      assert s == [s[0]] + s[1..];
      [s[0]] + t
  }

  /**
   * `Array.prototype.sort` with a comparator ordering by descending `key`:
   * a permutation of the input in non-increasing key order.
   */
  function SortDescBy<T>(s: seq<T>, key: T -> int): (r: seq<T>)
    ensures |r| == |s|
    ensures multiset(r) == multiset(s)
    ensures SortedDescBy(r, key)
  {
    if s == [] then []
    else
      assert s == [s[0]] + s[1..];
      InsertDescBy(s[0], SortDescBy(s[1..], key), key)
  }

  /** Sorting numbers newest (largest) first, `sort((a, b) => b - a)`. */
  function SortDesc(s: seq<int>): (r: seq<int>)
    ensures |r| == |s|
    ensures multiset(r) == multiset(s)
    ensures forall i, j :: 0 <= i < j < |r| ==> r[i] >= r[j]
  {
    SortDescBy(s, x => x)
  }

  /** Sorting numbers oldest (smallest) first, `sort((a, b) => a - b)`. */
  function SortAsc(s: seq<int>): (r: seq<int>)
    ensures |r| == |s|
    ensures multiset(r) == multiset(s)
    ensures forall i, j :: 0 <= i < j < |r| ==> r[i] <= r[j]
  {
    SortDescBy(s, x => -x)
  }

  /** Sorting keeps exactly the same members. */
  lemma SortDescMembers(s: seq<int>)
    ensures forall x :: x in SortDesc(s) <==> x in s
  {
    forall x ensures x in SortDesc(s) <==> x in s {
      assert x in SortDesc(s) <==> x in multiset(SortDesc(s));
      assert x in s <==> x in multiset(s);
    }
  }

  /** The day of every instant, in order. */
  function DaysOf(ts: seq<Instant>): (r: seq<int>)
    ensures |r| == |ts|
    ensures forall i :: 0 <= i < |ts| ==> r[i] == DayOf(ts[i])
  {
    seq(|ts|, i requires 0 <= i < |ts| => DayOf(ts[i]))
  }

  /** Instants in non-increasing order fall on days in non-increasing order. */
  lemma DaysOfSortedDesc(ts: seq<Instant>)
    requires forall i, j :: 0 <= i < j < |ts| ==> ts[i] >= ts[j]
    ensures forall i, j :: 0 <= i < j < |ts| ==> DaysOf(ts)[i] >= DaysOf(ts)[j]
  {
    forall i, j | 0 <= i < j < |ts| ensures DaysOf(ts)[i] >= DaysOf(ts)[j] {
      DayOfMonotone(ts[j], ts[i]);
    }
  }

  /** `s.filter(p)`: the entries satisfying `p`, in their original order. */
  function Filter<T>(s: seq<T>, p: T -> bool): (r: seq<T>)
    ensures |r| <= |s|
    ensures forall i :: 0 <= i < |r| ==> p(r[i])
    ensures forall i :: 0 <= i < |r| ==> r[i] in s
    ensures forall i :: 0 <= i < |s| && p(s[i]) ==> s[i] in r
  {
    if s == [] then []
    else if p(s[0]) then [s[0]] + Filter(s[1..], p)
    else Filter(s[1..], p)
  }

  /** Filters with predicates that agree everywhere keep the same entries. */
  lemma {:induction false} FilterSamePredicate<T>(s: seq<T>, p: T -> bool, q: T -> bool)
    requires forall x :: p(x) == q(x)
    ensures Filter(s, p) == Filter(s, q)
  {
    if s != [] {
      FilterSamePredicate(s[1..], p, q);
    }
  }

  /** Filtering distributes over concatenation, so relative order is kept. */
  lemma {:induction false} FilterAppend<T>(a: seq<T>, b: seq<T>, p: T -> bool)
    ensures Filter(a + b, p) == Filter(a, p) + Filter(b, p)
  {
    if a == [] {
      assert a + b == b;
    } else {
      assert (a + b)[1..] == a[1..] + b;
      FilterAppend(a[1..], b, p);
    }
  }

  /** A filter every entry passes keeps the whole list. */
  lemma {:induction false} FilterKeepsAll<T>(s: seq<T>, p: T -> bool)
    requires forall i :: 0 <= i < |s| ==> p(s[i])
    ensures Filter(s, p) == s
  {
    if s != [] {
      FilterKeepsAll(s[1..], p);
    }
  }

  /** `s.filter(p).length`. */
  function Count<T>(s: seq<T>, p: T -> bool): nat {
    |Filter(s, p)|
  }

  /** Entries of two exclusive kinds are counted apart; when every entry is of one kind they add up to all. */
  lemma {:induction false} CountDisjoint<T>(s: seq<T>, p: T -> bool, q: T -> bool)
    requires forall i :: 0 <= i < |s| ==> !(p(s[i]) && q(s[i]))
    ensures Count(s, p) + Count(s, q) <= |s|
    ensures (forall i :: 0 <= i < |s| ==> p(s[i]) || q(s[i])) ==> Count(s, p) + Count(s, q) == |s|
  {
    if s != [] {
      CountDisjoint(s[1..], p, q);
    }
  }

  /** `s.map(f)`. */
  function Map<T, U>(s: seq<T>, f: T -> U): (r: seq<U>)
    ensures |r| == |s|
    ensures forall i :: 0 <= i < |s| ==> r[i] == f(s[i])
  {
    seq(|s|, i requires 0 <= i < |s| => f(s[i]))
  }

  /** `s.some(p)`. */
  predicate Exists<T>(s: seq<T>, p: T -> bool) {
    exists i :: 0 <= i < |s| && p(s[i])
  }

  /** `some` holds exactly when the filter is non-empty. */
  lemma ExistsIffFilter<T>(s: seq<T>, p: T -> bool)
    ensures Exists(s, p) <==> Filter(s, p) != []
  {
    if Exists(s, p) {
      var i :| 0 <= i < |s| && p(s[i]);
      assert s[i] in Filter(s, p);
    }
  }

  /** `s.reduce((sum, x) => sum + f(x), 0)`. */
  function Sum<T>(s: seq<T>, f: T -> int): int {
    if s == [] then 0 else f(s[0]) + Sum(s[1..], f)
  }

  /** `Math.max(...s.map(f), 0)`. */
  function MaxOf<T>(s: seq<T>, f: T -> int): (r: int)
    ensures r >= 0
    ensures forall i :: 0 <= i < |s| ==> f(s[i]) <= r
    ensures r == 0 || exists i :: 0 <= i < |s| && f(s[i]) == r
  {
    if s == [] then 0
    else
      var m := MaxOf(s[1..], f);
      assert forall i :: 1 <= i < |s| ==> s[i] == s[1..][i - 1];
      if f(s[0]) >= m then f(s[0])
      else
        assert m == 0 || exists i :: 1 <= i < |s| && f(s[i]) == m by {
          if m != 0 {
            var k :| 0 <= k < |s[1..]| && f(s[1..][k]) == m;
            assert f(s[k + 1]) == m;
          }
        }
        m
  }
}

=== FILE: entities.dfy ===
/**
 * The rows of the application's tables (`habits`, `habit_logs`,
 * `notification_settings`) and the authenticated user, as values.
 */
module Entities {
  import opened Wrappers
  import opened Days

  type Id = string

  /** A habit's schedule: `type` is `'daily'`, `'weekly'` or `'custom'`; `days` are weekdays, 0 = Sunday. */
  datatype Frequency = Frequency(kind: string, days: Option<seq<int>>, count: Option<int>)

  /** A row of `habits`. `kind` is the habit's `type`, `'positive'` or `'negative'`. */
  datatype Habit = Habit(
    id: Id,
    userId: Id,
    name: string,
    icon: string,
    kind: string,
    frequency: Option<Frequency>,
    reminderTime: Option<string>,
    isActive: bool,
    createdAt: Instant)

  /**
   * A row of `habit_logs`. `completedAt` is `None` when the row carries no
   * string `completed_at`; `loggedAt` is the `logged_at` field one caller reads,
   * which no code in the application ever writes.
   */
  datatype HabitLog = HabitLog(
    id: Id,
    habitId: Id,
    userId: Id,
    completedAt: Option<Instant>,
    loggedAt: Option<Instant>,
    notes: Option<string>,
    createdAt: Instant)

  /** The fields of a habit a `Partial<Habit>` may carry. */
  datatype HabitPatch = HabitPatch(
    id: Option<Id>,
    userId: Option<Id>,
    name: Option<string>,
    icon: Option<string>,
    kind: Option<string>,
    frequency: Option<Option<Frequency>>,
    reminderTime: Option<Option<string>>,
    isActive: Option<bool>,
    createdAt: Option<Instant>)

  const EmptyPatch := HabitPatch(None, None, None, None, None, None, None, None, None)

  /** `{ ...h, ...p }`: every field present in `p` overrides the one of `h`. */
  function Merge(h: Habit, p: HabitPatch): Habit {
    Habit(
      p.id.GetOr(h.id),
      p.userId.GetOr(h.userId),
      p.name.GetOr(h.name),
      p.icon.GetOr(h.icon),
      p.kind.GetOr(h.kind),
      p.frequency.GetOr(h.frequency),
      p.reminderTime.GetOr(h.reminderTime),
      p.isActive.GetOr(h.isActive),
      p.createdAt.GetOr(h.createdAt))
  }

  /** Spreading a patch twice is the same as spreading it once, and an empty patch changes nothing. */
  lemma MergeIdempotent(h: Habit, p: HabitPatch)
    ensures Merge(Merge(h, p), p) == Merge(h, p)
    ensures Merge(h, EmptyPatch) == h
  {
  }

  /** The patch that carries every field of `h`: spreading a full row replaces the old one. */
  function FullPatch(h: Habit): (p: HabitPatch)
    ensures forall old_h :: Merge(old_h, p) == h
  {
    HabitPatch(Some(h.id), Some(h.userId), Some(h.name), Some(h.icon), Some(h.kind),
      Some(h.frequency), Some(h.reminderTime), Some(h.isActive), Some(h.createdAt))
  }

  /** A row of `notification_settings`. */
  datatype NotificationSettings = NotificationSettings(
    userId: Id,
    dailyReminder: bool,
    weeklySummary: bool,
    achievementAlerts: bool,
    reminderTime: string)

  /** An authenticated user, as returned by `auth.getUser`. */
  datatype User = User(id: Id, email: string)

  /** An authentication session; its `user` is the signed-in user. */
  datatype Session = Session(user: User, accessToken: string)

  /** The log's completion day, when it has a string `completed_at`. */
  function CompletedDay(l: HabitLog): Option<int> {
    match l.completedAt
    case Some(t) => Some(DayOf(t))
    case None => None
  }

  /** `log.completed_at?.startsWith(date)` for the ISO date string of day `d`. */
  predicate CompletedOn(l: HabitLog, d: int) {
    l.completedAt.Some? && DayOf(l.completedAt.value) == d
  }

  /** Every log carries a string `completed_at`, as the declared row type promises. */
  predicate AllCompleted(logs: seq<HabitLog>) {
    forall i :: 0 <= i < |logs| ==> logs[i].completedAt.Some?
  }

  /** The `completed_at` instants of logs that all carry one, in order. */
  function CompletionTimes(logs: seq<HabitLog>): (r: seq<Instant>)
    requires AllCompleted(logs)
    ensures |r| == |logs|
    ensures forall i :: 0 <= i < |logs| ==> r[i] == logs[i].completedAt.value
  {
    seq(|logs|, i requires 0 <= i < |logs| => logs[i].completedAt.value)
  }

  /** `habits.find(h => h.id === id)`: the first habit with that id, if any. */
  function FindHabit(habits: seq<Habit>, id: Id): (r: Option<Habit>)
    ensures r.Some? ==> r.value in habits && r.value.id == id
    ensures r.None? <==> forall i :: 0 <= i < |habits| ==> habits[i].id != id
  {
    if habits == [] then None
    else if habits[0].id == id then Some(habits[0])
    else FindHabit(habits[1..], id)
  }

  /** The days of the logs that carry a string `completed_at`, in order. */
  function CompletedDays(logs: seq<HabitLog>): (r: seq<int>)
    ensures |r| <= |logs|
    ensures forall d :: d in r <==> exists i :: 0 <= i < |logs| && CompletedOn(logs[i], d)
  {
    if logs == [] then []
    else
      var rest := CompletedDays(logs[1..]);
      assert forall d :: d in rest ==> exists i :: 0 <= i < |logs| && CompletedOn(logs[i], d) by {
        forall d | d in rest ensures exists i :: 0 <= i < |logs| && CompletedOn(logs[i], d) {
          var j :| 0 <= j < |logs[1..]| && CompletedOn(logs[1..][j], d);
          assert CompletedOn(logs[j + 1], d);
        }
      }
      assert forall i :: 1 <= i < |logs| ==> logs[i] == logs[1..][i - 1];
      if logs[0].completedAt.Some? then [DayOf(logs[0].completedAt.value)] + rest else rest
  }

  /** `logs.filter(log => log.habit_id === habitId)`. */
  function LogsOf(logs: seq<HabitLog>, habitId: Id): (r: seq<HabitLog>)
    ensures |r| <= |logs|
    ensures forall i :: 0 <= i < |r| ==> r[i].habitId == habitId && r[i] in logs
    ensures forall i :: 0 <= i < |logs| && logs[i].habitId == habitId ==> logs[i] in r
  {
    Filter(logs, (l: HabitLog) => l.habitId == habitId)
  }

  /** A query ending in `.single()`: a row only when exactly one row matches, otherwise an error. */
  function Single<T>(rows: seq<T>): (r: Option<T>)
    ensures r.Some? <==> |rows| == 1
    ensures r.Some? ==> r.value == rows[0]
  {
    if |rows| == 1 then Some(rows[0]) else None
  }

  function CompletedKey(l: HabitLog): int {
    l.completedAt.GetOr(0)
  }

  function Untimed(): HabitLog -> bool {
    (l: HabitLog) => l.completedAt.None?
  }

  function Timed(): HabitLog -> bool {
    (l: HabitLog) => l.completedAt.Some?
  }

  /**
   * A query's `order('completed_at', { ascending: false })`: rows without a
   * `completed_at` first (descending order puts nulls first), then the others
   * newest first.
   */
  function NewestFirst(rows: seq<HabitLog>): (r: seq<HabitLog>)
    ensures |r| == |rows| && multiset(r) == multiset(rows)
    ensures forall i, j :: 0 <= i < j < |r| && r[j].completedAt.None? ==> r[i].completedAt.None?
    ensures forall i, j :: 0 <= i < j < |r| && r[i].completedAt.Some? && r[j].completedAt.Some? ==>
      r[i].completedAt.value >= r[j].completedAt.value
  {
    var nulls := Filter(rows, Untimed());
    var timed := Filter(rows, Timed());
    FilterSplitMultiset(rows);
    var sorted := SortDescBy(timed, CompletedKey);
    SortedAllTimed(timed, sorted);
    assert multiset(nulls + sorted) == multiset(nulls) + multiset(sorted);
    assert |multiset(nulls + sorted)| == |multiset(rows)|;
    nulls + sorted
  }

  lemma SortedAllTimed(timed: seq<HabitLog>, sorted: seq<HabitLog>)
    requires forall i :: 0 <= i < |timed| ==> timed[i].completedAt.Some?
    requires multiset(sorted) == multiset(timed)
    ensures forall i :: 0 <= i < |sorted| ==> sorted[i].completedAt.Some?
  {
    forall i | 0 <= i < |sorted| ensures sorted[i].completedAt.Some? {
      assert sorted[i] in multiset(timed);
    }
  }

  /** The rows with and the rows without `completed_at` together are all the rows. */
  lemma {:induction false} FilterSplitMultiset(rows: seq<HabitLog>)
    ensures multiset(Filter(rows, Untimed())) + multiset(Filter(rows, Timed())) == multiset(rows)
  {
    if rows != [] {
      var x := rows[0];
      FilterSplitMultiset(rows[1..]);
      assert rows == [x] + rows[1..];
      if x.completedAt.None? {
        assert Filter(rows, Untimed()) == [x] + Filter(rows[1..], Untimed());
        assert Filter(rows, Timed()) == Filter(rows[1..], Timed());
      } else {
        assert Filter(rows, Untimed()) == Filter(rows[1..], Untimed());
        assert Filter(rows, Timed()) == [x] + Filter(rows[1..], Timed());
      }
    }
  }
}

=== FILE: habit_lists.dfy ===
/**
 * The list updates the two client stores apply to their `habits` and
 * `habitLogs` state, and the shape of an answer from the server.
 */
module HabitLists {
  import opened Wrappers
  import opened Days
  import opened Entities

  /** What an awaited request produced: a successful payload, a reported error, or an exception. */
  datatype Outcome<T> = Ok(value: T) | Err(message: string) | Thrown

  /** `[item, ...list]`. */
  function Prepend<T>(item: T, list: seq<T>): (r: seq<T>)
    ensures |r| == |list| + 1 && r[0] == item && r[1..] == list
  {
    [item] + list
  }

  /** `habits.map(h => h.id === id ? { ...h, ...patch } : h)`. */
  function UpdateById(habits: seq<Habit>, id: Id, patch: HabitPatch): (r: seq<Habit>)
    ensures |r| == |habits|
    ensures forall i :: 0 <= i < |habits| && habits[i].id != id ==> r[i] == habits[i]
    ensures forall i :: 0 <= i < |habits| && habits[i].id == id ==> r[i] == Merge(habits[i], patch)
  {
    Map(habits, (h: Habit) => if h.id == id then Merge(h, patch) else h)
  }

  /** A patch that does not move a habit to another id. */
  predicate KeepsId(patch: HabitPatch, id: Id) {
    patch.id.None? || patch.id == Some(id)
  }

  /** Applying the same update twice is the same as applying it once. */
  lemma UpdateByIdIdempotent(habits: seq<Habit>, id: Id, patch: HabitPatch)
    requires KeepsId(patch, id)
    ensures UpdateById(UpdateById(habits, id, patch), id, patch) == UpdateById(habits, id, patch)
  {
    var once := UpdateById(habits, id, patch);
    var twice := UpdateById(once, id, patch);
    forall i | 0 <= i < |habits| ensures twice[i] == once[i] {
      MergeIdempotent(habits[i], patch);
    }
  }

  /** `habits.filter(h => h.id !== id)`. */
  function RemoveById(habits: seq<Habit>, id: Id): (r: seq<Habit>)
    ensures forall i :: 0 <= i < |r| ==> r[i].id != id && r[i] in habits
    ensures forall i :: 0 <= i < |habits| && habits[i].id != id ==> habits[i] in r
    ensures |r| + Count(habits, (h: Habit) => h.id == id) == |habits|
  {
    CountDisjoint(habits, (h: Habit) => h.id == id, (h: Habit) => h.id != id);
    Filter(habits, (h: Habit) => h.id != id)
  }

  /** Removing keeps the remaining habits in their original order: it distributes over concatenation. */
  lemma RemoveByIdKeepsOrder(a: seq<Habit>, b: seq<Habit>, id: Id)
    ensures RemoveById(a + b, id) == RemoveById(a, id) + RemoveById(b, id)
  {
    FilterAppend(a, b, (h: Habit) => h.id != id);
  }

  /** Removing after an update that keeps ids is the same as removing straight away. */
  lemma RemoveAfterUpdate(habits: seq<Habit>, id: Id, patch: HabitPatch)
    requires KeepsId(patch, id)
    ensures RemoveById(UpdateById(habits, id, patch), id) == RemoveById(habits, id)
  {
    RemoveAfterUpdateRec(habits, id, patch);
  }

  lemma {:induction false} RemoveAfterUpdateRec(habits: seq<Habit>, id: Id, patch: HabitPatch)
    requires KeepsId(patch, id)
    ensures Filter(UpdateById(habits, id, patch), (h: Habit) => h.id != id) == Filter(habits, (h: Habit) => h.id != id)
  {
    if habits != [] {
      assert UpdateById(habits, id, patch)[1..] == UpdateById(habits[1..], id, patch);
      RemoveAfterUpdateRec(habits[1..], id, patch);
    }
  }

  /** Deleting a freshly created habit leaves what deleting from the old list leaves. */
  lemma RemoveAfterPrepend(h: Habit, habits: seq<Habit>)
    ensures RemoveById(Prepend(h, habits), h.id) == RemoveById(habits, h.id)
  {
    assert Prepend(h, habits)[1..] == habits;
  }
}

=== FILE: habit_logs_route.dfy ===
/**
 * The habit-log API route (app/api/habit-logs/route.ts). POST records a
 * completion after checking the habit's owner and that the habit has no log
 * on that date yet; GET lists the caller's logs newest first.
 *
 * The `habit_logs` table is the object `LogTable`; the habits table, the
 * authentication service, the clock, the id the database assigns and any
 * database error are parameters. `completed_at` is an instant; its date
 * part, `completed_at.split('T')[0]`, is `DayOf` of it (see `DateKey`).
 */
module HabitLogsRoute {
  import opened Wrappers
  import opened Strings
  import opened Days
  import opened Entities
  import opened Requests

  /** The date part of an ISO timestamp: the text before its first `T`. */
  function DateKey(iso: string): (r: string)
    ensures 'T' !in r && StartsWith(iso, r)
  {
    PrefixBefore(iso, 'T')
  }

  /** A timestamp `<date>T<time>` has date part `<date>`. */
  lemma DateKeyOfTimestamp(date: string, time: string)
    requires 'T' !in date
    ensures DateKey(date + "T" + time) == date
  {
    var s := date + "T" + time;
    assert s[..|date|] == date;
    assert s[|date|] == 'T';
    assert forall k :: 0 <= k < |date| ==> s[k] == date[k] && s[k] != 'T';
  }

  /** The check window `[<date>T00:00:00.000Z, <date>T23:59:59.999Z)`: its last millisecond is outside. */
  const WINDOW_MS: int := 86399999

  predicate InWindow(t: Instant, d: int) {
    StartOfDay(d) <= t < StartOfDay(d) + WINDOW_MS
  }

  /** The logs of the habit, of any user, that the existing-log check finds for day `d`. */
  function Existing(rows: seq<HabitLog>, habitId: Id, d: int): (r: seq<HabitLog>)
    ensures forall i :: 0 <= i < |r| ==>
      (r[i] in rows && r[i].habitId == habitId && r[i].completedAt.Some? && InWindow(r[i].completedAt.value, d))
    ensures forall i :: (0 <= i < |rows| && rows[i].habitId == habitId
      && rows[i].completedAt.Some? && InWindow(rows[i].completedAt.value, d)) ==> rows[i] in r
  {
    Filter(rows, (l: HabitLog) => l.habitId == habitId && l.completedAt.Some? && InWindow(l.completedAt.value, d))
  }

  /** The invariant the check keeps: no two logs of one habit lie in the window of the same day. */
  ghost predicate OnePerWindow(rows: seq<HabitLog>) {
    forall i, j, d :: (0 <= i < j < |rows| && rows[i].habitId == rows[j].habitId
      && rows[i].completedAt.Some? && rows[j].completedAt.Some?
      && InWindow(rows[i].completedAt.value, d)) ==> !InWindow(rows[j].completedAt.value, d)
  }

  lemma {:induction false} NoneExisting(rows: seq<HabitLog>, habitId: Id, d: int)
    requires forall j :: 0 <= j < |rows| ==>
      !(rows[j].habitId == habitId && rows[j].completedAt.Some? && InWindow(rows[j].completedAt.value, d))
    ensures Existing(rows, habitId, d) == []
  {
    if rows != [] {
      NoneExisting(rows[1..], habitId, d);
    }
  }

  /** Under the invariant the check finds at most one log, so `.single()` sees every existing log. */
  lemma {:induction false} ExistingAtMostOne(rows: seq<HabitLog>, habitId: Id, d: int)
    requires OnePerWindow(rows)
    ensures |Existing(rows, habitId, d)| <= 1
  {
    if rows != [] {
      var rest := rows[1..];
      assert OnePerWindow(rest) by {
        forall i, j, d' | 0 <= i < j < |rest| && rest[i].habitId == rest[j].habitId
          && rest[i].completedAt.Some? && rest[j].completedAt.Some? && InWindow(rest[i].completedAt.value, d')
          ensures !InWindow(rest[j].completedAt.value, d')
        {
          assert rest[i] == rows[i + 1] && rest[j] == rows[j + 1];
        }
      }
      ExistingAtMostOne(rest, habitId, d);
      var l := rows[0];
      if l.habitId == habitId && l.completedAt.Some? && InWindow(l.completedAt.value, d) {
        forall j | 0 <= j < |rest|
          ensures !(rest[j].habitId == habitId && rest[j].completedAt.Some? && InWindow(rest[j].completedAt.value, d))
        {
          assert rest[j] == rows[j + 1];
        }
        NoneExisting(rest, habitId, d);
      }
    }
  }

  /** Inserting a log whose day's check found nothing keeps the invariant. */
  lemma InsertKeepsOnePerWindow(rows: seq<HabitLog>, log: HabitLog, t: Instant)
    requires OnePerWindow(rows)
    requires log.completedAt == Some(t)
    requires Existing(rows, log.habitId, DayOf(t)) == []
    ensures OnePerWindow(rows + [log])
  {
    var all := rows + [log];
    forall i, j, d | 0 <= i < j < |all| && all[i].habitId == all[j].habitId
      && all[i].completedAt.Some? && all[j].completedAt.Some? && InWindow(all[i].completedAt.value, d)
      ensures !InWindow(all[j].completedAt.value, d)
    {
      if j == |rows| {
        assert all[i] == rows[i];
        assert rows[i] !in Existing(rows, log.habitId, DayOf(t));
        DayOfIff(t, d);
        DayOfIff(t, DayOf(t));
      }
    }
  }

  /** A log in the last millisecond of a day is outside that day's window: a second log that day is accepted. */
  lemma LastMillisecondUnchecked(log: HabitLog, d: int)
    requires log.completedAt == Some(StartOfDay(d) + WINDOW_MS)
    ensures DayOf(log.completedAt.value) == d
    ensures Existing([log], log.habitId, d) == []
  {
    DayOfIff(log.completedAt.value, d);
  }

  /** The `habit_logs` table. */
  class LogTable {
    var rows: seq<HabitLog>

    constructor(rows0: seq<HabitLog>)
      ensures rows == rows0
    {
      rows := rows0;
    }

    ghost predicate Valid()
      reads this
    {
      OnePerWindow(rows)
    }
  }

  /** The ownership check: the habit with that id and the caller as owner, when exactly one row matches. */
  function OwnedHabit(habits: seq<Habit>, habitId: Id, userId: Id): (r: Option<Habit>)
    ensures r.Some? ==> r.value in habits && r.value.id == habitId && r.value.userId == userId
  {
    Single(Filter(habits, (h: Habit) => h.id == habitId && h.userId == userId))
  }

  /**
   * POST: authenticate; require `habit_id` (400); require the caller to own
   * the habit (404); refuse when the check finds exactly one log of the habit
   * on the date (409); otherwise insert one log with the caller's id, the
   * given or current `completed_at` and the notes. An insert error gives 400.
   */
  method Post(table: LogTable, header: Option<string>, sessions: map<string, User>, habits: seq<Habit>,
              habitId: Option<Id>, notes: Option<string>, completedAt: Option<Instant>,
              now: Instant, newId: Id, insertError: Option<string>)
    returns (reply: Reply<HabitLog>)
    modifies table
    ensures !Authenticate(header, sessions).Authed? ==> reply.Fail? && reply.status == 401
    ensures reply.Fail? ==> table.rows == old(table.rows)
    ensures Authenticate(header, sessions).Authed? && (habitId.None? || habitId.value == "") ==>
      reply == Fail(400, "Habit ID is required")
    ensures (Authenticate(header, sessions).Authed? && habitId.Some? && habitId.value != ""
      && OwnedHabit(habits, habitId.value, Authenticate(header, sessions).user.id).None?) ==>
      reply == Fail(404, "Habit not found or access denied")
    ensures reply.Ok? ==> (var t := completedAt.GetOr(now);
      habitId.Some? && Authenticate(header, sessions).Authed?
      && |Existing(old(table.rows), habitId.value, DayOf(t))| != 1
      && reply.data == HabitLog(newId, habitId.value, Authenticate(header, sessions).user.id, Some(t), None, notes, now)
      && table.rows == old(table.rows) + [reply.data])
    ensures (Authenticate(header, sessions).Authed? && habitId.Some? && habitId.value != ""
      && OwnedHabit(habits, habitId.value, Authenticate(header, sessions).user.id).Some?
      && |Existing(old(table.rows), habitId.value, DayOf(completedAt.GetOr(now)))| == 1) ==>
      reply == Fail(409, "Habit already logged for this date")
    ensures (Authenticate(header, sessions).Authed? && habitId.Some? && habitId.value != ""
      && OwnedHabit(habits, habitId.value, Authenticate(header, sessions).user.id).Some?
      && |Existing(old(table.rows), habitId.value, DayOf(completedAt.GetOr(now)))| != 1) ==>
      (if insertError.Some? then reply == Fail(400, insertError.value) else reply.Ok?)
    ensures old(table.Valid()) ==> table.Valid()
  {
    var auth := Authenticate(header, sessions);
    if !auth.Authed? {
      return AuthFailure(auth);
    }
    var user := auth.user;
    if habitId.None? || habitId.value == "" {
      return Fail(400, "Habit ID is required");
    }
    var habit := OwnedHabit(habits, habitId.value, user.id);
    if habit.None? {
      return Fail(404, "Habit not found or access denied");
    }
    var completedDate := completedAt.GetOr(now);
    var dateOnly := DayOf(completedDate);
    var existingLog := Single(Existing(table.rows, habitId.value, dateOnly));
    if existingLog.Some? {
      return Fail(409, "Habit already logged for this date");
    }
    if insertError.Some? {
      return Fail(400, insertError.value);
    }
    var log := HabitLog(newId, habitId.value, user.id, Some(completedDate), None, notes, now);
    if table.Valid() {
      ExistingAtMostOne(table.rows, habitId.value, dateOnly);
      InsertKeepsOnePerWindow(table.rows, log, completedDate);
    }
    table.rows := table.rows + [log];
    reply := Ok(200, log);
  }

  // ---------------------------------------------------------------------
  // GET

  const DEFAULT_LIMIT: nat := 50

  /** The filters of the query: the caller's habits, an optional habit, and an optional inclusive date range. */
  predicate Selected(l: HabitLog, habits: seq<Habit>, userId: Id, habitId: Option<Id>,
                     startDate: Option<Instant>, endDate: Option<Instant>) {
    (exists i :: 0 <= i < |habits| && habits[i].id == l.habitId && habits[i].userId == userId)
    && (habitId.None? || habitId.value == "" || l.habitId == habitId.value)
    && (startDate.None? || (l.completedAt.Some? && l.completedAt.value >= startDate.value))
    && (endDate.None? || (l.completedAt.Some? && l.completedAt.value <= endDate.value))
  }

  function Take<T>(s: seq<T>, n: nat): (r: seq<T>)
    ensures |r| == Min(n, |s|) && r == s[..|r|]
  {
    if n <= |s| then s[..n] else s
  }

  lemma PageFromSelection(selected: seq<HabitLog>, ordered: seq<HabitLog>, page: seq<HabitLog>)
    requires multiset(ordered) == multiset(selected)
    requires |page| <= |ordered| && page == ordered[..|page|]
    ensures forall i :: 0 <= i < |page| ==> page[i] in selected
  {
    forall i | 0 <= i < |page| ensures page[i] in selected {
      assert page[i] == ordered[i];
      assert ordered[i] in multiset(ordered);
    }
  }

  /** The query's filter as a function of a log. */
  function SelectedBy(habits: seq<Habit>, userId: Id, habitId: Option<Id>,
                      startDate: Option<Instant>, endDate: Option<Instant>): HabitLog -> bool {
    (l: HabitLog) => Selected(l, habits, userId, habitId, startDate, endDate)
  }

  /** `a` comes before `b` in the query's order: `b` has a `completed_at`, and `a` has none or a later one. */
  predicate Newer(a: HabitLog, b: HabitLog) {
    b.completedAt.Some? && (a.completedAt.None? || a.completedAt.value > b.completedAt.value)
  }

  /** No log of `selected` that sorts before a log of `page` is missing from `page`. */
  predicate NoNewerLeftOut(page: seq<HabitLog>, selected: seq<HabitLog>) {
    forall x, i :: x in selected && 0 <= i < |page| && Newer(x, page[i]) ==> x in page
  }

  /** A prefix of the query's order keeps every log that sorts before one of its own. */
  lemma PrefixKeepsNewer(selected: seq<HabitLog>, ordered: seq<HabitLog>, page: seq<HabitLog>)
    requires multiset(ordered) == multiset(selected)
    requires forall i, j :: 0 <= i < j < |ordered| && ordered[j].completedAt.None? ==> ordered[i].completedAt.None?
    requires forall i, j :: 0 <= i < j < |ordered| && ordered[i].completedAt.Some? && ordered[j].completedAt.Some? ==>
      ordered[i].completedAt.value >= ordered[j].completedAt.value
    requires |page| <= |ordered| && page == ordered[..|page|]
    ensures NoNewerLeftOut(page, selected)
  {
    forall x, i | x in selected && 0 <= i < |page| && Newer(x, page[i]) ensures x in page {
      assert x in multiset(ordered);
      var j :| 0 <= j < |ordered| && ordered[j] == x;
      assert page[i] == ordered[i];
      if j >= |page| {
        assert i < j;
      } else {
        assert page[j] == x;
      }
    }
  }

  /**
   * GET: the caller's selected logs in the query's order (logs without a
   * `completed_at` first, then newest first), the first `limit` of them (50
   * when absent).
   */
  function Get(header: Option<string>, sessions: map<string, User>, habits: seq<Habit>, rows: seq<HabitLog>,
               habitId: Option<Id>, startDate: Option<Instant>, endDate: Option<Instant>,
               limit: Option<nat>, queryError: Option<string>): (reply: Reply<seq<HabitLog>>)
    ensures !Authenticate(header, sessions).Authed? ==> reply.Fail? && reply.status == 401
    ensures Authenticate(header, sessions).Authed? && queryError.Some? ==> reply == Fail(400, queryError.value)
    ensures Authenticate(header, sessions).Authed? && queryError.None? ==>
      var selected := Filter(rows, SelectedBy(habits, Authenticate(header, sessions).user.id, habitId, startDate, endDate));
      reply.Ok? && reply.status == 200
      && |reply.data| == Min(limit.GetOr(DEFAULT_LIMIT), |selected|)
      && (forall i :: 0 <= i < |reply.data| ==> reply.data[i] in selected)
      && (forall i, j :: 0 <= i < j < |reply.data| && reply.data[j].completedAt.None? ==> reply.data[i].completedAt.None?)
      && (forall i, j :: 0 <= i < j < |reply.data| && reply.data[i].completedAt.Some? && reply.data[j].completedAt.Some? ==>
            reply.data[i].completedAt.value >= reply.data[j].completedAt.value)
      && NoNewerLeftOut(reply.data, selected)
  {
    var auth := Authenticate(header, sessions);
    if !auth.Authed? then AuthFailure(auth)
    else if queryError.Some? then Fail(400, queryError.value)
    else
      var selected := Filter(rows, SelectedBy(habits, auth.user.id, habitId, startDate, endDate));
      var ordered := NewestFirst(selected);
      var page := Take(ordered, limit.GetOr(DEFAULT_LIMIT));
      PageFromSelection(selected, ordered, page);
      PrefixKeepsNewer(selected, ordered, page);
      Ok(200, page)
  }

  /** Every returned log is one of the caller's rows passing the filters. */
  lemma GetReturnsSelectedRows(header: Option<string>, sessions: map<string, User>, habits: seq<Habit>, rows: seq<HabitLog>,
                               habitId: Option<Id>, startDate: Option<Instant>, endDate: Option<Instant>,
                               limit: Option<nat>, queryError: Option<string>)
    ensures var reply := Get(header, sessions, habits, rows, habitId, startDate, endDate, limit, queryError);
      reply.Ok? ==> forall i :: 0 <= i < |reply.data| ==>
        reply.data[i] in rows
        && Selected(reply.data[i], habits, Authenticate(header, sessions).user.id, habitId, startDate, endDate)
  {
    var reply := Get(header, sessions, habits, rows, habitId, startDate, endDate, limit, queryError);
    if reply.Ok? {
      var selected := Filter(rows, SelectedBy(habits, Authenticate(header, sessions).user.id, habitId, startDate, endDate));
      forall i | 0 <= i < |reply.data|
        ensures reply.data[i] in rows
          && Selected(reply.data[i], habits, Authenticate(header, sessions).user.id, habitId, startDate, endDate)
      {
        assert reply.data[i] in selected;
        var k :| 0 <= k < |selected| && selected[k] == reply.data[i];
      }
    }
  }

  /** Without a limit at most 50 logs come back, and when fewer are selected all of them do. */
  lemma DefaultLimit(header: Option<string>, sessions: map<string, User>, habits: seq<Habit>, rows: seq<HabitLog>)
    requires Authenticate(header, sessions).Authed?
    ensures (var reply := Get(header, sessions, habits, rows, None, None, None, None, None);
      var userId := Authenticate(header, sessions).user.id;
      var selected := Filter(rows, SelectedBy(habits, userId, None, None, None));
      reply.Ok? && |reply.data| == Min(50, |selected|))
  {
  }
}

=== FILE: habit_store.dfy ===
/**
 * The client habit store of the Next.js application (store/habitStore.ts):
 * its `habits`, `habitLogs` and `isLoading` state, the actions that replace
 * them after a call to the application's own API, and the streak and
 * today-status queries over the cached logs.
 */
module HabitStore {
  import opened Wrappers
  import opened Days
  import opened Entities
  import opened Streaks
  import opened HabitLists

  const NOT_SIGNED_IN: string := "用户未登录"
  const CREATE_FAILED: string := "创建习惯失败"
  const UPDATE_FAILED: string := "更新习惯失败"
  const DELETE_FAILED: string := "删除习惯失败"
  const LOG_FAILED: string := "记录习惯失败"

  /** The habit's logs sorted by `completed_at`, newest first. */
  function SortedLogs(habitLogs: seq<HabitLog>, habitId: Id): (r: seq<HabitLog>)
    ensures multiset(r) == multiset(LogsOf(habitLogs, habitId))
    ensures |r| == |LogsOf(habitLogs, habitId)|
    ensures forall i, j :: 0 <= i < j < |r| ==> r[i].completedAt.GetOr(0) >= r[j].completedAt.GetOr(0)
  {
    SortDescBy(LogsOf(habitLogs, habitId), (l: HabitLog) => l.completedAt.GetOr(0))
  }

  /** The day of each log, read from its `completed_at`. */
  function LogDays(logs: seq<HabitLog>): (r: seq<int>)
    requires AllCompleted(logs)
    ensures |r| == |logs|
    ensures forall i :: 0 <= i < |logs| ==> r[i] == DayOf(logs[i].completedAt.value)
  {
    DaysOf(CompletionTimes(logs))
  }

  /** Every sorted log of the habit is one of the store's logs, with that habit id. */
  lemma SortedLogsMembers(habitLogs: seq<HabitLog>, habitId: Id)
    ensures forall i :: 0 <= i < |SortedLogs(habitLogs, habitId)| ==>
      SortedLogs(habitLogs, habitId)[i] in habitLogs && SortedLogs(habitLogs, habitId)[i].habitId == habitId
  {
    var r := SortedLogs(habitLogs, habitId);
    forall i | 0 <= i < |r| ensures r[i] in habitLogs && r[i].habitId == habitId {
      assert r[i] in multiset(LogsOf(habitLogs, habitId));
    }
  }

  /** The sorted logs of a habit inherit a `completed_at` from the store's logs. */
  lemma SortedLogsCompleted(habitLogs: seq<HabitLog>, habitId: Id)
    requires AllCompleted(habitLogs)
    ensures AllCompleted(SortedLogs(habitLogs, habitId))
  {
    var r := SortedLogs(habitLogs, habitId);
    SortedLogsMembers(habitLogs, habitId);
    forall i | 0 <= i < |r| ensures r[i].completedAt.Some? {
      var n :| 0 <= n < |habitLogs| && habitLogs[n] == r[i];
    }
  }

  /**
   * The counting loop of `getStreakCount` over logs sorted newest first:
   * log `i` counts while it falls on the day `i` days before today.
   */
  method CountSortedStreak(logs: seq<HabitLog>, today: int) returns (streak: nat)
    requires AllCompleted(logs)
    ensures streak == WalkBack(LogDays(logs), today)
  {
    streak := 0;
    var i := 0;
    while i < |logs|
      invariant 0 <= i <= |logs| && streak == i
      invariant forall k :: 0 <= k < i ==> DayOf(logs[k].completedAt.value) == today - k
    {
      var logDate := DayOf(logs[i].completedAt.value);
      var expectedDate := today - i;
      if logDate == expectedDate {
        streak := streak + 1;
      } else {
        break;
      }
      i := i + 1;
    }
    WalkBackUnique(LogDays(logs), today, streak);
  }

  /**
   * `getStreakCount`: the habit's logs newest first, where log `i` counts
   * while it falls on the day `i` days before today.
   */
  function StoreStreak(habitLogs: seq<HabitLog>, habitId: Id, today: int): nat
    requires AllCompleted(habitLogs)
  {
    SortedLogsCompleted(habitLogs, habitId);
    WalkBack(LogDays(SortedLogs(habitLogs, habitId)), today)
  }

  /** `getTodayStatus`: some log of the habit falls on today. */
  predicate TodayStatus(habitLogs: seq<HabitLog>, habitId: Id, today: int) {
    exists i :: 0 <= i < |habitLogs| && habitLogs[i].habitId == habitId && CompletedOn(habitLogs[i], today)
  }

  /** The streak never exceeds the number of the habit's logs. */
  lemma StoreStreakBound(habitLogs: seq<HabitLog>, habitId: Id, today: int)
    requires AllCompleted(habitLogs)
    ensures StoreStreak(habitLogs, habitId, today) <= |LogsOf(habitLogs, habitId)|
  {
  }

  /** A positive streak means the newest log of the habit falls on today. */
  lemma StreakMeansToday(habitLogs: seq<HabitLog>, habitId: Id, today: int)
    requires AllCompleted(habitLogs)
    ensures StoreStreak(habitLogs, habitId, today) > 0 ==> TodayStatus(habitLogs, habitId, today)
  {
    var sorted := SortedLogs(habitLogs, habitId);
    SortedLogsMembers(habitLogs, habitId);
    var days := LogDays(sorted);
    if StoreStreak(habitLogs, habitId, today) > 0 {
      assert days[0] == today;
      assert sorted[0] in habitLogs;
      var n :| 0 <= n < |habitLogs| && habitLogs[n] == sorted[0];
      assert CompletedOn(habitLogs[n], today);
    }
  }

  /** In logs sorted newest first, a log on `today` and a first log not after today put the first log on today. */
  lemma NewestOnToday(sorted: seq<HabitLog>, k: nat, today: int)
    requires k < |sorted| && sorted[0].completedAt.Some? && CompletedOn(sorted[k], today)
    requires sorted[0].completedAt.GetOr(0) >= sorted[k].completedAt.GetOr(0)
    requires DayOf(sorted[0].completedAt.value) <= today
    ensures DayOf(sorted[0].completedAt.value) == today
  {
    DayOfMonotone(sorted[k].completedAt.value, sorted[0].completedAt.value);
  }

  /** A log today, with no log after today, is the newest log and starts the streak. */
  lemma TodayStartsStreak(habitLogs: seq<HabitLog>, habitId: Id, today: int)
    requires AllCompleted(habitLogs)
    requires TodayStatus(habitLogs, habitId, today)
    requires forall i :: 0 <= i < |habitLogs| ==> DayOf(habitLogs[i].completedAt.value) <= today
    ensures StoreStreak(habitLogs, habitId, today) >= 1
  {
    var sorted := SortedLogs(habitLogs, habitId);
    var k := TodayLogSorted(habitLogs, habitId, today);
    SortedLogsMembers(habitLogs, habitId);
    assert sorted[0] in habitLogs;
    NewestOnToday(sorted, k, today);
    assert LogDays(sorted)[0] == today;
  }

  /** A log of the habit on today is somewhere in the sorted list. */
  lemma TodayLogSorted(habitLogs: seq<HabitLog>, habitId: Id, today: int) returns (k: nat)
    requires TodayStatus(habitLogs, habitId, today)
    ensures k < |SortedLogs(habitLogs, habitId)| && CompletedOn(SortedLogs(habitLogs, habitId)[k], today)
  {
    var sorted := SortedLogs(habitLogs, habitId);
    var i :| 0 <= i < |habitLogs| && habitLogs[i].habitId == habitId && CompletedOn(habitLogs[i], today);
    assert habitLogs[i] in LogsOf(habitLogs, habitId);
    assert habitLogs[i] in multiset(sorted);
    k :| 0 <= k < |sorted| && sorted[k] == habitLogs[i];
  }

  /**
   * The streak and today's status agree: without a log today the streak is 0,
   * and with one (and no log after today) it is at least 1.
   */
  lemma TodayStatusAndStreak(habitLogs: seq<HabitLog>, habitId: Id, today: int)
    requires AllCompleted(habitLogs)
    ensures !TodayStatus(habitLogs, habitId, today) ==> StoreStreak(habitLogs, habitId, today) == 0
    ensures TodayStatus(habitLogs, habitId, today)
      && (forall i :: 0 <= i < |habitLogs| ==> DayOf(habitLogs[i].completedAt.value) <= today)
      ==> StoreStreak(habitLogs, habitId, today) >= 1
  {
    StreakMeansToday(habitLogs, habitId, today);
    if TodayStatus(habitLogs, habitId, today) && (forall i :: 0 <= i < |habitLogs| ==> DayOf(habitLogs[i].completedAt.value) <= today) {
      TodayStartsStreak(habitLogs, habitId, today);
    }
  }

  class Store {
    var habits: seq<Habit>
    var habitLogs: seq<HabitLog>
    var isLoading: bool

    /** The initial state: no habits, no logs, not loading. */
    constructor()
      ensures habits == [] && habitLogs == [] && !isLoading
    {
      habits := [];
      habitLogs := [];
      isLoading := false;
    }

    /** `fetchHabits`: replaces the habits only on a successful answer and always ends not loading. */
    method FetchHabits(session: Option<Session>, response: Outcome<seq<Habit>>)
      modifies this
      ensures !isLoading
      ensures habits == (if session.Some? && response.Ok? then response.value else old(habits))
      ensures habitLogs == old(habitLogs)
    {
      isLoading := true;
      if session.None? {
        isLoading := false;
        return;
      }
      if response.Ok? {
        habits := response.value;
      }
      isLoading := false;
    }

    /** `createHabit`: on success the new habit comes first, followed by the old list; otherwise nothing changes. */
    method CreateHabit(session: Option<Session>, response: Outcome<Habit>) returns (error: Option<string>)
      modifies this
      ensures error.None? <==> session.Some? && response.Ok?
      ensures habits == (if session.Some? && response.Ok? then Prepend(response.value, old(habits)) else old(habits))
      ensures session.None? ==> error == Some(NOT_SIGNED_IN)
      ensures session.Some? && response.Err? ==> error == Some(response.message)
      ensures session.Some? && response.Thrown? ==> error == Some(CREATE_FAILED)
      ensures habitLogs == old(habitLogs) && isLoading == old(isLoading)
    {
      if session.None? {
        return Some(NOT_SIGNED_IN);
      }
      match response
      case Ok(habit) =>
        habits := Prepend(habit, habits);
        error := None;
      case Err(message) =>
        error := Some(message);
      case Thrown =>
        error := Some(CREATE_FAILED);
    }

    /** `updateHabit`: on success every habit with the id is merged with the returned fields; order and length are kept. */
    method UpdateHabit(id: Id, session: Option<Session>, response: Outcome<HabitPatch>) returns (error: Option<string>)
      modifies this
      ensures error.None? <==> session.Some? && response.Ok?
      ensures habits == (if session.Some? && response.Ok? then UpdateById(old(habits), id, response.value) else old(habits))
      ensures session.None? ==> error == Some(NOT_SIGNED_IN)
      ensures session.Some? && response.Err? ==> error == Some(response.message)
      ensures session.Some? && response.Thrown? ==> error == Some(UPDATE_FAILED)
      ensures habitLogs == old(habitLogs) && isLoading == old(isLoading)
    {
      if session.None? {
        return Some(NOT_SIGNED_IN);
      }
      match response
      case Ok(patch) =>
        habits := UpdateById(habits, id, patch);
        error := None;
      case Err(message) =>
        error := Some(message);
      case Thrown =>
        error := Some(UPDATE_FAILED);
    }

    /** `deleteHabit`: on success every habit with the id is removed and the others keep their order. */
    method DeleteHabit(id: Id, session: Option<Session>, response: Outcome<()>) returns (error: Option<string>)
      modifies this
      ensures error.None? <==> session.Some? && response.Ok?
      ensures habits == (if session.Some? && response.Ok? then RemoveById(old(habits), id) else old(habits))
      ensures session.None? ==> error == Some(NOT_SIGNED_IN)
      ensures session.Some? && response.Err? ==> error == Some(response.message)
      ensures session.Some? && response.Thrown? ==> error == Some(DELETE_FAILED)
      ensures habitLogs == old(habitLogs) && isLoading == old(isLoading)
    {
      if session.None? {
        return Some(NOT_SIGNED_IN);
      }
      match response
      case Ok(_) =>
        habits := RemoveById(habits, id);
        error := None;
      case Err(message) =>
        error := Some(message);
      case Thrown =>
        error := Some(DELETE_FAILED);
    }

    /** `logHabit`: on success the returned log comes first, followed by the old logs; otherwise nothing changes. */
    method LogHabit(session: Option<Session>, response: Outcome<HabitLog>) returns (error: Option<string>)
      modifies this
      ensures error.None? <==> session.Some? && response.Ok?
      ensures habitLogs == (if session.Some? && response.Ok? then Prepend(response.value, old(habitLogs)) else old(habitLogs))
      ensures session.None? ==> error == Some(NOT_SIGNED_IN)
      ensures session.Some? && response.Err? ==> error == Some(response.message)
      ensures session.Some? && response.Thrown? ==> error == Some(LOG_FAILED)
      ensures habits == old(habits) && isLoading == old(isLoading)
    {
      if session.None? {
        return Some(NOT_SIGNED_IN);
      }
      match response
      case Ok(log) =>
        habitLogs := Prepend(log, habitLogs);
        error := None;
      case Err(message) =>
        error := Some(message);
      case Thrown =>
        error := Some(LOG_FAILED);
    }

    /** `fetchHabitLogs`: replaces the logs only on a successful answer. */
    method FetchHabitLogs(session: Option<Session>, response: Outcome<seq<HabitLog>>)
      modifies this
      ensures habitLogs == (if session.Some? && response.Ok? then response.value else old(habitLogs))
      ensures habits == old(habits) && isLoading == old(isLoading)
    {
      if session.None? {
        return;
      }
      if response.Ok? {
        habitLogs := response.value;
      }
    }

    /** `getStreakCount`: the counting loop over the habit's sorted logs. */
    method GetStreakCount(habitId: Id, today: int) returns (streak: nat)
      requires AllCompleted(habitLogs)
      ensures streak == StoreStreak(habitLogs, habitId, today)
    {
      var logs := SortedLogs(habitLogs, habitId);
      SortedLogsCompleted(habitLogs, habitId);
      streak := CountSortedStreak(logs, today);
    }

    /** `getTodayStatus` over the store's logs. */
    predicate GetTodayStatus(habitId: Id, today: int)
      reads this
    {
      TodayStatus(habitLogs, habitId, today)
    }
  }
}

=== FILE: habits_page.dfy ===
/**
 * The habits page (app/habits/page.tsx): the streak shown on each habit card,
 * the 30-day completion statistics, the search/type/frequency filters, the
 * header counts and the normalisation of the form data before it is saved.
 */
module HabitsPage {
  import opened Wrappers
  import opened Days
  import opened Strings
  import opened Entities
  import opened Streaks

  // ---------------------------------------------------------------------
  // Streak

  /** The walk starts today when some log falls on today, otherwise yesterday. */
  function StartDay(sortedDays: seq<int>, today: int): int {
    if today in sortedDays then today else today - 1
  }

  /**
   * The streak of a habit's logs: the logs' days (those with a string
   * `completed_at`), newest first, walked back one day at a time from the
   * start day.
   */
  function PageStreak(logs: seq<HabitLog>, today: int): nat {
    if logs == [] then 0
    else
      var sorted := SortDesc(CompletedDays(logs));
      WalkBack(sorted, StartDay(sorted, today))
  }

  /** `calculateStreak`: the loop over the sorted days with a moving expected day. */
  method CalculateStreak(logs: seq<HabitLog>, today: int) returns (streak: nat)
    ensures streak == PageStreak(logs, today)
  {
    if |logs| == 0 {
      return 0;
    }
    var sortedLogs := SortDesc(CompletedDays(logs));
    streak := 0;
    var currentDate := today;
    var hasToday := today in sortedLogs;
    if !hasToday {
      currentDate := currentDate - 1;
    }
    ghost var start := currentDate;
    while streak < |sortedLogs|
      invariant streak <= |sortedLogs|
      invariant currentDate == start - streak
      invariant forall k :: 0 <= k < streak ==> sortedLogs[k] == start - k
    {
      if sortedLogs[streak] == currentDate {
        streak := streak + 1;
        currentDate := currentDate - 1;
      } else {
        break;
      }
    }
    WalkBackUnique(sortedLogs, start, streak);
  }

  /** The streak never exceeds the number of logs that carry a string `completed_at`. */
  lemma PageStreakBound(logs: seq<HabitLog>, today: int)
    ensures PageStreak(logs, today) <= |CompletedDays(logs)| <= |logs|
  {
  }

  /** Logs only on yesterday and the day before give a streak of 2: the walk starts at yesterday. */
  lemma YesterdayAndDayBefore(logs: seq<HabitLog>, today: int)
    requires multiset(CompletedDays(logs)) == multiset{today - 1, today - 2}
    ensures PageStreak(logs, today) == 2
  {
    var sorted := SortedPair(logs, today - 1, today - 2);
    assert StartDay(sorted, today) == today - 1;
    WalkBackUnique(sorted, today - 1, 2);
  }

  /** A log dated after today comes first in the sorted days and stops the walk at once, even with a log today. */
  lemma FutureLogEndsStreak(logs: seq<HabitLog>, today: int)
    requires multiset(CompletedDays(logs)) == multiset{today + 1, today}
    ensures today in CompletedDays(logs)
    ensures PageStreak(logs, today) == 0
  {
    assert today in multiset(CompletedDays(logs));
    var sorted := SortedPair(logs, today + 1, today);
    WalkBackUnique(sorted, today, 0);
  }

  /** Logs on exactly the days `a > b` have the sorted days `[a, b]`. */
  lemma SortedPair(logs: seq<HabitLog>, a: int, b: int) returns (sorted: seq<int>)
    requires a > b && multiset(CompletedDays(logs)) == multiset{a, b}
    ensures logs != []
    ensures sorted == SortDesc(CompletedDays(logs)) == [a, b]
  {
    var d := CompletedDays(logs);
    assert |d| == |multiset(d)| == 2;
    sorted := SortDesc(d);
    DescendingPair(sorted, a, b);
  }

  /** A list in non-increasing order holding exactly `a > b` is `[a, b]`. */
  lemma DescendingPair(s: seq<int>, a: int, b: int)
    requires a > b && multiset(s) == multiset{a, b}
    requires forall i, j :: 0 <= i < j < |s| ==> s[i] >= s[j]
    ensures s == [a, b]
  {
    assert |s| == |multiset(s)| == 2;
    assert s == [s[0], s[1]];
    assert multiset(s) == multiset{s[0], s[1]};
  }

  /** A second log on a day already counted ends the streak there. */
  lemma RepeatedDayEndsStreak(logs: seq<HabitLog>, today: int, i: nat)
    requires logs != []
    requires i + 1 < |SortDesc(CompletedDays(logs))|
    requires SortDesc(CompletedDays(logs))[i] == SortDesc(CompletedDays(logs))[i + 1]
    ensures PageStreak(logs, today) <= i + 1
  {
    var sorted := SortDesc(CompletedDays(logs));
    RepeatEndsWalk(sorted, StartDay(sorted, today), i);
  }

  // ---------------------------------------------------------------------
  // Completed today

  /** `isCompletedToday`: some log of the habit has a string `completed_at` on today. */
  predicate IsCompletedToday(habitId: Id, habitLogs: seq<HabitLog>, today: int) {
    exists i :: 0 <= i < |habitLogs| && habitLogs[i].habitId == habitId && CompletedOn(habitLogs[i], today)
  }

  /** A habit is completed today exactly when today is among the days of its logs. */
  lemma CompletedTodayIffDay(habitId: Id, habitLogs: seq<HabitLog>, today: int)
    ensures IsCompletedToday(habitId, habitLogs, today) <==> today in CompletedDays(LogsOf(habitLogs, habitId))
  {
    var mine := LogsOf(habitLogs, habitId);
    if IsCompletedToday(habitId, habitLogs, today) {
      var i :| 0 <= i < |habitLogs| && habitLogs[i].habitId == habitId && CompletedOn(habitLogs[i], today);
      var j :| 0 <= j < |mine| && mine[j] == habitLogs[i];
      assert CompletedOn(mine[j], today);
    }
    if today in CompletedDays(mine) {
      var m :| 0 <= m < |mine| && CompletedOn(mine[m], today);
      var i :| 0 <= i < |habitLogs| && habitLogs[i] == mine[m];
      assert habitLogs[i].habitId == habitId;
    }
  }

  /** In a list sorted newest first whose days are at most `today`, a present `today` comes first. */
  lemma TodayLeadsSorted(sorted: seq<int>, today: int)
    requires forall i, j :: 0 <= i < j < |sorted| ==> sorted[i] >= sorted[j]
    requires forall i :: 0 <= i < |sorted| ==> sorted[i] <= today
    requires today in sorted
    ensures sorted[0] == today
  {
  }

  /**
   * With no log after today, a habit completed today has a streak of at least
   * one, and a habit not completed today has its streak counted from yesterday.
   */
  lemma CompletedTodayStartsStreak(habitId: Id, habitLogs: seq<HabitLog>, today: int)
    requires forall i :: 0 <= i < |habitLogs| && habitLogs[i].completedAt.Some? ==>
      DayOf(habitLogs[i].completedAt.value) <= today
    ensures IsCompletedToday(habitId, habitLogs, today) ==> PageStreak(LogsOf(habitLogs, habitId), today) >= 1
    ensures !IsCompletedToday(habitId, habitLogs, today) && LogsOf(habitLogs, habitId) != [] ==>
      PageStreak(LogsOf(habitLogs, habitId), today)
        == WalkBack(SortDesc(CompletedDays(LogsOf(habitLogs, habitId))), today - 1)
  {
    var mine := LogsOf(habitLogs, habitId);
    var days := CompletedDays(mine);
    var sorted := SortDesc(days);
    CompletedTodayIffDay(habitId, habitLogs, today);
    SortDescMembers(days);
    if IsCompletedToday(habitId, habitLogs, today) {
      NoDayAfterToday(habitId, habitLogs, today);
      TodayLeadsSorted(sorted, today);
    }
  }

  /** With no log after today, none of a habit's completion days is after today. */
  lemma NoDayAfterToday(habitId: Id, habitLogs: seq<HabitLog>, today: int)
    requires forall i :: 0 <= i < |habitLogs| && habitLogs[i].completedAt.Some? ==>
      DayOf(habitLogs[i].completedAt.value) <= today
    ensures forall i :: 0 <= i < |SortDesc(CompletedDays(LogsOf(habitLogs, habitId)))| ==>
      SortDesc(CompletedDays(LogsOf(habitLogs, habitId)))[i] <= today
  {
    var mine := LogsOf(habitLogs, habitId);
    var days := CompletedDays(mine);
    SortDescMembers(days);
    forall d | d in days ensures d <= today {
      var m :| 0 <= m < |mine| && CompletedOn(mine[m], d);
      assert mine[m] in habitLogs;
    }
    forall i | 0 <= i < |SortDesc(days)| ensures SortDesc(days)[i] <= today {
      assert SortDesc(days)[i] in SortDesc(days);
    }
  }

  /**
   * On days sorted newest first, the walk from the start day is positive only
   * when there is a day on today or yesterday, and then always when no day is
   * after today.
   */
  lemma WalkFromStartDay(sorted: seq<int>, today: int)
    requires forall i, j :: 0 <= i < j < |sorted| ==> sorted[i] >= sorted[j]
    ensures WalkBack(sorted, StartDay(sorted, today)) > 0 ==> today in sorted || today - 1 in sorted
    ensures (forall i :: 0 <= i < |sorted| ==> sorted[i] <= today) && (today in sorted || today - 1 in sorted) ==>
      WalkBack(sorted, StartDay(sorted, today)) >= 1
  {
    if (forall i :: 0 <= i < |sorted| ==> sorted[i] <= today) && (today in sorted || today - 1 in sorted) {
      var k :| 0 <= k < |sorted| && (sorted[k] == today || sorted[k] == today - 1);
      assert sorted[0] >= sorted[k];
      if today !in sorted {
        assert sorted[0] != today;
      }
      assert sorted[0] == StartDay(sorted, today);
    }
  }

  /**
   * A habit's streak is positive only when it has a log today or yesterday,
   * and, with no log after today, such a log always gives a positive streak.
   */
  lemma StreakIffRecentLog(habitId: Id, habitLogs: seq<HabitLog>, today: int)
    ensures PageStreak(LogsOf(habitLogs, habitId), today) > 0 ==>
      IsCompletedToday(habitId, habitLogs, today) || IsCompletedToday(habitId, habitLogs, today - 1)
    ensures ((forall i :: 0 <= i < |habitLogs| && habitLogs[i].completedAt.Some? ==>
                DayOf(habitLogs[i].completedAt.value) <= today)
             && (IsCompletedToday(habitId, habitLogs, today) || IsCompletedToday(habitId, habitLogs, today - 1)))
      ==> PageStreak(LogsOf(habitLogs, habitId), today) >= 1
  {
    var mine := LogsOf(habitLogs, habitId);
    var days := CompletedDays(mine);
    var sorted := SortDesc(days);
    CompletedTodayIffDay(habitId, habitLogs, today);
    CompletedTodayIffDay(habitId, habitLogs, today - 1);
    SortDescMembers(days);
    WalkFromStartDay(sorted, today);
    if forall i :: 0 <= i < |habitLogs| && habitLogs[i].completedAt.Some? ==> DayOf(habitLogs[i].completedAt.value) <= today {
      NoDayAfterToday(habitId, habitLogs, today);
    }
  }

  // ---------------------------------------------------------------------
  // Statistics over the last 30 days

  const WINDOW_DAYS: int := 30

  /** The later of the habit's creation and 30 days before now. */
  function WindowStart(createdAt: Instant, now: Instant): (r: Instant)
    ensures r >= createdAt && r >= now - WINDOW_DAYS * MS_PER_DAY
    ensures r == createdAt || r == now - WINDOW_DAYS * MS_PER_DAY
  {
    if createdAt > now - WINDOW_DAYS * MS_PER_DAY then createdAt else now - WINDOW_DAYS * MS_PER_DAY
  }

  /** `Math.min(Math.ceil((now - startDate) / day), 30)`: never more than 30 days. */
  function ExpectedDays(createdAt: Instant, now: Instant): (r: int)
    ensures r <= WINDOW_DAYS
    ensures now > WindowStart(createdAt, now) ==> r >= 1
    ensures now <= WindowStart(createdAt, now) ==> r <= 0
  {
    Min(CeilDiv(now - WindowStart(createdAt, now), MS_PER_DAY), WINDOW_DAYS)
  }

  /** The logs with a string `completed_at` at or after `start`. */
  function RecentLogs(logs: seq<HabitLog>, start: Instant): (r: seq<HabitLog>)
    ensures |r| <= |logs|
    ensures forall i :: 0 <= i < |r| ==> r[i].completedAt.Some? && r[i].completedAt.value >= start
    ensures forall i :: 0 <= i < |logs| && logs[i].completedAt.Some? && logs[i].completedAt.value >= start ==>
      logs[i] in r
  {
    Filter(logs, (l: HabitLog) => l.completedAt.Some? && l.completedAt.value >= start)
  }

  datatype HabitStats = HabitStats(totalLogs: nat, streakCount: nat, completionRate: real)

  /** `getHabitStats`, before the final `Math.round`. */
  function GetHabitStats(habitId: Id, habitLogs: seq<HabitLog>, habits: seq<Habit>, now: Instant): (r: HabitStats)
    ensures FindHabit(habits, habitId).None? ==> r == HabitStats(0, 0, 0.0)
    ensures r.totalLogs <= |habitLogs|
    ensures r.streakCount <= r.totalLogs
    ensures r.completionRate >= 0.0
    ensures FindHabit(habits, habitId).Some? ==>
      var today := DayOf(now);
      var habit := FindHabit(habits, habitId).value;
      r.totalLogs == |LogsOf(habitLogs, habitId)|
      && (r.streakCount > 0 ==> IsCompletedToday(habitId, habitLogs, today) || IsCompletedToday(habitId, habitLogs, today - 1))
      && ((forall i :: 0 <= i < |habitLogs| && habitLogs[i].completedAt.Some? ==>
             DayOf(habitLogs[i].completedAt.value) <= today)
          && (IsCompletedToday(habitId, habitLogs, today) || IsCompletedToday(habitId, habitLogs, today - 1)) ==>
          r.streakCount >= 1)
      && r.completionRate == Percent(|RecentLogs(LogsOf(habitLogs, habitId), WindowStart(habit.createdAt, now))|,
                                     ExpectedDays(habit.createdAt, now))
  {
    match FindHabit(habits, habitId)
    case None => HabitStats(0, 0, 0.0)
    case Some(habit) =>
      var mine := LogsOf(habitLogs, habitId);
      PageStreakBound(mine, DayOf(now));
      StreakIffRecentLog(habitId, habitLogs, DayOf(now));
      var startDate := WindowStart(habit.createdAt, now);
      var recentLogs := RecentLogs(mine, startDate);
      HabitStats(|mine|, PageStreak(mine, DayOf(now)), Percent(|recentLogs|, ExpectedDays(habit.createdAt, now)))
  }

  // ---------------------------------------------------------------------
  // Filters and counts

  /** Name contains the search term (both lower-cased), and the type and frequency filters match. */
  predicate MatchesFilters(h: Habit, searchTerm: string, filterType: string, filterFrequency: string) {
    Contains(ToLower(h.name), ToLower(searchTerm))
    && (filterType == "all" || h.kind == filterType)
    && (filterFrequency == "all" || (h.frequency.Some? && h.frequency.value.kind == filterFrequency))
  }

  /** `filteredHabits`: exactly the habits matching every filter, in their original order. */
  function FilteredHabits(habits: seq<Habit>, searchTerm: string, filterType: string, filterFrequency: string)
    : (r: seq<Habit>)
    ensures forall i :: 0 <= i < |r| ==> r[i] in habits && MatchesFilters(r[i], searchTerm, filterType, filterFrequency)
    ensures forall i :: 0 <= i < |habits| && MatchesFilters(habits[i], searchTerm, filterType, filterFrequency) ==>
      habits[i] in r
  {
    Filter(habits, (h: Habit) => MatchesFilters(h, searchTerm, filterType, filterFrequency))
  }

  /** Filtering the two halves of a list and joining them equals filtering the whole: order is kept. */
  lemma FilteredHabitsKeepsOrder(a: seq<Habit>, b: seq<Habit>, searchTerm: string, filterType: string, filterFrequency: string)
    ensures FilteredHabits(a + b, searchTerm, filterType, filterFrequency)
      == FilteredHabits(a, searchTerm, filterType, filterFrequency) + FilteredHabits(b, searchTerm, filterType, filterFrequency)
  {
    FilterAppend(a, b, (h: Habit) => MatchesFilters(h, searchTerm, filterType, filterFrequency));
  }

  /** An empty search with both filters on `'all'` keeps every habit. */
  lemma NoFilterKeepsAll(habits: seq<Habit>)
    ensures FilteredHabits(habits, "", "all", "all") == habits
  {
    forall i | 0 <= i < |habits| ensures MatchesFilters(habits[i], "", "all", "all") {
      assert StartsWith(ToLower(habits[i].name), ToLower(""));
    }
    FilterKeepsAll(habits, (h: Habit) => MatchesFilters(h, "", "all", "all"));
  }

  datatype HeaderStats = HeaderStats(total: nat, positive: nat, negative: nat, daily: nat, weekly: nat)

  predicate IsPositive(h: Habit) { h.kind == "positive" }
  predicate IsNegative(h: Habit) { h.kind == "negative" }
  predicate IsDaily(h: Habit) { h.frequency.Some? && h.frequency.value.kind == "daily" }
  predicate IsWeekly(h: Habit) { h.frequency.Some? && h.frequency.value.kind == "weekly" }

  /** The header counts: positive and negative habits, daily and weekly habits, never more than the total. */
  function Stats(habits: seq<Habit>): (r: HeaderStats)
    ensures r.total == |habits|
    ensures r.positive + r.negative <= r.total
    ensures r.daily + r.weekly <= r.total
  {
    CountDisjoint(habits, IsPositive, IsNegative);
    CountDisjoint(habits, IsDaily, IsWeekly);
    HeaderStats(|habits|, Count(habits, IsPositive), Count(habits, IsNegative),
      Count(habits, IsDaily), Count(habits, IsWeekly))
  }

  /** When every habit is positive or negative, the two type counts add up to the total. */
  lemma TypeCountsPartition(habits: seq<Habit>)
    requires forall i :: 0 <= i < |habits| ==> IsPositive(habits[i]) || IsNegative(habits[i])
    ensures Stats(habits).positive + Stats(habits).negative == Stats(habits).total
  {
    CountDisjoint(habits, IsPositive, IsNegative);
  }

  // ---------------------------------------------------------------------
  // Save normalisation

  /** The data the habit form hands to its save handler. */
  datatype HabitFormData = HabitFormData(
    name: string,
    icon: string,
    kind: string,
    frequency: Option<Frequency>,
    reminderTime: Option<string>)

  /** The frequency sent to the server: `type || 'daily'`, `count || 1`, and `days` only when present. */
  function NormaliseFrequency(f: Option<Frequency>): (r: Frequency)
    ensures r.kind != "" && r.count.Some? && r.count.value != 0
    ensures f.Some? && f.value.kind != "" ==> r.kind == f.value.kind
    ensures f.None? || f.value.kind == "" ==> r.kind == "daily"
    ensures f.Some? && f.value.count.Some? && f.value.count.value != 0 ==> r.count == f.value.count
    ensures (f.None? || f.value.count.None? || f.value.count.value == 0) ==> r.count == Some(1)
    ensures r.days == (if f.Some? then f.value.days else None)
  {
    var kind := if f.Some? && f.value.kind != "" then f.value.kind else "daily";
    var count := if f.Some? && f.value.count.Some? && f.value.count.value != 0 then f.value.count.value else 1;
    var days := if f.Some? then f.value.days else None;
    Frequency(kind, days, Some(count))
  }

  /** `processedData`: an empty reminder time becomes null and the frequency is normalised. */
  function ProcessSaveData(d: HabitFormData): (r: HabitFormData)
    ensures r.reminderTime != Some("")
    ensures d.reminderTime != Some("") ==> r.reminderTime == d.reminderTime
    ensures r.frequency == Some(NormaliseFrequency(d.frequency))
    ensures r.name == d.name && r.icon == d.icon && r.kind == d.kind
  {
    d.(reminderTime := if d.reminderTime == Some("") then None else d.reminderTime,
       frequency := Some(NormaliseFrequency(d.frequency)))
  }

  /** Normalising already normalised data changes nothing. */
  lemma ProcessSaveDataIdempotent(d: HabitFormData)
    ensures ProcessSaveData(ProcessSaveData(d)) == ProcessSaveData(d)
  {
  }
}

=== FILE: habits_route.dfy ===
/**
 * The habits API route (app/api/habits/route.ts): GET lists the caller's
 * active habits newest first; POST creates a habit, filling in defaults for
 * the fields the request leaves out.
 *
 * The `habits` table is the object `HabitTable`; the authentication
 * service, the clock, the id the database assigns and any database error are
 * parameters.
 */
module HabitsRoute {
  import opened Wrappers
  import opened Days
  import opened Entities
  import opened Requests

  const DEFAULT_ICON: string := "\U{1F3AF}"
  const DEFAULT_KIND: string := "positive"
  const DEFAULT_FREQUENCY: Frequency := Frequency("daily", None, Some(1))

  /** The `habits` table. */
  class HabitTable {
    var rows: seq<Habit>

    constructor(rows0: seq<Habit>)
      ensures rows == rows0
    {
      rows := rows0;
    }
  }

  function CreatedAt(h: Habit): int {
    h.createdAt
  }

  /** The query of GET: the user's active habits, newest created first. */
  function ActiveNewestFirst(rows: seq<Habit>, userId: Id): (r: seq<Habit>)
    ensures |r| <= |rows|
    ensures forall h :: h in r <==> h in rows && h.userId == userId && h.isActive
    ensures SortedDescBy(r, CreatedAt)
  {
    var mine := Filter(rows, (h: Habit) => h.userId == userId && h.isActive);
    var sorted := SortDescBy(mine, CreatedAt);
    assert forall h :: h in sorted <==> h in mine by {
      forall h ensures h in sorted <==> h in mine {
        assert h in sorted <==> h in multiset(sorted);
        assert h in mine <==> h in multiset(mine);
      }
    }
    sorted
  }

  /** GET: 401 without a valid token, 400 on a query error, else the caller's active habits. */
  function Get(header: Option<string>, sessions: map<string, User>, rows: seq<Habit>, queryError: Option<string>)
    : (reply: Reply<seq<Habit>>)
    ensures !Authenticate(header, sessions).Authed? ==> reply.Fail? && reply.status == 401
    ensures Authenticate(header, sessions).Authed? && queryError.Some? ==> reply == Fail(400, queryError.value)
    ensures Authenticate(header, sessions).Authed? && queryError.None? ==>
      reply == Ok(200, ActiveNewestFirst(rows, Authenticate(header, sessions).user.id))
  {
    var auth := Authenticate(header, sessions);
    if !auth.Authed? then AuthFailure(auth)
    else if queryError.Some? then Fail(400, queryError.value)
    else Ok(200, ActiveNewestFirst(rows, auth.user.id))
  }

  /** The body of a POST; absent and empty strings are both falsy. */
  datatype HabitRequest = HabitRequest(
    name: Option<string>,
    icon: Option<string>,
    kind: Option<string>,
    frequency: Option<Frequency>,
    reminderTime: Option<string>)

  /** `x || d` for a string. */
  function OrDefault(x: Option<string>, d: string): (r: string)
    ensures x.Some? && x.value != "" ==> r == x.value
    ensures x.None? || x.value == "" ==> r == d
  {
    if x.Some? && x.value != "" then x.value else d
  }

  /** The inserted row: the caller as owner, the name, and each default where the request has no value. */
  function NewHabit(req: HabitRequest, userId: Id, newId: Id, now: Instant): (h: Habit)
    requires req.name.Some?
    ensures h.userId == userId && h.name == req.name.value && h.isActive
    ensures h.icon == OrDefault(req.icon, DEFAULT_ICON)
    ensures h.kind == OrDefault(req.kind, DEFAULT_KIND)
    ensures h.frequency == Some(req.frequency.GetOr(DEFAULT_FREQUENCY))
    ensures h.reminderTime == req.reminderTime
  {
    Habit(newId, userId, req.name.value, OrDefault(req.icon, DEFAULT_ICON), OrDefault(req.kind, DEFAULT_KIND),
      Some(req.frequency.GetOr(DEFAULT_FREQUENCY)), req.reminderTime, true, now)
  }

  /** POST: 401 without a valid token, 400 without a name or on an insert error; otherwise one new row. */
  method Post(table: HabitTable, header: Option<string>, sessions: map<string, User>, req: HabitRequest,
              newId: Id, now: Instant, insertError: Option<string>)
    returns (reply: Reply<Habit>)
    modifies table
    ensures !Authenticate(header, sessions).Authed? ==> reply.Fail? && reply.status == 401
    ensures Authenticate(header, sessions).Authed? && (req.name.None? || req.name.value == "") ==>
      reply == Fail(400, "Habit name is required")
    ensures reply.Fail? ==> table.rows == old(table.rows)
    ensures (Authenticate(header, sessions).Authed? && req.name.Some? && req.name.value != "") ==>
      (if insertError.Some? then reply == Fail(400, insertError.value)
       else reply == Ok(200, NewHabit(req, Authenticate(header, sessions).user.id, newId, now))
            && table.rows == old(table.rows) + [reply.data])
  {
    var auth := Authenticate(header, sessions);
    if !auth.Authed? {
      return AuthFailure(auth);
    }
    if req.name.None? || req.name.value == "" {
      return Fail(400, "Habit name is required");
    }
    if insertError.Some? {
      return Fail(400, insertError.value);
    }
    var habit := NewHabit(req, auth.user.id, newId, now);
    table.rows := table.rows + [habit];
    reply := Ok(200, habit);
  }

  /** A habit created by a caller is among that caller's habits on the next GET, and nobody else's. */
  lemma CreatedHabitListed(rows: seq<Habit>, req: HabitRequest, userId: Id, other: Id, newId: Id, now: Instant)
    requires req.name.Some? && other != userId
    ensures NewHabit(req, userId, newId, now) in ActiveNewestFirst(rows + [NewHabit(req, userId, newId, now)], userId)
    ensures NewHabit(req, userId, newId, now) !in ActiveNewestFirst(rows + [NewHabit(req, userId, newId, now)], other)
  {
    var h := NewHabit(req, userId, newId, now);
    assert h in rows + [h];
  }
}

=== FILE: history_page.dfy ===
/**
 * The history page (app/history/page.tsx): the logs of the selected month
 * that match the habit and search filters, grouped by day, laid out on a
 * 42-cell month calendar, and the four summary figures.
 *
 * A month is given by its first day, its length and the weekday of its first
 * day (0 = Sunday); a log is in the month when its `created_at` falls on one
 * of the month's days.
 */
module HistoryPage {
  import opened Wrappers
  import opened Strings
  import opened Days
  import opened Entities

  datatype Month = Month(firstDay: int, daysInMonth: nat, startingDayOfWeek: nat)

  /** The shapes a calendar month can take. */
  predicate ValidMonth(m: Month) {
    28 <= m.daysInMonth <= 31 && m.startingDayOfWeek < 7
  }

  predicate InMonth(m: Month, t: Instant) {
    m.firstDay <= DayOf(t) < m.firstDay + m.daysInMonth
  }

  /** The search test: an empty term matches; otherwise the log's habit must exist and its name contain the term, ignoring case. */
  predicate MatchesSearch(habits: seq<Habit>, habitId: Id, searchTerm: string) {
    searchTerm == ""
    || (FindHabit(habits, habitId).Some?
        && Contains(ToLower(FindHabit(habits, habitId).value.name), ToLower(searchTerm)))
  }

  predicate Keep(l: HabitLog, habits: seq<Habit>, m: Month, selectedHabit: string, searchTerm: string) {
    InMonth(m, l.createdAt)
    && (selectedHabit == "all" || l.habitId == selectedHabit)
    && MatchesSearch(habits, l.habitId, searchTerm)
  }

  /** `filteredLogs`: the logs passing all three tests, in their original order. */
  function FilteredLogs(logs: seq<HabitLog>, habits: seq<Habit>, m: Month, selectedHabit: string, searchTerm: string)
    : (r: seq<HabitLog>)
    ensures forall i :: 0 <= i < |r| ==> r[i] in logs && Keep(r[i], habits, m, selectedHabit, searchTerm)
    ensures forall i :: 0 <= i < |logs| && Keep(logs[i], habits, m, selectedHabit, searchTerm) ==> logs[i] in r
  {
    Filter(logs, (l: HabitLog) => Keep(l, habits, m, selectedHabit, searchTerm))
  }

  // ---------------------------------------------------------------------
  // Grouping by day

  /** The logs created on day `d`. */
  function OnDay(d: int): HabitLog -> bool {
    (l: HabitLog) => DayOf(l.createdAt) == d
  }

  /** A list with no log on day `d` has an empty group for it. */
  lemma {:induction false} NoneOnDay(logs: seq<HabitLog>, d: int)
    requires forall i :: 0 <= i < |logs| ==> DayOf(logs[i].createdAt) != d
    ensures Filter(logs, OnDay(d)) == []
  {
    if logs != [] {
      assert DayOf(logs[0].createdAt) != d;
      forall i | 0 <= i < |logs[1..]| ensures DayOf(logs[1..][i].createdAt) != d {
        assert logs[1..][i] == logs[i + 1];
      }
      NoneOnDay(logs[1..], d);
    }
  }

  /** The group of a day after one more log. */
  lemma GroupExtend(logs: seq<HabitLog>, l: HabitLog, d: int)
    ensures Filter(logs + [l], OnDay(d)) == Filter(logs, OnDay(d)) + (if DayOf(l.createdAt) == d then [l] else [])
  {
    FilterAppend(logs, [l], OnDay(d));
    assert [l][1..] == [];
  }

  /**
   * `keys` and `groups` group `seen`: the keys are distinct, they are the
   * groups' days, they are exactly the days of the logs seen, and each
   * group holds that day's logs in their original order.
   */
  ghost predicate Grouped(keys: seq<int>, groups: map<int, seq<HabitLog>>, seen: seq<HabitLog>) {
    (forall a, b :: 0 <= a < b < |keys| ==> keys[a] != keys[b])
    && (forall d :: d in groups <==> d in keys)
    && (forall d :: d in keys <==> exists k :: 0 <= k < |seen| && DayOf(seen[k].createdAt) == d)
    && (forall d :: d in groups ==> groups[d] == Filter(seen, OnDay(d)))
  }

  /**
   * One step of the `reduce`: the log is appended to the group of its day,
   * a new group being opened (and its day recorded in `keys`, the key order
   * of the object) the first time a day is seen.
   */
  method AddToGroup(keys: seq<int>, groups: map<int, seq<HabitLog>>, ghost seen: seq<HabitLog>, log: HabitLog)
    returns (keys': seq<int>, groups': map<int, seq<HabitLog>>)
    requires Grouped(keys, groups, seen)
    ensures Grouped(keys', groups', seen + [log])
  {
    var date := DayOf(log.createdAt);
    keys', groups' := keys, groups;
    if date !in groups {
      NoneOnDay(seen, date);
      groups' := groups'[date := []];
      keys' := keys' + [date];
    }
    groups' := groups'[date := groups'[date] + [log]];
    forall d | d in groups' ensures groups'[d] == Filter(seen + [log], OnDay(d)) {
      GroupExtend(seen, log, d);
    }
    assert forall d :: d in keys' <==> exists k :: 0 <= k < |seen + [log]| && DayOf((seen + [log])[k].createdAt) == d by {
      forall d ensures d in keys' <==> exists k :: 0 <= k < |seen + [log]| && DayOf((seen + [log])[k].createdAt) == d {
        if d in keys && d != date {
          var k :| 0 <= k < |seen| && DayOf(seen[k].createdAt) == d;
          assert (seen + [log])[k] == seen[k];
        }
        if d == date {
          assert (seen + [log])[|seen|] == log;
        }
        if exists k :: 0 <= k < |seen + [log]| && DayOf((seen + [log])[k].createdAt) == d {
          var k :| 0 <= k < |seen + [log]| && DayOf((seen + [log])[k].createdAt) == d;
          if k < |seen| {
            assert (seen + [log])[k] == seen[k];
          }
        }
      }
    }
  }

  /** The `reduce` into `groups` over every log, in order. */
  method GroupLogs(logs: seq<HabitLog>) returns (keys: seq<int>, groups: map<int, seq<HabitLog>>)
    ensures forall i, j :: 0 <= i < j < |keys| ==> keys[i] != keys[j]
    ensures forall d :: d in groups <==> d in keys
    ensures forall d :: d in keys <==> exists i :: 0 <= i < |logs| && DayOf(logs[i].createdAt) == d
    ensures forall d :: d in groups ==> groups[d] == Filter(logs, OnDay(d))
  {
    keys := [];
    groups := map[];
    for i := 0 to |logs|
      invariant Grouped(keys, groups, logs[..i])
    {
      assert logs[..i + 1] == logs[..i] + [logs[i]];
      keys, groups := AddToGroup(keys, groups, logs[..i], logs[i]);
    }
    assert logs[..|logs|] == logs;
  }

  /** How many times `d` occurs in `keys`. */
  function Occurrences(keys: seq<int>, d: int): nat {
    if keys == [] then 0 else (if keys[0] == d then 1 else 0) + Occurrences(keys[1..], d)
  }

  lemma {:induction false} OccursOnce(keys: seq<int>, d: int)
    requires forall i, j :: 0 <= i < j < |keys| ==> keys[i] != keys[j]
    ensures Occurrences(keys, d) == (if d in keys then 1 else 0)
  {
    if keys != [] {
      OccursOnce(keys[1..], d);
      if keys[0] == d {
        assert d !in keys[1..] by {
          forall j | 0 <= j < |keys[1..]| ensures keys[1..][j] != d {
            assert keys[1..][j] == keys[j + 1];
          }
        }
      }
    }
  }

  /** The sum of the sizes of the groups of `keys`. */
  function GroupSizes(logs: seq<HabitLog>, keys: seq<int>): nat {
    if keys == [] then 0 else |Filter(logs, OnDay(keys[0]))| + GroupSizes(logs, keys[1..])
  }

  lemma {:induction false} GroupSizesExtend(logs: seq<HabitLog>, l: HabitLog, keys: seq<int>)
    ensures GroupSizes(logs + [l], keys) == GroupSizes(logs, keys) + Occurrences(keys, DayOf(l.createdAt))
  {
    if keys != [] {
      GroupExtend(logs, l, keys[0]);
      GroupSizesExtend(logs, l, keys[1..]);
    }
  }

  /** Every log is in exactly one group: the group sizes add up to the number of logs. */
  lemma {:induction false} GroupSizesSum(logs: seq<HabitLog>, keys: seq<int>)
    requires forall i, j :: 0 <= i < j < |keys| ==> keys[i] != keys[j]
    requires forall i :: 0 <= i < |logs| ==> DayOf(logs[i].createdAt) in keys
    ensures GroupSizes(logs, keys) == |logs|
  {
    if logs == [] {
      GroupSizesEmpty(keys);
    } else {
      var init := logs[..|logs| - 1];
      var l := logs[|logs| - 1];
      assert logs == init + [l];
      GroupSizesSum(init, keys);
      GroupSizesExtend(init, l, keys);
      OccursOnce(keys, DayOf(l.createdAt));
    }
  }

  lemma {:induction false} GroupSizesEmpty(keys: seq<int>)
    ensures GroupSizes([], keys) == 0
  {
    if keys != [] {
      GroupSizesEmpty(keys[1..]);
    }
  }

  /** Each group holds at least one log, so there are never more groups than logs. */
  lemma {:induction false} GroupsAtMostLogs(logs: seq<HabitLog>, keys: seq<int>)
    requires forall i :: 0 <= i < |keys| ==> Filter(logs, OnDay(keys[i])) != []
    ensures GroupSizes(logs, keys) >= |keys|
  {
    if keys != [] {
      assert Filter(logs, OnDay(keys[0])) != [];
      GroupsAtMostLogs(logs, keys[1..]);
    }
  }

  // ---------------------------------------------------------------------
  // The calendar

  datatype Cell = Cell(day: int, isCurrentMonth: bool, logs: seq<HabitLog>)

  /** `groupedLogs[dateString] || []`. */
  function LogsOn(groups: map<int, seq<HabitLog>>, d: int): seq<HabitLog> {
    if d in groups then groups[d] else []
  }

  /**
   * `generateCalendarData`: the days of the previous month before the first
   * weekday, every day of the month with its group, then the days of the next
   * month up to six full weeks. Cell `k` is day `firstDay - startingDayOfWeek + k`.
   */
  method Calendar(m: Month, groups: map<int, seq<HabitLog>>) returns (cells: seq<Cell>)
    requires ValidMonth(m)
    ensures |cells| == 42
    ensures forall k :: 0 <= k < 42 ==> cells[k].day == m.firstDay - m.startingDayOfWeek + k
    ensures forall k :: 0 <= k < 42 ==>
      (cells[k].isCurrentMonth <==> m.startingDayOfWeek <= k < m.startingDayOfWeek + m.daysInMonth)
    ensures forall k :: 0 <= k < 42 && cells[k].isCurrentMonth ==> cells[k].logs == LogsOn(groups, cells[k].day)
    ensures forall k :: 0 <= k < 42 && !cells[k].isCurrentMonth ==> cells[k].logs == []
  {
    var start := m.startingDayOfWeek;
    var base := m.firstDay - start;
    cells := [];
    var i := start - 1;
    while i >= 0
      invariant -1 <= i < start && |cells| == start - 1 - i
      invariant forall k :: 0 <= k < |cells| ==> cells[k] == Cell(base + k, false, [])
    {
      cells := cells + [Cell(m.firstDay - 1 - i, false, [])];
      i := i - 1;
    }
    for day := 1 to m.daysInMonth + 1
      invariant |cells| == start + day - 1
      invariant forall k :: 0 <= k < start ==> cells[k] == Cell(base + k, false, [])
      invariant forall k :: start <= k < |cells| ==> cells[k] == Cell(base + k, true, LogsOn(groups, base + k))
    {
      var date := m.firstDay + day - 1;
      cells := cells + [Cell(date, true, LogsOn(groups, date))];
    }
    var remainingDays := 42 - |cells|;
    for day := 1 to remainingDays + 1
      invariant |cells| == start + m.daysInMonth + day - 1
      invariant forall k :: 0 <= k < start ==> cells[k] == Cell(base + k, false, [])
      invariant forall k :: start <= k < start + m.daysInMonth ==> cells[k] == Cell(base + k, true, LogsOn(groups, base + k))
      invariant forall k :: start + m.daysInMonth <= k < |cells| ==> cells[k] == Cell(base + k, false, [])
    {
      cells := cells + [Cell(m.firstDay + m.daysInMonth + day - 1, false, [])];
    }
  }

  // ---------------------------------------------------------------------
  // The page

  datatype Summary = Summary(totalRecords: nat, activeDays: nat, involvedHabits: nat, dailyAverage: real)

  /** Some filtered log belongs to the habit. */
  function Involved(filtered: seq<HabitLog>): Habit -> bool {
    (h: Habit) => exists i :: 0 <= i < |filtered| && filtered[i].habitId == h.id
  }

  /** The four figures: records, active days, habits involved, and records per active day (0 without any). */
  function SummaryOf(filtered: seq<HabitLog>, keys: seq<int>, habits: seq<Habit>): (r: Summary)
    ensures r.totalRecords == |filtered| && r.activeDays == |keys|
    ensures r.involvedHabits <= |habits|
    ensures keys == [] ==> r.dailyAverage == 0.0
    ensures keys != [] ==> r.dailyAverage * |keys| as real == |filtered| as real
  {
    var avg := if |keys| > 0 then |filtered| as real / |keys| as real else 0.0;
    Summary(|filtered|, |keys|, Count(habits, Involved(filtered)), avg)
  }

  datatype HistoryView = HistoryView(filtered: seq<HabitLog>, cells: seq<Cell>, summary: Summary)

  /** The grouping's lookup, `groups[d] || []`, is the day's filter for every day. */
  lemma GroupsAreFilters(filtered: seq<HabitLog>, keys: seq<int>, groups: map<int, seq<HabitLog>>)
    requires forall d :: d in groups <==> d in keys
    requires forall d :: d in keys <==> exists i :: 0 <= i < |filtered| && DayOf(filtered[i].createdAt) == d
    requires forall d :: d in groups ==> groups[d] == Filter(filtered, OnDay(d))
    ensures forall d :: LogsOn(groups, d) == Filter(filtered, OnDay(d))
  {
    forall d ensures LogsOn(groups, d) == Filter(filtered, OnDay(d)) {
      if d !in groups {
        NoneOnDay(filtered, d);
      }
    }
  }

  /** There are no more groups than grouped logs. */
  lemma CountsOfGroups(filtered: seq<HabitLog>, keys: seq<int>, groups: map<int, seq<HabitLog>>)
    requires forall i, j :: 0 <= i < j < |keys| ==> keys[i] != keys[j]
    requires forall d :: d in keys <==> exists i :: 0 <= i < |filtered| && DayOf(filtered[i].createdAt) == d
    ensures GroupSizes(filtered, keys) == |filtered|
    ensures |keys| <= |filtered|
  {
    forall i | 0 <= i < |keys| ensures Filter(filtered, OnDay(keys[i])) != [] {
      assert keys[i] in keys;
      var j :| 0 <= j < |filtered| && DayOf(filtered[j].createdAt) == keys[i];
      assert filtered[j] in Filter(filtered, OnDay(keys[i]));
    }
    forall i | 0 <= i < |filtered| ensures DayOf(filtered[i].createdAt) in keys {
    }
    GroupSizesSum(filtered, keys);
    GroupsAtMostLogs(filtered, keys);
  }

  /** With no more groups than logs, an active day averages at least one record. */
  lemma AverageAtLeastOne(filtered: seq<HabitLog>, keys: seq<int>, habits: seq<Habit>)
    requires |keys| <= |filtered|
    ensures |keys| > 0 ==> SummaryOf(filtered, keys, habits).dailyAverage >= 1.0
  {
    if |keys| > 0 {
      var avg := SummaryOf(filtered, keys, habits).dailyAverage;
      assert avg * |keys| as real >= |keys| as real;
    }
  }

  /**
   * `cells` lay out the month `m` showing `filtered`: 42 consecutive days
   * from the Sunday on or before the first, the month's own days flagged,
   * each of them holding the logs of its day in order, the other cells empty.
   */
  ghost predicate CalendarShows(m: Month, filtered: seq<HabitLog>, cells: seq<Cell>) {
    |cells| == 42
    && (forall k :: 0 <= k < 42 ==> cells[k].day == m.firstDay - m.startingDayOfWeek + k)
    && (forall k :: 0 <= k < 42 ==>
          (cells[k].isCurrentMonth <==> m.startingDayOfWeek <= k < m.startingDayOfWeek + m.daysInMonth))
    && (forall k :: 0 <= k < 42 && cells[k].isCurrentMonth ==> cells[k].logs == Filter(filtered, OnDay(cells[k].day)))
    && (forall k :: 0 <= k < 42 && !cells[k].isCurrentMonth ==> cells[k].logs == [])
  }

  /** A calendar filled from a grouping whose lookups are the day filters shows the grouped logs. */
  lemma CalendarShowsGroups(m: Month, filtered: seq<HabitLog>, groups: map<int, seq<HabitLog>>, cells: seq<Cell>)
    requires |cells| == 42
    requires forall k :: 0 <= k < 42 ==> cells[k].day == m.firstDay - m.startingDayOfWeek + k
    requires forall k :: 0 <= k < 42 ==>
      (cells[k].isCurrentMonth <==> m.startingDayOfWeek <= k < m.startingDayOfWeek + m.daysInMonth)
    requires forall k :: 0 <= k < 42 && cells[k].isCurrentMonth ==> cells[k].logs == LogsOn(groups, cells[k].day)
    requires forall k :: 0 <= k < 42 && !cells[k].isCurrentMonth ==> cells[k].logs == []
    requires forall d :: LogsOn(groups, d) == Filter(filtered, OnDay(d))
    ensures CalendarShows(m, filtered, cells)
  {
  }

  /** The days on which some of the logs were created. */
  function LogDaySet(logs: seq<HabitLog>): set<int> {
    set l | l in logs :: DayOf(l.createdAt)
  }

  /** A list without repeats has as many entries as its set of members. */
  lemma {:induction false} DistinctCardinality(keys: seq<int>)
    requires forall i, j :: 0 <= i < j < |keys| ==> keys[i] != keys[j]
    ensures |set d | d in keys| == |keys|
  {
    if keys != [] {
      var rest := keys[1..];
      forall i, j | 0 <= i < j < |rest| ensures rest[i] != rest[j] {
        assert rest[i] == keys[i + 1] && rest[j] == keys[j + 1];
      }
      DistinctCardinality(rest);
      assert keys[0] !in rest by {
        forall j | 0 <= j < |rest| ensures rest[j] != keys[0] {
          assert rest[j] == keys[j + 1];
        }
      }
      assert (set d | d in keys) == (set d | d in rest) + {keys[0]} by {
        assert keys == [keys[0]] + rest;
      }
    }
  }

  /** Distinct keys that are exactly the days of the logs count the days with a log. */
  lemma KeysCountActiveDays(filtered: seq<HabitLog>, keys: seq<int>)
    requires forall i, j :: 0 <= i < j < |keys| ==> keys[i] != keys[j]
    requires forall d :: d in keys <==> exists i :: 0 <= i < |filtered| && DayOf(filtered[i].createdAt) == d
    ensures |keys| == |LogDaySet(filtered)|
  {
    DistinctCardinality(keys);
    assert (set d | d in keys) == LogDaySet(filtered) by {
      forall d ensures d in keys <==> d in LogDaySet(filtered) {
        if d in LogDaySet(filtered) {
          var l :| l in filtered && DayOf(l.createdAt) == d;
          var i :| 0 <= i < |filtered| && filtered[i] == l;
        }
      }
    }
  }

  /**
   * `summary` describes `filtered`: its records, the number of distinct days
   * with a record (never more than the records), the habits with a record,
   * and the records per active day, which is 0 without one and otherwise at
   * least 1.
   */
  ghost predicate SummaryShows(summary: Summary, filtered: seq<HabitLog>, habits: seq<Habit>) {
    summary.totalRecords == |filtered|
    && summary.activeDays == |LogDaySet(filtered)| <= summary.totalRecords
    && summary.involvedHabits == Count(habits, Involved(filtered))
    && (summary.activeDays == 0 ==> summary.dailyAverage == 0.0)
    && (summary.activeDays > 0 ==>
          summary.dailyAverage * summary.activeDays as real == summary.totalRecords as real
          && summary.dailyAverage >= 1.0)
  }

  /** The summary of the grouping's keys describes the grouped logs. */
  lemma SummaryOfGroups(filtered: seq<HabitLog>, keys: seq<int>, habits: seq<Habit>)
    requires forall i, j :: 0 <= i < j < |keys| ==> keys[i] != keys[j]
    requires forall d :: d in keys <==> exists i :: 0 <= i < |filtered| && DayOf(filtered[i].createdAt) == d
    requires |keys| <= |filtered|
    ensures SummaryShows(SummaryOf(filtered, keys, habits), filtered, habits)
  {
    KeysCountActiveDays(filtered, keys);
    AverageAtLeastOne(filtered, keys, habits);
  }

  /** The whole page: the filtered logs, their calendar and the summary. */
  method History(logs: seq<HabitLog>, habits: seq<Habit>, m: Month, selectedHabit: string, searchTerm: string)
    returns (view: HistoryView)
    requires ValidMonth(m)
    ensures view.filtered == FilteredLogs(logs, habits, m, selectedHabit, searchTerm)
    ensures CalendarShows(m, view.filtered, view.cells)
    ensures SummaryShows(view.summary, view.filtered, habits)
  {
    var filtered := FilteredLogs(logs, habits, m, selectedHabit, searchTerm);
    var keys, groups := GroupLogs(filtered);
    var cells := Calendar(m, groups);
    GroupsAreFilters(filtered, keys, groups);
    CalendarShowsGroups(m, filtered, groups, cells);
    CountsOfGroups(filtered, keys, groups);
    var summary := SummaryOf(filtered, keys, habits);
    SummaryOfGroups(filtered, keys, habits);
    view := HistoryView(filtered, cells, summary);
  }

  /** A log of the selected month lands in the calendar cell of its day, and in no other cell. */
  lemma LogInItsCell(m: Month, filtered: seq<HabitLog>, cells: seq<Cell>, l: HabitLog)
    requires ValidMonth(m) && CalendarShows(m, filtered, cells)
    requires l in filtered && InMonth(m, l.createdAt)
    ensures forall k :: 0 <= k < 42 ==> (l in cells[k].logs <==> k == DayOf(l.createdAt) - m.firstDay + m.startingDayOfWeek)
  {
    var i :| 0 <= i < |filtered| && filtered[i] == l;
    forall k | 0 <= k < 42
      ensures l in cells[k].logs <==> k == DayOf(l.createdAt) - m.firstDay + m.startingDayOfWeek
    {
      if k == DayOf(l.createdAt) - m.firstDay + m.startingDayOfWeek {
        assert filtered[i] in Filter(filtered, OnDay(cells[k].day));
      }
      if l in cells[k].logs {
        assert cells[k].isCurrentMonth;
        assert OnDay(cells[k].day)(l);
      }
    }
  }
}

=== FILE: notification_settings_route.dfy ===
/**
 * The notification-settings API route (app/api/user/notifications/route.ts).
 * GET returns the caller's settings row, or the defaults when there is none;
 * PUT updates the caller's row, or inserts one when there is none.
 *
 * The `user_notification_settings` table is the object `SettingsTable`, a
 * map from user id to row (the user id is the row's key, so `.single()`
 * finds the row or reports no rows). Database errors other than "no rows"
 * are parameters.
 */
module NotificationSettingsRoute {
  import opened Wrappers
  import opened Entities
  import opened Requests

  const DEFAULT_REMINDER_TIME: string := "09:00"

  /** The settings of a user without a row: everything on, reminders at 09:00. */
  function Defaults(userId: Id): (s: NotificationSettings)
    ensures s.userId == userId && s.dailyReminder && s.weeklySummary && s.achievementAlerts
    ensures s.reminderTime == DEFAULT_REMINDER_TIME
  {
    NotificationSettings(userId, true, true, true, DEFAULT_REMINDER_TIME)
  }

  /** GET: 401 without a valid token, 400 on a database error other than no rows, else the row or the defaults. */
  function Get(header: Option<string>, sessions: map<string, User>, rows: map<Id, NotificationSettings>,
               dbError: Option<string>): (reply: Reply<NotificationSettings>)
    ensures !Authenticate(header, sessions).Authed? ==> reply.Fail? && reply.status == 401
    ensures Authenticate(header, sessions).Authed? && dbError.Some? ==> reply == Fail(400, dbError.value)
    ensures Authenticate(header, sessions).Authed? && dbError.None? ==>
      var userId := Authenticate(header, sessions).user.id;
      reply.Ok? && reply.data == (if userId in rows then rows[userId] else Defaults(userId))
  {
    var auth := Authenticate(header, sessions);
    if !auth.Authed? then AuthFailure(auth)
    else if dbError.Some? then Fail(400, dbError.value)
    else if auth.user.id in rows then Ok(200, rows[auth.user.id])
    else Ok(200, Defaults(auth.user.id))
  }

  /** The body of a PUT: each field may be absent, and an absent field is not written. */
  datatype SettingsUpdate = SettingsUpdate(
    dailyReminder: Option<bool>,
    weeklySummary: Option<bool>,
    achievementAlerts: Option<bool>,
    reminderTime: Option<string>)

  /** The update of an existing row: the fields present replace the row's, the others are kept. */
  function Apply(s: NotificationSettings, u: SettingsUpdate): (r: NotificationSettings)
    ensures r.userId == s.userId
    ensures u == SettingsUpdate(None, None, None, None) ==> r == s
  {
    NotificationSettings(s.userId, u.dailyReminder.GetOr(s.dailyReminder), u.weeklySummary.GetOr(s.weeklySummary),
      u.achievementAlerts.GetOr(s.achievementAlerts), u.reminderTime.GetOr(s.reminderTime))
  }

  /** The inserted row: the caller's id and the supplied values; an absent field takes the column default. */
  function Inserted(userId: Id, u: SettingsUpdate): (r: NotificationSettings)
    ensures r == Apply(Defaults(userId), u)
  {
    NotificationSettings(userId, u.dailyReminder.GetOr(true), u.weeklySummary.GetOr(true),
      u.achievementAlerts.GetOr(true), u.reminderTime.GetOr(DEFAULT_REMINDER_TIME))
  }

  /** Applying the same update twice is applying it once. */
  lemma ApplyIdempotent(s: NotificationSettings, u: SettingsUpdate)
    ensures Apply(Apply(s, u), u) == Apply(s, u)
  {
  }

  /** The `user_notification_settings` table, keyed by user id. */
  class SettingsTable {
    var rows: map<Id, NotificationSettings>

    constructor(rows0: map<Id, NotificationSettings>)
      ensures rows == rows0
    {
      rows := rows0;
    }
  }

  /**
   * PUT: 401 without a valid token; update the caller's row when there is
   * one; insert it when the update finds no row; any other update error, or
   * an insert error, gives 400 and writes nothing. Only the caller's row is
   * written.
   */
  method Put(table: SettingsTable, header: Option<string>, sessions: map<string, User>, u: SettingsUpdate,
             updateError: Option<string>, insertError: Option<string>)
    returns (reply: Reply<NotificationSettings>)
    modifies table
    ensures !Authenticate(header, sessions).Authed? ==> reply.Fail? && reply.status == 401
    ensures reply.Fail? ==> table.rows == old(table.rows)
    ensures Authenticate(header, sessions).Authed? ==>
      var userId := Authenticate(header, sessions).user.id;
      if updateError.Some? then reply == Fail(400, updateError.value)
      else if userId in old(table.rows) then
        reply == Ok(200, Apply(old(table.rows)[userId], u)) && table.rows == old(table.rows)[userId := reply.data]
      else if insertError.Some? then reply == Fail(400, insertError.value)
      else reply == Ok(200, Inserted(userId, u)) && table.rows == old(table.rows)[userId := reply.data]
  {
    var auth := Authenticate(header, sessions);
    if !auth.Authed? {
      return AuthFailure(auth);
    }
    var userId := auth.user.id;
    if updateError.Some? {
      return Fail(400, updateError.value);
    }
    if userId in table.rows {
      var updated := Apply(table.rows[userId], u);
      table.rows := table.rows[userId := updated];
      return Ok(200, updated);
    }
    if insertError.Some? {
      return Fail(400, insertError.value);
    }
    var created := Inserted(userId, u);
    table.rows := table.rows[userId := created];
    reply := Ok(200, created);
  }

  /** After a PUT writes `s` for the caller, GET returns `s`, and every other user's GET is unchanged. */
  lemma PutThenGet(header: Option<string>, sessions: map<string, User>, rows: map<Id, NotificationSettings>,
                   s: NotificationSettings, otherHeader: Option<string>)
    requires Authenticate(header, sessions).Authed?
    requires Authenticate(otherHeader, sessions).Authed?
    requires Authenticate(otherHeader, sessions).user.id != Authenticate(header, sessions).user.id
    ensures Get(header, sessions, rows[Authenticate(header, sessions).user.id := s], None) == Ok(200, s)
    ensures Get(otherHeader, sessions, rows[Authenticate(header, sessions).user.id := s], None)
      == Get(otherHeader, sessions, rows, None)
  {
  }

  /** A first PUT with an empty body stores exactly the defaults GET reported before it. */
  lemma EmptyPutStoresDefaults(userId: Id)
    ensures Inserted(userId, SettingsUpdate(None, None, None, None)) == Defaults(userId)
  {
  }
}

=== FILE: notification_trigger.dfy ===
/**
 * The notification trigger (app/api/notifications/trigger/route.ts): decides
 * from a user's settings row whether a notification of a type may be sent,
 * selects the eligible users of a type, fans a notification out to all of
 * them counting successes and failures, and forwards each one to the email
 * route of its type.
 *
 * The user directory (`auth.admin.getUserById`) and the email routes
 * (`fetch`) are parameters: `lookup` answers for a user id, `respond` for an
 * endpoint and a body.
 */
module NotificationTrigger {
  import opened Wrappers
  import opened Entities
  import Strings
  import Days

  const DAILY_REMINDER: string := "daily_reminder"
  const WEEKLY_SUMMARY: string := "weekly_summary"
  const ACHIEVEMENT_ALERT: string := "achievement_alert"
  const WELCOME: string := "welcome"

  predicate KnownType(kind: string) {
    kind == DAILY_REMINDER || kind == WEEKLY_SUMMARY || kind == ACHIEVEMENT_ALERT || kind == WELCOME
  }

  /** A user's preference for a type: no settings row allows everything; an unknown type is never sent. */
  predicate ShouldSend(kind: string, settings: Option<NotificationSettings>) {
    if settings.None? then true
    else if kind == DAILY_REMINDER then settings.value.dailyReminder
    else if kind == WEEKLY_SUMMARY then settings.value.weeklySummary
    else if kind == ACHIEVEMENT_ALERT then settings.value.achievementAlerts
    else kind == WELCOME
  }

  /** The flag a known type filters on (welcome filters on nothing). */
  predicate Flag(kind: string, s: NotificationSettings) {
    if kind == DAILY_REMINDER then s.dailyReminder
    else if kind == WEEKLY_SUMMARY then s.weeklySummary
    else if kind == ACHIEVEMENT_ALERT then s.achievementAlerts
    else true
  }

  /** The settings rows eligible for a type; an unknown type throws, here `None`. */
  function EligibleUsers(kind: string, table: seq<NotificationSettings>): (r: Option<seq<NotificationSettings>>)
    ensures r.Some? <==> KnownType(kind)
    ensures r.Some? ==> forall i :: 0 <= i < |r.value| ==> r.value[i] in table && Flag(kind, r.value[i])
    ensures r.Some? ==> forall i :: 0 <= i < |table| && Flag(kind, table[i]) ==> table[i] in r.value
    ensures kind == WELCOME ==> r == Some(table)
  {
    if !KnownType(kind) then None
    else
      var p := (s: NotificationSettings) => Flag(kind, s);
      var users := Days.Filter(table, p);
      assert kind == WELCOME ==> users == table by {
        if kind == WELCOME {
          Days.FilterKeepsAll(table, p);
        }
      }
      Some(users)
  }

  /** The query filter and the per-user preference agree: for a known type, a row is selected iff its user would be sent to. */
  lemma EligibleIffShouldSend(kind: string, table: seq<NotificationSettings>, s: NotificationSettings)
    requires KnownType(kind) && s in table
    ensures s in EligibleUsers(kind, table).value <==> ShouldSend(kind, Some(s))
  {
    var users := EligibleUsers(kind, table).value;
    if s in users {
      var i :| 0 <= i < |users| && users[i] == s;
    }
  }

  /** No settings row, or the welcome type, always allows sending; an unknown type never does. */
  lemma ShouldSendDefaults(kind: string, settings: Option<NotificationSettings>)
    ensures settings.None? ==> ShouldSend(kind, settings)
    ensures kind == WELCOME ==> ShouldSend(kind, settings)
    ensures settings.Some? && !KnownType(kind) ==> !ShouldSend(kind, settings)
  {
  }

  const DEFAULT_APP_URL: string := "http://localhost:3000"

  /** The email route of a type under `NEXT_PUBLIC_APP_URL || "http://localhost:3000"`; an unknown type has none. */
  function Endpoint(kind: string, appUrl: string): (r: Option<string>)
    ensures r.Some? <==> KnownType(kind)
  {
    var base := if appUrl == "" then DEFAULT_APP_URL else appUrl;
    if kind == WELCOME then Some(base + "/api/emails/welcome")
    else if kind == WEEKLY_SUMMARY then Some(base + "/api/emails/weekly-summary")
    else if kind == DAILY_REMINDER then Some(base + "/api/emails/daily-reminder")
    else if kind == ACHIEVEMENT_ALERT then Some(base + "/api/emails/achievement-alert")
    else None
  }

  /** Different types go to different routes. */
  lemma EndpointsDistinct(k1: string, k2: string, appUrl: string)
    requires KnownType(k1) && KnownType(k2) && k1 != k2
    ensures Endpoint(k1, appUrl) != Endpoint(k2, appUrl)
  {
    var base := if appUrl == "" then DEFAULT_APP_URL else appUrl;
    var e1 := Endpoint(k1, appUrl).value;
    var e2 := Endpoint(k2, appUrl).value;
    assert e1[..|base|] == base && e2[..|base|] == base;
    assert e1[|base|..] != e2[|base|..];
  }

  const USER_ID: string := "user_id"

  /** `{ ...data, user_id: user.id }`: the user's id replaces any `user_id`; every other field is kept. */
  function ForwardBody(data: map<string, string>, userId: Id): (r: map<string, string>)
    ensures USER_ID in r && r[USER_ID] == userId
    ensures r.Keys == data.Keys + {USER_ID}
    ensures forall k :: k in data && k != USER_ID ==> r[k] == data[k]
  {
    data[USER_ID := userId]
  }

  /** What an email route answers: a JSON reply with its status, or a thrown error. */
  datatype ApiResponse = Response(ok: bool, status: int, error: string, details: string) | Thrown(message: string)

  /** The answer of `getUserById`: a user, no user, or a thrown error. */
  datatype Lookup = Found(user: User) | NotFound | LookupError(message: string)

  /** The environment of a trigger: the type, the request data, the app URL and the two services. */
  datatype Env = Env(
    kind: string,
    data: map<string, string>,
    appUrl: string,
    lookup: Id -> Lookup,
    respond: (string, map<string, string>) -> ApiResponse)

  datatype Delivery = Delivered(endpoint: string, body: map<string, string>) | Undelivered(error: string)

  /** `result.error || result.details || "Failed to send notification (<status>)"`. */
  function FailureMessage(status: int, error: string, details: string): (r: string)
    ensures r != ""
  {
    if error != "" then error
    else if details != "" then details
    else "Failed to send notification (" + Strings.IntToString(status) + ")"
  }

  /** `sendNotificationByType`: post the forwarded body to the type's route; anything but an ok reply is a failure. */
  function SendByType(user: User, env: Env): (r: Delivery)
    ensures r.Delivered? <==> (Endpoint(env.kind, env.appUrl).Some?
      && env.respond(Endpoint(env.kind, env.appUrl).value, ForwardBody(env.data, user.id)).Response?
      && env.respond(Endpoint(env.kind, env.appUrl).value, ForwardBody(env.data, user.id)).ok)
    ensures r.Delivered? ==> r.endpoint == Endpoint(env.kind, env.appUrl).value && r.body == ForwardBody(env.data, user.id)
    ensures !KnownType(env.kind) ==> r == Undelivered("Unknown notification type: " + env.kind)
  {
    match Endpoint(env.kind, env.appUrl)
    case None => Undelivered("Unknown notification type: " + env.kind)
    case Some(endpoint) =>
      var body := ForwardBody(env.data, user.id);
      match env.respond(endpoint, body)
      case Thrown(m) => Undelivered(m)
      case Response(ok, status, error, details) =>
        if ok then Delivered(endpoint, body) else Undelivered(FailureMessage(status, error, details))
  }

  // ---------------------------------------------------------------------
  // Fan-out to all eligible users

  datatype Tally = Tally(sent: nat, failed: nat, errors: seq<(Id, string)>)

  /** What one eligible user adds to the tally. */
  datatype Outcome = Success | Failure(userId: Id, error: string) | Uncounted

  function OutcomeOf(s: NotificationSettings, env: Env): Outcome {
    match env.lookup(s.userId)
    case NotFound => Uncounted
    case LookupError(m) => Failure(s.userId, m)
    case Found(user) =>
      match SendByType(user, env)
      case Delivered(_, _) => Success
      case Undelivered(e) => Failure(user.id, e)
  }

  function Add(t: Tally, o: Outcome): Tally {
    match o
    case Success => Tally(t.sent + 1, t.failed, t.errors)
    case Failure(id, e) => Tally(t.sent, t.failed + 1, t.errors + [(id, e)])
    case Uncounted => t
  }

  /** The outcome of every user of `users`, in order. */
  function Outcomes(users: seq<NotificationSettings>, env: Env): (r: seq<Outcome>)
    ensures |r| == |users|
    ensures forall i :: 0 <= i < |users| ==> r[i] == OutcomeOf(users[i], env)
  {
    seq(|users|, i requires 0 <= i < |users| => OutcomeOf(users[i], env))
  }

  /** The counters after every outcome of `os` in turn. */
  function TallyOf(os: seq<Outcome>): (r: Tally)
    ensures r.sent + r.failed <= |os|
    ensures |r.errors| == r.failed
  {
    if os == [] then Tally(0, 0, []) else Add(TallyOf(os[..|os| - 1]), os[|os| - 1])
  }

  /** The counters after every user of `users` in turn: a failure never stops the later users. */
  function FanOut(users: seq<NotificationSettings>, env: Env): (r: Tally)
    ensures r.sent + r.failed <= |users|
    ensures |r.errors| == r.failed
  {
    TallyOf(Outcomes(users, env))
  }

  function Combine(a: Tally, b: Tally): Tally {
    Tally(a.sent + b.sent, a.failed + b.failed, a.errors + b.errors)
  }

  /** Counting one more outcome after a combined tally is counting it after the second part. */
  lemma AddCombine(x: Tally, y: Tally, o: Outcome)
    ensures Add(Combine(x, y), o) == Combine(x, Add(y, o))
  {
    if o.Failure? {
      assert (x.errors + y.errors) + [(o.userId, o.error)] == x.errors + (y.errors + [(o.userId, o.error)]);
    }
  }

  /** Counting two runs of outcomes one after the other adds their counters and joins their errors. */
  lemma {:induction false} TallyOfAppend(a: seq<Outcome>, b: seq<Outcome>)
    ensures TallyOf(a + b) == Combine(TallyOf(a), TallyOf(b))
  {
    if b == [] {
      assert a + b == a;
      assert TallyOf(a).errors + [] == TallyOf(a).errors;
    } else {
      var b', o := b[..|b| - 1], b[|b| - 1];
      assert (a + b)[..|a + b| - 1] == a + b';
      assert (a + b)[|a + b| - 1] == o;
      assert TallyOf(a + b) == Add(TallyOf(a + b'), o);
      assert TallyOf(b) == Add(TallyOf(b'), o);
      TallyOfAppend(a, b');
      AddCombine(TallyOf(a), TallyOf(b'), o);
    }
  }

  /** The users after a batch are counted exactly as if they were alone: fan-out never stops early. */
  lemma FanOutAppend(a: seq<NotificationSettings>, b: seq<NotificationSettings>, env: Env)
    ensures FanOut(a + b, env) == Combine(FanOut(a, env), FanOut(b, env))
  {
    assert Outcomes(a + b, env) == Outcomes(a, env) + Outcomes(b, env);
    TallyOfAppend(Outcomes(a, env), Outcomes(b, env));
  }

  /** A user the directory does not know is counted as neither sent nor failed. */
  lemma MissingUserUncounted(users: seq<NotificationSettings>, s: NotificationSettings, env: Env)
    requires env.lookup(s.userId).NotFound?
    ensures FanOut(users + [s], env) == FanOut(users, env)
  {
    var os := Outcomes(users + [s], env);
    assert os[..|users|] == Outcomes(users, env);
  }

  /** Each user counts once, as a success or a failure with its message, unless missing. */
  lemma FanOutOne(s: NotificationSettings, env: Env)
    ensures FanOut([s], env).sent == (if OutcomeOf(s, env).Success? then 1 else 0)
    ensures FanOut([s], env).errors == (if OutcomeOf(s, env).Failure? then [(OutcomeOf(s, env).userId, OutcomeOf(s, env).error)] else [])
  {
    assert Outcomes([s], env)[..0] == [];
  }

  /** The `try` block for one eligible user: look them up, send, and count the result. */
  method TryUser(settings: NotificationSettings, env: Env, successCount: nat, failureCount: nat, errors: seq<(Id, string)>)
    returns (successCount': nat, failureCount': nat, errors': seq<(Id, string)>)
    ensures Tally(successCount', failureCount', errors') == Add(Tally(successCount, failureCount, errors), OutcomeOf(settings, env))
  {
    successCount', failureCount', errors' := successCount, failureCount, errors;
    match env.lookup(settings.userId)
    case NotFound =>
    case LookupError(m) =>
      failureCount' := failureCount + 1;
      errors' := errors + [(settings.userId, m)];
    case Found(user) =>
      var result := SendByType(user, env);
      if result.Delivered? {
        successCount' := successCount + 1;
      } else {
        failureCount' := failureCount + 1;
        errors' := errors + [(user.id, result.error)];
      }
  }

  datatype AllResult = NoEligible | Counted(tally: Tally) | AllFailed(error: string)

  /** `sendNotificationToAllUsers`: no eligible user sends nothing; otherwise every eligible user is tried. */
  method SendToAll(env: Env, table: seq<NotificationSettings>) returns (r: AllResult)
    ensures !KnownType(env.kind) ==> r == AllFailed("Unknown notification type: " + env.kind)
    ensures KnownType(env.kind) && EligibleUsers(env.kind, table).value == [] ==> r == NoEligible
    ensures KnownType(env.kind) && EligibleUsers(env.kind, table).value != [] ==>
      r == Counted(FanOut(EligibleUsers(env.kind, table).value, env))
    ensures r.Counted? ==> r.tally.sent + r.tally.failed <= |table| && |r.tally.errors| == r.tally.failed
  {
    var eligible := EligibleUsers(env.kind, table);
    if eligible.None? {
      return AllFailed("Unknown notification type: " + env.kind);
    }
    var users := eligible.value;
    if |users| == 0 {
      return NoEligible;
    }
    var successCount: nat := 0;
    var failureCount: nat := 0;
    var errors: seq<(Id, string)> := [];
    ghost var os := Outcomes(users, env);
    for i := 0 to |users|
      invariant Tally(successCount, failureCount, errors) == TallyOf(os[..i])
    {
      assert os[..i + 1][..i] == os[..i];
      assert os[i] == OutcomeOf(users[i], env);
      successCount, failureCount, errors := TryUser(users[i], env, successCount, failureCount, errors);
    }
    assert os[..|users|] == os;
    r := Counted(Tally(successCount, failureCount, errors));
  }

  // ---------------------------------------------------------------------
  // One user, and the request

  datatype UserResult = UserMissing | UserFailed(error: string) | SkippedByPreference | ByType(delivery: Delivery)

  /** `sendNotificationToUser`: the user must exist; their preference may skip; otherwise send by type. */
  function SendToUser(userId: Id, env: Env, table: seq<NotificationSettings>): (r: UserResult)
    ensures env.lookup(userId).NotFound? ==> r == UserMissing
    ensures env.lookup(userId).Found? ==>
      var settings := Single(Days.Filter(table, (s: NotificationSettings) => s.userId == userId));
      (r == SkippedByPreference <==> !ShouldSend(env.kind, settings))
      && (r.ByType? <==> ShouldSend(env.kind, settings))
  {
    var settings := Single(Days.Filter(table, (s: NotificationSettings) => s.userId == userId));
    match env.lookup(userId)
    case NotFound => UserMissing
    case LookupError(m) => UserFailed(m)
    case Found(user) =>
      if !ShouldSend(env.kind, settings) then SkippedByPreference
      else ByType(SendByType(user, env))
  }

  datatype TriggerReply = BadRequest(status: int, error: string) | ToUser(userResult: UserResult) | ToAll(allResult: AllResult)

  /** POST: a type is required; a `user_id` targets one user, otherwise every eligible user. */
  method Trigger(kind: Option<string>, userId: Option<Id>, data: map<string, string>, appUrl: string,
                 lookup: Id -> Lookup, respond: (string, map<string, string>) -> ApiResponse,
                 table: seq<NotificationSettings>)
    returns (reply: TriggerReply)
    ensures kind.None? || kind.value == "" <==> reply == BadRequest(400, "Notification type is required")
    ensures kind.Some? && kind.value != "" && userId.Some? && userId.value != "" ==>
      reply == ToUser(SendToUser(userId.value, Env(kind.value, data, appUrl, lookup, respond), table))
    ensures kind.Some? && kind.value != "" && (userId.None? || userId.value == "") ==>
      var env := Env(kind.value, data, appUrl, lookup, respond);
      (!KnownType(kind.value) ==> reply == ToAll(AllFailed("Unknown notification type: " + kind.value)))
      && (KnownType(kind.value) && EligibleUsers(kind.value, table).value == [] ==> reply == ToAll(NoEligible))
      && (KnownType(kind.value) && EligibleUsers(kind.value, table).value != [] ==>
            reply == ToAll(Counted(FanOut(EligibleUsers(kind.value, table).value, env))))
  {
    if kind.None? || kind.value == "" {
      return BadRequest(400, "Notification type is required");
    }
    var env := Env(kind.value, data, appUrl, lookup, respond);
    if userId.Some? && userId.value != "" {
      return ToUser(SendToUser(userId.value, env, table));
    }
    var all := SendToAll(env, table);
    reply := ToAll(all);
  }
}

=== FILE: requests.dfy ===
/**
 * What the API routes share: the reply they send and the bearer-token
 * authentication (`authHeader?.replace('Bearer ', '')` followed by
 * `auth.getUser(token)`). The authentication service is a map from tokens to
 * users.
 */
module Requests {
  import opened Wrappers
  import opened Strings
  import opened Entities

  /** A JSON reply: `success: true` with its data, or `success: false` with an error message. */
  datatype Reply<T> = Ok(status: int, data: T) | Fail(status: int, error: string)

  const BEARER: string := "Bearer "

  /** The token of an `authorization` header: absent, or empty after removing `Bearer `, is no token. */
  function TokenOf(header: Option<string>): (r: Option<string>)
    ensures header.None? ==> r.None?
    ensures r.Some? ==> r.value == ReplaceFirst(header.value, BEARER, "") && r.value != ""
    ensures header.Some? && ReplaceFirst(header.value, BEARER, "") != "" ==> r.Some?
  {
    match header
    case None => None
    case Some(h) =>
      var token := ReplaceFirst(h, BEARER, "");
      if token == "" then None else Some(token)
  }

  /** `Bearer <t>` yields `t`, and `Bearer ` alone yields no token. */
  lemma TokenOfBearer(t: string)
    ensures TokenOf(Some(BEARER + t)) == (if t == "" then None else Some(t))
  {
    var h := BEARER + t;
    assert StartsWith(h, BEARER) by {
      assert h[..|BEARER|] == BEARER;
    }
    assert IndexOf(h, BEARER) == Some(0);
    assert h[..0] + "" + h[|BEARER|..] == t;
  }

  datatype Auth = Authed(user: User) | NoToken | InvalidToken

  /** No token gives 401 `No token provided`; a token the service does not know gives 401 `Invalid token`. */
  function Authenticate(header: Option<string>, sessions: map<string, User>): (r: Auth)
    ensures r.NoToken? <==> TokenOf(header).None?
    ensures r.Authed? <==> TokenOf(header).Some? && TokenOf(header).value in sessions
    ensures r.Authed? ==> r.user == sessions[TokenOf(header).value]
  {
    match TokenOf(header)
    case None => NoToken
    case Some(token) => if token in sessions then Authed(sessions[token]) else InvalidToken
  }

  /** The 401 reply of a failed authentication. */
  function AuthFailure<T>(a: Auth): (r: Reply<T>)
    requires !a.Authed?
    ensures r.Fail? && r.status == 401
  {
    if a.NoToken? then Fail(401, "No token provided") else Fail(401, "Invalid token")
  }
}

=== FILE: settings_page.dfy ===
/**
 * The guards of the settings page's save handlers (app/settings/page.tsx):
 * the reminder-time format `^([01]?[0-9]|2[0-3]):[0-5][0-9]$`, the non-empty
 * display name, the default notification state and how loading the saved
 * settings changes it.
 */
module SettingsPage {
  import opened Wrappers
  import opened Strings
  import opened Entities

  // ---------------------------------------------------------------------
  // Reminder time

  /** The hour group `[01]?[0-9]|2[0-3]`. */
  predicate HourMatches(h: string) {
    (|h| == 1 && IsDigit(h[0]))
    || (|h| == 2 && (h[0] == '0' || h[0] == '1') && IsDigit(h[1]))
    || (|h| == 2 && h[0] == '2' && '0' <= h[1] <= '3')
  }

  /** The minute group `[0-5][0-9]`. */
  predicate MinuteMatches(m: string) {
    |m| == 2 && '0' <= m[0] <= '5' && IsDigit(m[1])
  }

  /** The whole pattern: an hour group, `:`, and the two minute digits that end the string. */
  predicate ReminderTimeMatches(s: string) {
    |s| >= 3 && s[|s| - 3] == ':' && HourMatches(s[..|s| - 3]) && MinuteMatches(s[|s| - 2..])
  }

  function DigitValue(c: char): int {
    c as int - '0' as int
  }

  /** The number written by one or two digits. */
  function Value(ds: string): int
    requires 1 <= |ds| <= 2
  {
    if |ds| == 1 then DigitValue(ds[0]) else 10 * DigitValue(ds[0]) + DigitValue(ds[1])
  }

  /** `H:MM` or `HH:MM` in digits, the hour at most 23 and the minute at most 59. */
  predicate ClockTime(s: string) {
    (|s| == 4 || |s| == 5) && s[|s| - 3] == ':'
    && (forall k :: 0 <= k < |s| && k != |s| - 3 ==> IsDigit(s[k]))
    && Value(s[..|s| - 3]) <= 23 && Value(s[|s| - 2..]) <= 59
  }

  /** The pattern accepts exactly the clock times. */
  lemma ReminderTimeIsClockTime(s: string)
    ensures ReminderTimeMatches(s) <==> ClockTime(s)
  {
    if |s| == 4 || |s| == 5 {
      var h := s[..|s| - 3];
      var m := s[|s| - 2..];
      assert forall k :: 0 <= k < |h| ==> h[k] == s[k];
      assert m[0] == s[|s| - 2] && m[1] == s[|s| - 1];
      assert (forall k :: 0 <= k < |s| && k != |s| - 3 ==> IsDigit(s[k]))
        <==> (forall k :: 0 <= k < |h| ==> IsDigit(h[k])) && IsDigit(m[0]) && IsDigit(m[1]);
    }
  }

  /** `9:05` and `23:59` pass; `24:00`, `7:5` and `09:60` fail. */
  lemma ReminderTimeExamples()
    ensures ReminderTimeMatches("9:05") && ReminderTimeMatches("23:59") && ReminderTimeMatches("09:00")
    ensures !ReminderTimeMatches("24:00") && !ReminderTimeMatches("7:5") && !ReminderTimeMatches("09:60")
  {
    assert "9:05"[..1] == "9" && "9:05"[2..] == "05";
    assert "23:59"[..2] == "23" && "23:59"[3..] == "59";
    assert "09:00"[..2] == "09" && "09:00"[3..] == "00";
    assert "24:00"[..2] == "24";
    assert "09:60"[3..] == "60";
  }

  // ---------------------------------------------------------------------
  // Notification state

  datatype Notifications = Notifications(
    dailyReminder: bool,
    weeklySummary: bool,
    achievementAlerts: bool,
    reminderTime: string)

  const DEFAULT_NOTIFICATIONS: Notifications := Notifications(true, true, true, "09:00")

  const BAD_TIME: string := "提醒时间格式不正确，请使用 HH:MM 格式"

  /** The guard of the notification save: an empty time skips the check; any other must match the pattern. */
  function CheckNotifications(n: Notifications): (error: Option<string>)
    ensures error.None? <==> n.reminderTime == "" || ClockTime(n.reminderTime)
    ensures error.Some? ==> error.value == BAD_TIME
  {
    ReminderTimeIsClockTime(n.reminderTime);
    if n.reminderTime != "" && !ReminderTimeMatches(n.reminderTime) then Some(BAD_TIME) else None
  }

  /** The default state passes the guard. */
  lemma DefaultsPass()
    ensures CheckNotifications(DEFAULT_NOTIFICATIONS).None?
  {
    ReminderTimeExamples();
  }

  /** The answer of loading the saved settings. */
  datatype LoadResponse = LoadResponse(ok: bool, status: int, success: bool, data: Option<NotificationSettings>)

  /** Loading: a successful reply with data replaces the state; anything else (401, 404, errors) keeps it. */
  function Load(n: Notifications, resp: LoadResponse): (r: Notifications)
    ensures !resp.ok ==> r == n
    ensures resp.ok && resp.success && resp.data.Some? ==>
      r == Notifications(resp.data.value.dailyReminder, resp.data.value.weeklySummary,
        resp.data.value.achievementAlerts, resp.data.value.reminderTime)
    ensures (resp.status == 401 || resp.status == 404) && !resp.ok ==> r == n
  {
    if resp.ok && resp.success && resp.data.Some? then
      Notifications(resp.data.value.dailyReminder, resp.data.value.weeklySummary,
        resp.data.value.achievementAlerts, resp.data.value.reminderTime)
    else n
  }

  // ---------------------------------------------------------------------
  // Display name

  const EMPTY_NAME: string := "显示名称不能为空"

  /** The guard of the profile save: a name that is empty after trimming is refused; otherwise the trimmed name is sent. */
  function CheckProfile(displayName: string): (r: ProfileSave)
    ensures r.Refused? <==> forall k :: 0 <= k < |displayName| ==> IsWhitespace(displayName[k])
    ensures r.Refused? ==> r.message == EMPTY_NAME
    ensures r.Send? ==> r.name == Trim(displayName) && r.name != ""
  {
    TrimEmptyIff(displayName);
    if Trim(displayName) == "" then Refused(EMPTY_NAME) else Send(Trim(displayName))
  }

  datatype ProfileSave = Refused(message: string) | Send(name: string)

  /** The name sent neither begins nor ends with white space. */
  lemma SentNameTrimmed(displayName: string)
    requires CheckProfile(displayName).Send?
    ensures var n := CheckProfile(displayName).name;
      !IsWhitespace(n[0]) && !IsWhitespace(n[|n| - 1])
  {
    TrimmedHasNoOuterWhitespace(displayName);
  }
}

=== FILE: src_analytics.dfy ===
/**
 * The analytics page of the Vite application (src/pages/Analytics.tsx):
 * per-habit totals, completion rates and current/best streaks, the habit type
 * distribution, the overall aggregates and the seven-week series.
 */
module SrcAnalytics {
  import opened Wrappers
  import opened Days
  import opened Entities
  import opened Streaks

  // ---------------------------------------------------------------------
  // Per-habit statistics

  /** One habit's figures as the page shows them (before any rounding). */
  datatype HabitStat = HabitStat(
    habitId: Id,
    habitName: string,
    totalLogs: nat,
    completionRate: real,
    currentStreak: int,
    bestStreak: int)

  /** `Math.ceil((now - created_at) / one day)`. */
  function DaysSinceCreated(createdAt: Instant, now: Instant): (r: int)
    ensures (r - 1) * MS_PER_DAY < now - createdAt <= r * MS_PER_DAY
  {
    CeilDiv(now - createdAt, MS_PER_DAY)
  }

  /** `Math.min(rate, 100)`. */
  function ClampRate(rate: real): (r: real)
    ensures r <= 100.0
    ensures r <= rate
    ensures r == rate || r == 100.0
  {
    if rate <= 100.0 then rate else 100.0
  }

  /** The days of the log instants, newest first, as the streak loop visits them. */
  function VisitOrder(times: seq<Instant>): (r: seq<int>)
    ensures |r| == |times|
    ensures forall i, j :: 0 <= i < j < |r| ==> r[i] >= r[j]
  {
    DaysOfSortedDesc(SortDesc(times));
    DaysOf(SortDesc(times))
  }

  /**
   * The current/best streak loop over the logs sorted newest first: the
   * result is the fold `Streaks.CurrentAndBest` over their days.
   */
  method StreakLoop(times: seq<Instant>, today: int) returns (currentStreak: nat, bestStreak: nat)
    ensures (currentStreak as int, bestStreak as int) == CurrentAndBest(VisitOrder(times), today)
  {
    currentStreak, bestStreak := 0, 0;
    var tempStreak: nat := 0;
    if |times| > 0 {
      var days := VisitOrder(times);
      var currentDate := today;
      var i := 0;
      while i < |days|
        invariant 0 <= i <= |days|
        invariant Fold(days[i..], StreakState(currentStreak, bestStreak, tempStreak, currentDate))
               == Fold(days, StreakState(0, 0, 0, today))
      {
        var logDate := days[i];
        ghost var before := StreakState(currentStreak, bestStreak, tempStreak, currentDate);
        FoldFrom(days, i, before);
        if logDate == currentDate {
          currentStreak := currentStreak + 1;
          tempStreak := tempStreak + 1;
          currentDate := currentDate - 1;
        } else if logDate == currentDate + 1 {
          tempStreak := tempStreak + 1;
          currentDate := currentDate - 1;
        } else {
          if tempStreak > bestStreak {
            bestStreak := tempStreak;
          }
          tempStreak := 1;
          currentDate := logDate - 1;
        }
        assert StreakState(currentStreak, bestStreak, tempStreak, currentDate) == Step(before, logDate);
        i := i + 1;
      }
      assert days[i..] == [];
      if tempStreak > bestStreak {
        bestStreak := tempStreak;
      }
    }
  }

  /** The statistics of one habit, given the logs the per-habit query returns. */
  function StatOf(habit: Habit, logs: seq<HabitLog>, now: Instant): (r: HabitStat)
    requires AllCompleted(logs)
    ensures r.habitId == habit.id && r.habitName == habit.name && r.totalLogs == |logs|
    ensures 0.0 <= r.completionRate <= 100.0
    ensures DaysSinceCreated(habit.createdAt, now) <= 0 ==> r.completionRate == 0.0
    ensures logs == [] ==> r.currentStreak == 0 && r.bestStreak == 0
    ensures logs != [] ==> r.bestStreak >= 1
    ensures 0 <= r.currentStreak <= |logs| && 0 <= r.bestStreak <= |logs|
  {
    var streaks := CurrentAndBest(VisitOrder(CompletionTimes(logs)), DayOf(now));
    CurrentAndBestBounds(VisitOrder(CompletionTimes(logs)), DayOf(now));
    HabitStat(habit.id, habit.name, |logs|,
      ClampRate(Percent(|logs|, DaysSinceCreated(habit.createdAt, now))),
      streaks.0, streaks.1)
  }

  /** The body of the per-habit `map` callback, with its streak loop. */
  method HabitStatFor(habit: Habit, logs: seq<HabitLog>, now: Instant) returns (stat: HabitStat)
    requires AllCompleted(logs)
    ensures stat == StatOf(habit, logs, now)
  {
    var totalLogs := |logs|;
    var daysSinceCreated := DaysSinceCreated(habit.createdAt, now);
    var completionRate := Percent(totalLogs, daysSinceCreated);
    var currentStreak, bestStreak := StreakLoop(CompletionTimes(logs), DayOf(now));
    stat := HabitStat(habit.id, habit.name, totalLogs, ClampRate(completionRate), currentStreak, bestStreak);
  }

  /** A log on the day after the expected one extends only the running count, so `current` can stay below `best`. */
  lemma CurrentBelowBest(today: int)
    ensures CurrentAndBest([today, today], today) == (1, 2)
    ensures CurrentAndBest([today - 5, today - 6], today) == (1, 2)
  {
    TwoLogsToday(today);
    CurrentNeverReset(today);
  }

  // ---------------------------------------------------------------------
  // Habit type distribution

  function OfKind(kind: string): Habit -> bool {
    (h: Habit) => h.kind == kind
  }

  /** `acc[key] || 0`. */
  function Lookup(acc: map<string, nat>, key: string): nat {
    if key in acc then acc[key] else 0
  }

  /** The type `reduce`: one increment of `acc[habit.type]` per habit, in order. */
  function Tally(acc: map<string, nat>, habits: seq<Habit>): (r: map<string, nat>)
    ensures acc.Keys <= r.Keys
    decreases habits
  {
    if habits == [] then acc
    else Tally(acc[habits[0].kind := Lookup(acc, habits[0].kind) + 1], habits[1..])
  }

  /** Each type's entry in the tally is the number of habits of that type. */
  lemma {:induction false} TallyCounts(acc: map<string, nat>, habits: seq<Habit>, kind: string)
    ensures Lookup(Tally(acc, habits), kind) == Lookup(acc, kind) + Count(habits, OfKind(kind))
    decreases habits
  {
    if habits != [] {
      TallyCounts(acc[habits[0].kind := Lookup(acc, habits[0].kind) + 1], habits[1..], kind);
    }
  }

  datatype TypeEntry = TypeEntry(name: string, value: nat, color: string)

  /** The two-entry distribution: positive habits, then negative habits. */
  function TypeData(habits: seq<Habit>): (r: seq<TypeEntry>)
    ensures |r| == 2
    ensures r[0] == TypeEntry("积极习惯", Count(habits, OfKind("positive")), "#10b981")
    ensures r[1] == TypeEntry("消极习惯", Count(habits, OfKind("negative")), "#ef4444")
  {
    var typeStats := Tally(map[], habits);
    TallyCounts(map[], habits, "positive");
    TallyCounts(map[], habits, "negative");
    [TypeEntry("积极习惯", Lookup(typeStats, "positive"), "#10b981"),
     TypeEntry("消极习惯", Lookup(typeStats, "negative"), "#ef4444")]
  }

  /** The two counts never exceed the number of habits. */
  lemma TypeDataBound(habits: seq<Habit>)
    ensures TypeData(habits)[0].value + TypeData(habits)[1].value <= |habits|
  {
    CountDisjoint(habits, OfKind("positive"), OfKind("negative"));
  }

  // ---------------------------------------------------------------------
  // Aggregates

  function SumRates(stats: seq<HabitStat>): real {
    if stats == [] then 0.0 else stats[0].completionRate + SumRates(stats[1..])
  }

  lemma {:induction false} SumRatesBounds(stats: seq<HabitStat>)
    requires forall i :: 0 <= i < |stats| ==> 0.0 <= stats[i].completionRate <= 100.0
    ensures 0.0 <= SumRates(stats) <= 100.0 * |stats| as real
  {
    if stats != [] {
      SumRatesBounds(stats[1..]);
    }
  }

  /** The average completion: 0 with no statistics, otherwise between 0 and 100 when every rate is. */
  function AverageCompletion(stats: seq<HabitStat>): (r: real)
    ensures stats == [] ==> r == 0.0
    ensures (forall i :: 0 <= i < |stats| ==> 0.0 <= stats[i].completionRate <= 100.0) ==> 0.0 <= r <= 100.0
  {
    if |stats| > 0 then
      SumRatesBounds2(stats);
      SumRates(stats) / |stats| as real
    else 0.0
  }

  lemma SumRatesBounds2(stats: seq<HabitStat>)
    requires stats != []
    ensures (forall i :: 0 <= i < |stats| ==> 0.0 <= stats[i].completionRate <= 100.0) ==>
      0.0 <= SumRates(stats) / |stats| as real <= 100.0
  {
    if forall i :: 0 <= i < |stats| ==> 0.0 <= stats[i].completionRate <= 100.0 {
      SumRatesBounds(stats);
    }
  }

  /** `Math.max(...stats.map(s => s.best_streak), 0)`: never negative, at least every habit's best. */
  function MaxBestStreak(stats: seq<HabitStat>): (r: int)
    ensures r >= 0
    ensures forall i :: 0 <= i < |stats| ==> stats[i].bestStreak <= r
    ensures r == 0 || exists i :: 0 <= i < |stats| && stats[i].bestStreak == r
  {
    MaxOf(stats, (s: HabitStat) => s.bestStreak)
  }

  // ---------------------------------------------------------------------
  // Seven-week series

  /** One point of the weekly series; `weekStart` is the day the label is made from. */
  datatype WeekEntry = WeekEntry(weekStart: int, completed: nat, total: int, rate: real)

  /** The week query: the user's logs completed between `weekStart` 00:00 and `weekStart + 6` 23:59:59.999. */
  predicate InWeek(l: HabitLog, userId: Id, weekStart: int) {
    l.userId == userId && l.completedAt.Some?
    && StartOfDay(weekStart) <= l.completedAt.value <= StartOfDay(weekStart + 6) + MS_PER_DAY - 1
  }

  /** A log is in a week exactly when it was completed on one of its seven days. */
  lemma InWeekIffDay(l: HabitLog, userId: Id, weekStart: int)
    requires l.userId == userId && l.completedAt.Some?
    ensures InWeek(l, userId, weekStart) <==> weekStart <= DayOf(l.completedAt.value) <= weekStart + 6
  {
    var t := l.completedAt.value;
    DayOfIff(t, DayOf(t));
    if weekStart <= DayOf(t) {
      DayOfMonotone(StartOfDay(weekStart), t);
    }
    if DayOf(t) <= weekStart + 6 {
      DayOfMonotone(t, StartOfDay(weekStart + 7) - 1);
      assert DayOf(StartOfDay(weekStart + 7) - 1) == weekStart + 6;
    }
    if !(weekStart <= DayOf(t)) {
      assert t < StartOfDay(DayOf(t) + 1) <= StartOfDay(weekStart);
    }
    if !(DayOf(t) <= weekStart + 6) {
      assert StartOfDay(weekStart + 7) <= StartOfDay(DayOf(t)) <= t;
    }
  }

  /** The entry for the week starting on `weekStart`, with `habitCount * 7` expected completions. */
  function WeekEntryOf(logs: seq<HabitLog>, userId: Id, habitCount: nat, weekStart: int): (r: WeekEntry)
    ensures r.weekStart == weekStart && r.total == habitCount * 7
    ensures r.completed == Count(logs, (l: HabitLog) => InWeek(l, userId, weekStart))
    ensures r.total == 0 ==> r.rate == 0.0
    ensures r.rate == Percent(r.completed, r.total)
  {
    var completed := Count(logs, (l: HabitLog) => InWeek(l, userId, weekStart));
    var total := habitCount * 7;
    WeekEntry(weekStart, completed, total, Percent(completed, total))
  }

  /**
   * The `for (i = 6; i >= 0; i--)` loop: seven entries, oldest first, the
   * `j`-th starting `7 * (6 - j)` days before today.
   */
  method WeeklySeries(logs: seq<HabitLog>, userId: Id, habitCount: nat, today: int) returns (weeklyStats: seq<WeekEntry>)
    ensures |weeklyStats| == 7
    ensures forall j :: 0 <= j < 7 ==> weeklyStats[j] == WeekEntryOf(logs, userId, habitCount, today - 7 * (6 - j))
    ensures forall j :: 0 <= j < 6 ==> weeklyStats[j + 1].weekStart == weeklyStats[j].weekStart + 7
    ensures weeklyStats[6].weekStart == today
  {
    weeklyStats := [];
    var i := 6;
    while i >= 0
      invariant -1 <= i <= 6
      invariant |weeklyStats| == 6 - i
      invariant forall j :: 0 <= j < |weeklyStats| ==>
        weeklyStats[j] == WeekEntryOf(logs, userId, habitCount, today - 7 * (6 - j))
    {
      var weekStart := today - i * 7;
      weeklyStats := weeklyStats + [WeekEntryOf(logs, userId, habitCount, weekStart)];
      i := i - 1;
    }
  }

  // ---------------------------------------------------------------------
  // The whole page load

  datatype AnalyticsData = AnalyticsData(
    totalHabits: nat,
    habitTypeData: seq<TypeEntry>,
    habitStats: seq<HabitStat>,
    totalLogs: int,
    averageCompletion: real,
    bestStreak: int,
    weeklyData: seq<WeekEntry>)

  /**
   * `fetchAnalyticsData`: with the user's habits (None when the query
   * returns no data) and the log table, every figure the page shows.
   */
  method FetchAnalyticsData(habits: Option<seq<Habit>>, logTable: seq<HabitLog>, userId: Id, now: Instant)
    returns (data: AnalyticsData)
    requires AllCompleted(logTable)
    ensures habits.None? ==> data.totalHabits == 0 && data.habitStats == [] && data.habitTypeData == []
    ensures habits.Some? ==>
      data.totalHabits == |habits.value|
      && data.habitTypeData == TypeData(habits.value)
      && |data.habitStats| == |habits.value|
      && (forall k :: 0 <= k < |habits.value| ==>
            data.habitStats[k] == StatOf(habits.value[k], LogsOf(logTable, habits.value[k].id), now))
      && data.totalLogs == Sum(data.habitStats, (s: HabitStat) => s.totalLogs)
      && data.averageCompletion == AverageCompletion(data.habitStats)
      && data.bestStreak == MaxBestStreak(data.habitStats)
    ensures |data.weeklyData| == 7
    ensures forall j :: 0 <= j < 7 ==>
      data.weeklyData[j] == WeekEntryOf(logTable, userId, if habits.Some? then |habits.value| else 0, DayOf(now) - 7 * (6 - j))
  {
    var habitCount := if habits.Some? then |habits.value| else 0;
    var weekly := WeeklySeries(logTable, userId, habitCount, DayOf(now));
    if habits.Some? {
      var stats := CollectStats(habits.value, logTable, now);
      data := AnalyticsData(habitCount, TypeData(habits.value), stats, Sum(stats, (s: HabitStat) => s.totalLogs),
        AverageCompletion(stats), MaxBestStreak(stats), weekly);
    } else {
      data := AnalyticsData(0, [], [], 0, 0.0, 0, weekly);
    }
  }

  /** The logs of one habit carry a `completed_at` when every log does. */
  lemma LogsOfCompleted(logTable: seq<HabitLog>, habitId: Id)
    requires AllCompleted(logTable)
    ensures AllCompleted(LogsOf(logTable, habitId))
  {
    var logs := LogsOf(logTable, habitId);
    forall m | 0 <= m < |logs| ensures logs[m].completedAt.Some? {
      var n :| 0 <= n < |logTable| && logTable[n] == logs[m];
    }
  }

  /** The `habits.map(...)` awaited with `Promise.all`: one statistic per habit, in order. */
  method CollectStats(hs: seq<Habit>, logTable: seq<HabitLog>, now: Instant) returns (stats: seq<HabitStat>)
    requires AllCompleted(logTable)
    ensures |stats| == |hs|
    ensures forall m :: 0 <= m < |hs| ==>
      AllCompleted(LogsOf(logTable, hs[m].id)) && stats[m] == StatOf(hs[m], LogsOf(logTable, hs[m].id), now)
  {
    stats := [];
    var k := 0;
    while k < |hs|
      invariant 0 <= k <= |hs| && |stats| == k
      invariant forall m :: 0 <= m < k ==>
        AllCompleted(LogsOf(logTable, hs[m].id)) && stats[m] == StatOf(hs[m], LogsOf(logTable, hs[m].id), now)
    {
      var next := AppendStat(stats, hs[k], logTable, now);
      StatsGrow(stats, hs, k, logTable, now, next);
      stats, k := next, k + 1;
    }
  }

  lemma StatsGrow(stats: seq<HabitStat>, hs: seq<Habit>, k: nat, logTable: seq<HabitLog>, now: Instant, next: seq<HabitStat>)
    requires AllCompleted(logTable)
    requires k < |hs| && |stats| == k
    requires forall m :: 0 <= m < k ==>
      AllCompleted(LogsOf(logTable, hs[m].id)) && stats[m] == StatOf(hs[m], LogsOf(logTable, hs[m].id), now)
    requires AllCompleted(LogsOf(logTable, hs[k].id))
    requires next == stats + [StatOf(hs[k], LogsOf(logTable, hs[k].id), now)]
    ensures forall m :: 0 <= m < k + 1 ==>
      AllCompleted(LogsOf(logTable, hs[m].id)) && next[m] == StatOf(hs[m], LogsOf(logTable, hs[m].id), now)
  {
    forall m | 0 <= m < k + 1
      ensures AllCompleted(LogsOf(logTable, hs[m].id)) && next[m] == StatOf(hs[m], LogsOf(logTable, hs[m].id), now)
    {
      if m < k {
        assert next[m] == stats[m];
      } else {
        assert next[m] == StatOf(hs[k], LogsOf(logTable, hs[k].id), now);
      }
    }
  }

  /** One round of the `map`: the habit's statistic joins the list. */
  method AppendStat(stats: seq<HabitStat>, habit: Habit, logTable: seq<HabitLog>, now: Instant) returns (r: seq<HabitStat>)
    requires AllCompleted(logTable)
    ensures AllCompleted(LogsOf(logTable, habit.id))
    ensures r == stats + [StatOf(habit, LogsOf(logTable, habit.id), now)]
  {
    LogsOfCompleted(logTable, habit.id);
    var stat := HabitStatFor(habit, LogsOf(logTable, habit.id), now);
    r := stats + [stat];
  }

  /** Every figure is bounded: rates within [0, 100], streaks within each habit's log count. */
  lemma FiguresBounded(habits: seq<Habit>, logTable: seq<HabitLog>, now: Instant, stats: seq<HabitStat>)
    requires AllCompleted(logTable)
    requires |stats| == |habits|
    requires forall k :: 0 <= k < |habits| ==>
      AllCompleted(LogsOf(logTable, habits[k].id)) && stats[k] == StatOf(habits[k], LogsOf(logTable, habits[k].id), now)
    ensures 0.0 <= AverageCompletion(stats) <= 100.0
    ensures 0 <= MaxBestStreak(stats) <= |logTable|
  {
    assert forall k :: 0 <= k < |stats| ==> 0.0 <= stats[k].completionRate <= 100.0;
    if MaxBestStreak(stats) != 0 {
      var k :| 0 <= k < |stats| && stats[k].bestStreak == MaxBestStreak(stats);
      assert stats[k].bestStreak <= |LogsOf(logTable, habits[k].id)| <= |logTable|;
    }
  }
}

=== FILE: src_habit_store.dfy ===
/**
 * The habit store of the Vite application (src/store/habitStore.ts), which
 * reads and writes the `habits` and `habit_logs` tables directly. The tables
 * are the object `Tables`; the signed-in user, the clock, the id the database
 * assigns and any database error are parameters of each action.
 */
module SrcHabitStore {
  import opened Wrappers
  import opened Days
  import opened Entities
  import opened Streaks
  import opened HabitLists
  import HabitStore

  const NOT_SIGNED_IN: string := "用户未登录"
  const ALREADY_LOGGED: string := "今天已经记录过了"

  /** The existing-log check looks at `[dayT00:00:00, dayT23:59:59)`: the last second of the day is outside it. */
  const CHECK_WINDOW_MS: int := 86399000

  /** The instant lies in the existing-log check window of day `d`. */
  predicate InCheckWindow(t: Instant, d: int) {
    StartOfDay(d) <= t < StartOfDay(d) + CHECK_WINDOW_MS
  }

  /** The logs of the habit and user that the existing-log check finds for day `d`. */
  function ExistingLogs(logs: seq<HabitLog>, habitId: Id, userId: Id, d: int): (r: seq<HabitLog>)
    ensures forall i :: 0 <= i < |r| ==>
      (r[i] in logs && r[i].habitId == habitId && r[i].userId == userId
       && r[i].completedAt.Some? && InCheckWindow(r[i].completedAt.value, d))
    ensures forall i :: (0 <= i < |logs| && logs[i].habitId == habitId && logs[i].userId == userId
      && logs[i].completedAt.Some? && InCheckWindow(logs[i].completedAt.value, d)) ==> logs[i] in r
  {
    Filter(logs, (l: HabitLog) => l.habitId == habitId && l.userId == userId
      && l.completedAt.Some? && InCheckWindow(l.completedAt.value, d))
  }

  /**
   * The table invariant the check-then-insert keeps: no two logs of the same
   * habit and user lie in the check window of the same day.
   */
  ghost predicate OnePerDay(logs: seq<HabitLog>) {
    forall i, j, d :: (0 <= i < j < |logs| && logs[i].habitId == logs[j].habitId && logs[i].userId == logs[j].userId
      && logs[i].completedAt.Some? && logs[j].completedAt.Some?
      && InCheckWindow(logs[i].completedAt.value, d)) ==> !InCheckWindow(logs[j].completedAt.value, d)
  }

  /** Under the invariant the check finds at most one log, so `.single()` sees every existing one. */
  lemma ExistingAtMostOne(logs: seq<HabitLog>, habitId: Id, userId: Id, d: int)
    requires OnePerDay(logs)
    ensures |ExistingLogs(logs, habitId, userId, d)| <= 1
  {
    ExistingAtMostOneRec(logs, habitId, userId, d);
  }

  lemma {:induction false} ExistingAtMostOneRec(logs: seq<HabitLog>, habitId: Id, userId: Id, d: int)
    requires OnePerDay(logs)
    ensures |ExistingLogs(logs, habitId, userId, d)| <= 1
  {
    if logs != [] {
      var rest := logs[1..];
      assert OnePerDay(rest) by {
        forall i, j, d' | 0 <= i < j < |rest| && rest[i].habitId == rest[j].habitId && rest[i].userId == rest[j].userId
          && rest[i].completedAt.Some? && rest[j].completedAt.Some? && InCheckWindow(rest[i].completedAt.value, d')
          ensures !InCheckWindow(rest[j].completedAt.value, d')
        {
          assert rest[i] == logs[i + 1] && rest[j] == logs[j + 1];
        }
      }
      ExistingAtMostOneRec(rest, habitId, userId, d);
      var l := logs[0];
      if l.habitId == habitId && l.userId == userId && l.completedAt.Some? && InCheckWindow(l.completedAt.value, d) {
        forall j | 0 <= j < |rest|
          ensures !(rest[j].habitId == habitId && rest[j].userId == userId
                    && rest[j].completedAt.Some? && InCheckWindow(rest[j].completedAt.value, d))
        {
          assert rest[j] == logs[j + 1];
        }
        NoneExisting(rest, habitId, userId, d);
      }
    }
  }

  lemma {:induction false} NoneExisting(logs: seq<HabitLog>, habitId: Id, userId: Id, d: int)
    requires forall j :: 0 <= j < |logs| ==>
      !(logs[j].habitId == habitId && logs[j].userId == userId
        && logs[j].completedAt.Some? && InCheckWindow(logs[j].completedAt.value, d))
    ensures ExistingLogs(logs, habitId, userId, d) == []
  {
    if logs != [] {
      NoneExisting(logs[1..], habitId, userId, d);
    }
  }

  /** Inserting a log after the check found nothing keeps the invariant. */
  lemma InsertKeepsOnePerDay(logs: seq<HabitLog>, log: HabitLog, now: Instant)
    requires OnePerDay(logs)
    requires log.completedAt == Some(now)
    requires ExistingLogs(logs, log.habitId, log.userId, DayOf(now)) == []
    ensures OnePerDay(logs + [log])
  {
    var all := logs + [log];
    forall i, j, d | 0 <= i < j < |all| && all[i].habitId == all[j].habitId && all[i].userId == all[j].userId
      && all[i].completedAt.Some? && all[j].completedAt.Some? && InCheckWindow(all[i].completedAt.value, d)
      ensures !InCheckWindow(all[j].completedAt.value, d)
    {
      if j == |logs| {
        assert all[i] == logs[i];
        assert logs[i] !in ExistingLogs(logs, log.habitId, log.userId, DayOf(now));
        DayOfIff(now, d);
        DayOfIff(now, DayOf(now));
      }
    }
  }

  /** A log in the last second of a day is invisible to that day's check, so a second log the same day is accepted. */
  lemma LastSecondIsUnchecked(log: HabitLog, d: int)
    requires log.completedAt == Some(StartOfDay(d) + CHECK_WINDOW_MS + 500)
    ensures DayOf(log.completedAt.value) == d
    ensures ExistingLogs([log], log.habitId, log.userId, d) == []
  {
    DayOfIff(log.completedAt.value, d);
  }

  /** The remote `habits` and `habit_logs` tables. */
  class Tables {
    var habits: seq<Habit>
    var habitLogs: seq<HabitLog>

    constructor(habits0: seq<Habit>, habitLogs0: seq<HabitLog>)
      ensures habits == habits0 && habitLogs == habitLogs0
    {
      habits := habits0;
      habitLogs := habitLogs0;
    }

    ghost predicate Valid()
      reads this
    {
      OnePerDay(habitLogs)
    }
  }

  /** The fields a new habit is created with. */
  datatype HabitInput = HabitInput(
    name: string,
    icon: string,
    kind: string,
    frequency: Option<Frequency>,
    reminderTime: Option<string>,
    isActive: bool)

  /** `{ ...habitData, user_id }` with the id and creation time the database assigns. */
  function NewHabitRow(input: HabitInput, userId: Id, id: Id, now: Instant): Habit {
    Habit(id, userId, input.name, input.icon, input.kind, input.frequency, input.reminderTime, input.isActive, now)
  }

  /** `fetchHabits`' query: active habits, newest created first. */
  function ActiveNewestFirst(habits: seq<Habit>): (r: seq<Habit>)
    ensures multiset(r) == multiset(Filter(habits, (h: Habit) => h.isActive))
    ensures forall i :: 0 <= i < |r| ==> r[i].isActive
    ensures forall i, j :: 0 <= i < j < |r| ==> r[i].createdAt >= r[j].createdAt
  {
    var active := Filter(habits, (h: Habit) => h.isActive);
    var r := SortDescBy(active, (h: Habit) => h.createdAt);
    forall i | 0 <= i < |r| ensures r[i].isActive {
      assert r[i] in multiset(active);
    }
    r
  }

  /**
   * `fetchHabitLogs`' query: logs without a `completed_at` first, then newest
   * first; only the habit's when a non-empty id is given (`if (habitId)`).
   */
  function LogsQuery(logs: seq<HabitLog>, habitId: Option<Id>): (r: seq<HabitLog>)
    ensures habitId.Some? && habitId.value != "" ==>
      multiset(r) == multiset(LogsOf(logs, habitId.value))
      && forall i :: 0 <= i < |r| ==> r[i].habitId == habitId.value
    ensures habitId.None? || habitId.value == "" ==> multiset(r) == multiset(logs)
    ensures forall i, j :: 0 <= i < j < |r| && r[j].completedAt.None? ==> r[i].completedAt.None?
    ensures forall i, j :: 0 <= i < j < |r| && r[i].completedAt.Some? && r[j].completedAt.Some? ==>
      r[i].completedAt.value >= r[j].completedAt.value
  {
    var selected := if habitId.Some? && habitId.value != "" then LogsOf(logs, habitId.value) else logs;
    var r := NewestFirst(selected);
    forall i | 0 <= i < |r| && habitId.Some? && habitId.value != "" ensures r[i].habitId == habitId.value {
      assert r[i] in multiset(selected);
    }
    r
  }

  class Store {
    var habits: seq<Habit>
    var habitLogs: seq<HabitLog>
    var loading: bool

    constructor()
      ensures habits == [] && habitLogs == [] && !loading
    {
      habits := [];
      habitLogs := [];
      loading := false;
    }

    /** `fetchHabits`: on success the active habits, newest first; always ends not loading. */
    method FetchHabits(db: Tables, dbError: Option<string>)
      modifies this
      ensures !loading
      ensures habits == (if dbError.None? then ActiveNewestFirst(db.habits) else old(habits))
      ensures habitLogs == old(habitLogs)
    {
      loading := true;
      if dbError.None? {
        habits := ActiveNewestFirst(db.habits);
      }
      loading := false;
    }

    /** `createHabit`: with no user nothing changes; on success the inserted row comes first locally. */
    method CreateHabit(db: Tables, input: HabitInput, user: Option<User>, newId: Id, now: Instant, dbError: Option<string>)
      returns (error: Option<string>)
      modifies this, db
      ensures user.None? ==> error == Some(NOT_SIGNED_IN)
      ensures user.Some? ==> error == dbError
      ensures user.Some? && dbError.None? ==>
        var row := NewHabitRow(input, user.value.id, newId, now);
        db.habits == old(db.habits) + [row] && habits == Prepend(row, old(habits))
      ensures user.None? || dbError.Some? ==> db.habits == old(db.habits) && habits == old(habits)
      ensures db.habitLogs == old(db.habitLogs) && habitLogs == old(habitLogs) && loading == old(loading)
    {
      if user.None? {
        return Some(NOT_SIGNED_IN);
      }
      if dbError.Some? {
        return dbError;
      }
      var row := NewHabitRow(input, user.value.id, newId, now);
      db.habits := db.habits + [row];
      habits := Prepend(row, habits);
      error := None;
    }

    /**
     * `updateHabit`: the table row with the id is updated; when exactly one
     * row matched, the local habits with that id take the updated row.
     */
    method UpdateHabit(db: Tables, id: Id, updates: HabitPatch, dbError: Option<string>) returns (error: Option<string>)
      modifies this, db
      ensures var matched := Filter(old(db.habits), (h: Habit) => h.id == id);
        if dbError.None? && |matched| == 1 then
          error.None?
          && db.habits == UpdateById(old(db.habits), id, updates)
          && habits == UpdateById(old(habits), id, FullPatch(Merge(matched[0], updates)))
        else
          error.Some? && db.habits == old(db.habits) && habits == old(habits)
      ensures db.habitLogs == old(db.habitLogs) && habitLogs == old(habitLogs) && loading == old(loading)
    {
      var matched := Filter(db.habits, (h: Habit) => h.id == id);
      if dbError.Some? {
        return dbError;
      }
      match Single(matched)
      case None =>
        error := Some("JSON object requested, multiple (or no) rows returned");
      case Some(row) =>
        db.habits := UpdateById(db.habits, id, updates);
        habits := UpdateById(habits, id, FullPatch(Merge(row, updates)));
        error := None;
    }

    /** `deleteHabit`: a soft delete in the table; on success the habit leaves the local list. */
    method DeleteHabit(db: Tables, id: Id, dbError: Option<string>) returns (error: Option<string>)
      modifies this, db
      ensures error == dbError
      ensures dbError.None? ==>
        db.habits == UpdateById(old(db.habits), id, EmptyPatch.(isActive := Some(false)))
        && habits == RemoveById(old(habits), id)
      ensures dbError.Some? ==> db.habits == old(db.habits) && habits == old(habits)
      ensures db.habitLogs == old(db.habitLogs) && habitLogs == old(habitLogs) && loading == old(loading)
    {
      if dbError.Some? {
        return dbError;
      }
      db.habits := UpdateById(db.habits, id, EmptyPatch.(isActive := Some(false)));
      habits := RemoveById(habits, id);
      error := None;
    }

    /**
     * `logHabit`: with no user, or when the check finds exactly one log of the
     * habit today, nothing is inserted; otherwise one log stamped `now` is
     * inserted and put first in the local list.
     */
    method LogHabit(db: Tables, habitId: Id, notes: Option<string>, user: Option<User>, now: Instant, newId: Id,
                    dbError: Option<string>) returns (error: Option<string>)
      requires db.Valid()
      modifies this, db
      ensures db.Valid()
      ensures user.None? ==> error == Some(NOT_SIGNED_IN) && unchanged(db) && habitLogs == old(habitLogs)
      ensures user.Some? && |ExistingLogs(old(db.habitLogs), habitId, user.value.id, DayOf(now))| == 1 ==>
        error == Some(ALREADY_LOGGED) && unchanged(db) && habitLogs == old(habitLogs)
      ensures user.Some? && ExistingLogs(old(db.habitLogs), habitId, user.value.id, DayOf(now)) == [] ==>
        error == dbError
        && (dbError.None? ==>
          var log := HabitLog(newId, habitId, user.value.id, Some(now), None, notes, now);
          db.habitLogs == old(db.habitLogs) + [log] && habitLogs == Prepend(log, old(habitLogs)))
        && (dbError.Some? ==> unchanged(db) && habitLogs == old(habitLogs))
      ensures db.habits == old(db.habits) && habits == old(habits) && loading == old(loading)
    {
      if user.None? {
        return Some(NOT_SIGNED_IN);
      }
      var today := DayOf(now);
      ExistingAtMostOne(db.habitLogs, habitId, user.value.id, today);
      var existingLog := Single(ExistingLogs(db.habitLogs, habitId, user.value.id, today));
      if existingLog.Some? {
        return Some(ALREADY_LOGGED);
      }
      if dbError.Some? {
        return dbError;
      }
      var log := HabitLog(newId, habitId, user.value.id, Some(now), None, notes, now);
      InsertKeepsOnePerDay(db.habitLogs, log, now);
      db.habitLogs := db.habitLogs + [log];
      habitLogs := Prepend(log, habitLogs);
      error := None;
    }

    /** `fetchHabitLogs`: on success the logs newest first, only the habit's when an id is given. */
    method FetchHabitLogs(db: Tables, habitId: Option<Id>, dbError: Option<string>)
      modifies this
      ensures habitLogs == (if dbError.None? then LogsQuery(db.habitLogs, habitId) else old(habitLogs))
      ensures habits == old(habits) && loading == old(loading)
    {
      if dbError.None? {
        habitLogs := LogsQuery(db.habitLogs, habitId);
      }
    }

    /** `getStreakCount`: the same counting loop as the other store, over this store's logs. */
    method GetStreakCount(habitId: Id, today: int) returns (streak: nat)
      requires AllCompleted(habitLogs)
      ensures streak == HabitStore.StoreStreak(habitLogs, habitId, today)
    {
      var logs := HabitStore.SortedLogs(habitLogs, habitId);
      HabitStore.SortedLogsCompleted(habitLogs, habitId);
      streak := HabitStore.CountSortedStreak(logs, today);
    }

    /** `getTodayStatus` over this store's logs. */
    predicate GetTodayStatus(habitId: Id, today: int)
      reads this
    {
      HabitStore.TodayStatus(habitLogs, habitId, today)
    }
  }
}

=== FILE: stats_route.dfy ===
/**
 * `GET /api/stats` (app/api/stats/route.ts): the caller's active habits and
 * recent logs reduced to today's count, a seven-day series, a four-week series
 * and an overall completion rate. The `get_habit_streak` database function is
 * a parameter.
 */
module StatsRoute {
  import opened Wrappers
  import opened Days
  import opened Strings
  import opened Entities
  import opened Requests

  // ---------------------------------------------------------------------
  // Queries

  /** The habits query's filter: the user's active habits, and only the asked-for one when `habit_id` is non-empty. */
  function HabitFilter(userId: Id, habitId: Option<Id>): Habit -> bool {
    (h: Habit) => h.userId == userId && h.isActive && (habitId.None? || habitId.value == "" || h.id == habitId.value)
  }

  /** The habits query: the user's active habits, only the one asked for when a non-empty `habit_id` is given. */
  function HabitsQuery(habits: seq<Habit>, userId: Id, habitId: Option<Id>): (r: seq<Habit>)
    ensures forall i :: 0 <= i < |r| ==>
      (r[i] in habits && r[i].userId == userId && r[i].isActive
       && (habitId.Some? && habitId.value != "" ==> r[i].id == habitId.value))
    ensures forall i :: (0 <= i < |habits| && habits[i].userId == userId && habits[i].isActive
      && (habitId.None? || habitId.value == "" || habits[i].id == habitId.value)) ==> habits[i] in r
  {
    Filter(habits, HabitFilter(userId, habitId))
  }

  /** `if (habitId)`: an empty `habit_id` selects the same habits as none at all. */
  lemma EmptyHabitIdIsNoFilter(habits: seq<Habit>, userId: Id)
    ensures HabitsQuery(habits, userId, Some("")) == HabitsQuery(habits, userId, None)
  {
    FilterSamePredicate(habits, HabitFilter(userId, Some("")), HabitFilter(userId, None));
  }

  predicate HasId(habits: seq<Habit>, id: Id) {
    exists i :: 0 <= i < |habits| && habits[i].id == id
  }

  /**
   * The logs query: the user's logs of those habits completed on or after
   * `startDay` (`completed_at >= 'YYYY-MM-DD'`).
   */
  function LogsQuery(logs: seq<HabitLog>, userId: Id, habits: seq<Habit>, startDay: int): (r: seq<HabitLog>)
    ensures forall i :: 0 <= i < |r| ==>
      (r[i] in logs && r[i].userId == userId && HasId(habits, r[i].habitId)
       && r[i].completedAt.Some? && DayOf(r[i].completedAt.value) >= startDay)
    ensures forall i :: (0 <= i < |logs| && logs[i].userId == userId && HasId(habits, logs[i].habitId)
      && logs[i].completedAt.Some? && DayOf(logs[i].completedAt.value) >= startDay) ==> logs[i] in r
  {
    Filter(logs, (l: HabitLog) => l.userId == userId && HasId(habits, l.habitId)
      && l.completedAt.Some? && DayOf(l.completedAt.value) >= startDay)
  }

  /** A log whose `completed_at` date part lies within `[lo, hi]`; a log without one is in no window. */
  function InDays(lo: int, hi: int): HabitLog -> bool {
    (l: HabitLog) => l.completedAt.Some? && lo <= DayOf(l.completedAt.value) <= hi
  }

  /** Two adjacent windows count, together, what the window spanning both counts. */
  lemma {:induction false} CountWindowSplit(logs: seq<HabitLog>, lo: int, mid: int, hi: int)
    requires lo <= mid < hi
    ensures Count(logs, InDays(lo, hi)) == Count(logs, InDays(lo, mid)) + Count(logs, InDays(mid + 1, hi))
  {
    if logs != [] {
      CountWindowSplit(logs[1..], lo, mid, hi);
    }
  }

  // ---------------------------------------------------------------------
  // Series

  datatype DayStat = DayStat(date: int, completed: nat, total: nat, completionRate: real)

  /** One day of `weeklyStats`: logs completed that day against the number of habits. */
  function DayStatOf(logs: seq<HabitLog>, habitCount: nat, date: int): (r: DayStat)
    ensures r.date == date && r.total == habitCount
    ensures r.completed == Count(logs, InDays(date, date))
    ensures r.completionRate == Percent(r.completed, habitCount)
  {
    var completed := Count(logs, InDays(date, date));
    DayStat(date, completed, habitCount, Percent(completed, habitCount))
  }

  /** The `weeklyStats` loop: seven days in ascending order, the last one today. */
  method WeeklyStats(logs: seq<HabitLog>, habitCount: nat, today: int) returns (weeklyStats: seq<DayStat>)
    ensures |weeklyStats| == 7
    ensures forall j :: 0 <= j < 7 ==> weeklyStats[j] == DayStatOf(logs, habitCount, today - 6 + j)
    ensures forall j :: 0 <= j < 6 ==> weeklyStats[j].date < weeklyStats[j + 1].date
    ensures weeklyStats[6].date == today
  {
    weeklyStats := [];
    var i := 6;
    while i >= 0
      invariant -1 <= i <= 6 && |weeklyStats| == 6 - i
      invariant forall j :: 0 <= j < |weeklyStats| ==> weeklyStats[j] == DayStatOf(logs, habitCount, today - 6 + j)
    {
      var date := today - i;
      weeklyStats := weeklyStats + [DayStatOf(logs, habitCount, date)];
      i := i - 1;
    }
  }

  datatype WeekStat = WeekStat(week: string, startDate: int, endDate: int, completed: nat, total: nat,
                               completionRate: real)

  /** The entry of the `week`-th week back: days `today - (7 * week + 6)` to `today - 7 * week`, inclusive. */
  function WeekStatOf(logs: seq<HabitLog>, habitCount: nat, today: int, week: int): (r: WeekStat)
    ensures r.week == "Week " + IntToString(4 - week)
    ensures r.startDate == today - (week * 7 + 6) && r.endDate == today - week * 7
    ensures r.completed == Count(logs, InDays(r.startDate, r.endDate)) && r.total == habitCount * 7
    ensures r.completionRate == Percent(r.completed, r.total)
  {
    var startDate := today - (week * 7 + 6);
    var endDate := today - week * 7;
    var completed := Count(logs, InDays(startDate, endDate));
    WeekStat("Week " + IntToString(4 - week), startDate, endDate, completed, habitCount * 7,
      Percent(completed, habitCount * 7))
  }

  /**
   * The `monthlyStats` loop: `unshift` while walking back four weeks puts
   * the oldest week first, so entry `j` is week `3 - j` back.
   */
  method MonthlyStats(logs: seq<HabitLog>, habitCount: nat, today: int) returns (monthlyStats: seq<WeekStat>)
    ensures |monthlyStats| == 4
    ensures forall j :: 0 <= j < 4 ==> monthlyStats[j] == WeekStatOf(logs, habitCount, today, 3 - j)
  {
    monthlyStats := [];
    var week := 0;
    while week < 4
      invariant 0 <= week <= 4 && |monthlyStats| == week
      invariant forall j :: 0 <= j < week ==> monthlyStats[j] == WeekStatOf(logs, habitCount, today, week - 1 - j)
    {
      monthlyStats := [WeekStatOf(logs, habitCount, today, week)] + monthlyStats;
      week := week + 1;
    }
  }

  /**
   * The four weeks are labelled `Week 1` to `Week 4` oldest first; each
   * starts the day after the previous one ends, so they are disjoint and
   * cover the 28 days ending today, and their counts add up to the logs of
   * those 28 days.
   */
  lemma MonthlyWindows(logs: seq<HabitLog>, habitCount: nat, today: int, monthly: seq<WeekStat>)
    requires |monthly| == 4
    requires forall j :: 0 <= j < 4 ==> monthly[j] == WeekStatOf(logs, habitCount, today, 3 - j)
    ensures forall j :: 0 <= j < 4 ==> monthly[j].week == "Week " + IntToString(j + 1)
    ensures monthly[0].startDate == today - 27 && monthly[3].endDate == today
    ensures forall j :: 0 <= j < 3 ==> monthly[j + 1].startDate == monthly[j].endDate + 1
    ensures forall j :: 0 <= j < 4 ==> monthly[j].endDate == monthly[j].startDate + 6
    ensures monthly[0].completed + monthly[1].completed + monthly[2].completed + monthly[3].completed
      == Count(logs, InDays(today - 27, today))
  {
    CountWindowSplit(logs, today - 27, today - 21, today);
    CountWindowSplit(logs, today - 20, today - 14, today);
    CountWindowSplit(logs, today - 13, today - 7, today);
  }

  // ---------------------------------------------------------------------
  // The whole request

  datatype StreakEntry = StreakEntry(habitId: Id, habitName: string, habitIcon: string, streak: int)

  datatype StatsData = StatsData(
    totalHabits: nat,
    completedToday: nat,
    completionRate: real,
    streaks: seq<StreakEntry>,
    weeklyStats: seq<DayStat>,
    monthlyStats: seq<WeekStat>,
    period: Option<int>,
    totalLogs: Option<nat>)

  /** The payload for a user without active habits. */
  const EmptyStats := StatsData(0, 0, 0.0, [], [], [], None, None)

  /** `totalPossible > 0 ? (totalCompleted / totalPossible) * 100 : 0` with `totalPossible = habits * period`. */
  function OverallRate(totalCompleted: nat, habitCount: nat, period: int): (r: real)
    ensures habitCount * period <= 0 ==> r == 0.0
    ensures habitCount * period > 0 ==> r * (habitCount * period) as real == totalCompleted as real * 100.0
  {
    Percent(totalCompleted, habitCount * period)
  }

  /** The `streakData || 0` of the streak function. */
  function StreakEntries(habits: seq<Habit>, rpcStreak: Id -> Option<int>): (r: seq<StreakEntry>)
    ensures |r| == |habits|
    ensures forall i :: 0 <= i < |habits| ==>
      (r[i].habitId == habits[i].id && r[i].habitName == habits[i].name && r[i].habitIcon == habits[i].icon
       && r[i].streak == (if rpcStreak(habits[i].id).Some? then rpcStreak(habits[i].id).value else 0))
  {
    Map(habits, (h: Habit) => StreakEntry(h.id, h.name, h.icon, rpcStreak(h.id).GetOr(0)))
  }

  /**
   * The payload for the selected habits and their logs since the start of
   * the period: the habit count, today's completions, the overall rate, one
   * streak entry per habit, the last seven days oldest first, the last four
   * weeks oldest first, the period and the log count.
   */
  ghost predicate IsStatsOf(data: StatsData, habits: seq<Habit>, logs: seq<HabitLog>, today: int, period: int,
                            rpcStreak: Id -> Option<int>)
  {
    data.totalHabits == |habits|
    && data.completedToday == Count(logs, InDays(today, today))
    && data.completionRate == OverallRate(|logs|, |habits|, period)
    && data.streaks == StreakEntries(habits, rpcStreak)
    && |data.weeklyStats| == 7 && |data.monthlyStats| == 4
    && (forall j :: 0 <= j < 7 ==> data.weeklyStats[j] == DayStatOf(logs, |habits|, today - 6 + j))
    && (forall j :: 0 <= j < 4 ==> data.monthlyStats[j] == WeekStatOf(logs, |habits|, today, 3 - j))
    && data.period == Some(period) && data.totalLogs == Some(|logs|)
  }

  /** Every statistic of the payload, from the two query results. */
  method BuildStats(habits: seq<Habit>, logs: seq<HabitLog>, today: int, period: int, rpcStreak: Id -> Option<int>)
    returns (data: StatsData)
    ensures IsStatsOf(data, habits, logs, today, period, rpcStreak)
  {
    var todayLogs := Filter(logs, InDays(today, today));
    var streaks := StreakEntries(habits, rpcStreak);
    var weeklyStats := WeeklyStats(logs, |habits|, today);
    var monthlyStats := MonthlyStats(logs, |habits|, today);
    var overallCompletionRate := OverallRate(|logs|, |habits|, period);
    data := StatsData(|habits|, |todayLogs|, overallCompletionRate, streaks, weeklyStats, monthlyStats,
      Some(period), Some(|logs|));
  }

  /** The reply once habits are found: the logs query's error, or the payload over its result. */
  ghost predicate IsStatsReply(reply: Reply<StatsData>, habits: seq<Habit>, logTable: seq<HabitLog>, userId: Id,
                               today: int, period: int, logsError: Option<string>, rpcStreak: Id -> Option<int>)
  {
    if logsError.Some? then reply == Fail(400, logsError.value)
    else
      reply.Ok? && reply.status == 200
      && IsStatsOf(reply.data, habits, LogsQuery(logTable, userId, habits, today - period), today, period, rpcStreak)
  }

  /** The logs query over the period, then every statistic of the payload. */
  method LogsAndStats(habits: seq<Habit>, logTable: seq<HabitLog>, userId: Id, today: int, period: int,
                      logsError: Option<string>, rpcStreak: Id -> Option<int>)
    returns (reply: Reply<StatsData>)
    ensures IsStatsReply(reply, habits, logTable, userId, today, period, logsError, rpcStreak)
  {
    if logsError.Some? {
      return Fail(400, logsError.value);
    }
    var logs := LogsQuery(logTable, userId, habits, today - period);
    var data := BuildStats(habits, logs, today, period, rpcStreak);
    reply := Ok(200, data);
  }

  /**
   * The request: authentication, the two queries (each may fail with its
   * message, giving 400), the empty payload, then every statistic.
   * `period` is the parsed `period` parameter, absent when missing or empty.
   */
  method GetStats(header: Option<string>, sessions: map<string, User>, habitTable: seq<Habit>, logTable: seq<HabitLog>,
                  periodParam: Option<int>, habitIdParam: Option<Id>, today: int,
                  habitsError: Option<string>, logsError: Option<string>, rpcStreak: Id -> Option<int>)
    returns (reply: Reply<StatsData>)
    ensures !Authenticate(header, sessions).Authed? ==> reply.Fail? && reply.status == 401
    ensures Authenticate(header, sessions).Authed? && habitsError.Some? ==> reply == Fail(400, habitsError.value)
    ensures Authenticate(header, sessions).Authed? && habitsError.None? ==>
      var user := Authenticate(header, sessions).user;
      var habits := HabitsQuery(habitTable, user.id, habitIdParam);
      (habits == [] ==> reply == Ok(200, EmptyStats))
      && (habits != [] ==> IsStatsReply(reply, habits, logTable, user.id, today, periodParam.GetOr(30), logsError, rpcStreak))
  {
    var auth := Authenticate(header, sessions);
    if !auth.Authed? {
      return AuthFailure(auth);
    }
    var user := auth.user;
    var period := periodParam.GetOr(30);
    if habitsError.Some? {
      return Fail(400, habitsError.value);
    }
    var habits := HabitsQuery(habitTable, user.id, habitIdParam);
    if habits == [] {
      return Ok(200, EmptyStats);
    }
    reply := LogsAndStats(habits, logTable, user.id, today, period, logsError, rpcStreak);
  }
}

=== FILE: streaks.dfy ===
/**
 * Specifications of the streak counters found across the application.
 *
 * The counters do not agree with each other, so each has its own
 * specification here; the loops that compute them live with the code they
 * model and are proved equal to these definitions. Days are day numbers
 * (see `Days.DayOf`).
 */
module Streaks {
  import opened Days

  // ---------------------------------------------------------------------
  // Walk back one day per entry

  /**
   * The number of leading entries of `days` that fall on `from`, `from - 1`,
   * `from - 2`, ... in turn: the walk stops at the first entry that is not on
   * the expected day.
   */
  function WalkBack(days: seq<int>, from: int): (r: nat)
    ensures r <= |days|
    ensures forall k :: 0 <= k < r ==> days[k] == from - k
    ensures r < |days| ==> days[r] != from - r
  {
    if days == [] || days[0] != from then 0 else 1 + WalkBack(days[1..], from - 1)
  }

  /** The characterisation above determines the walk: any `n` with those properties is it. */
  lemma WalkBackUnique(days: seq<int>, from: int, n: nat)
    requires n <= |days|
    requires forall k :: 0 <= k < n ==> days[k] == from - k
    requires n < |days| ==> days[n] != from - n
    ensures WalkBack(days, from) == n
  {
  }

  /** Walking from an entry onwards continues the walk from the start. */
  lemma {:induction false} WalkBackSplit(days: seq<int>, from: int, i: nat)
    requires i <= WalkBack(days, from)
    ensures WalkBack(days, from) == i + WalkBack(days[i..], from - i)
  {
    if i > 0 {
      assert days[1..][i - 1..] == days[i..];
      WalkBackSplit(days[1..], from - 1, i - 1);
    }
  }

  /** A day that appears twice in a row ends the walk at its second occurrence. */
  lemma RepeatEndsWalk(days: seq<int>, from: int, i: nat)
    requires i + 1 < |days| && days[i] == days[i + 1]
    ensures WalkBack(days, from) <= i + 1
  {
  }

  /** The counted days are distinct and all lie in `(from - r, from]`. */
  lemma WalkBackCountsDistinctDays(days: seq<int>, from: int)
    ensures forall i, j :: 0 <= i < j < WalkBack(days, from) ==> days[i] > days[j]
    ensures forall k :: 0 <= k < WalkBack(days, from) ==> from - WalkBack(days, from) < days[k] <= from
  {
  }

  // ---------------------------------------------------------------------
  // Walk with a gap equal to the count so far

  /**
   * The walk in which the `k`-th counted entry (counting from `k0`) must be
   * `k` days before an expected day that itself moves back one day per
   * match: entry `k` must lie on `today - 2k`.
   */
  function EvenGapWalk(days: seq<int>, today: int, k0: nat): (r: nat)
    ensures r <= |days|
    ensures forall k :: 0 <= k < r ==> days[k] == today - 2 * (k0 + k)
    ensures r < |days| ==> days[r] != today - 2 * (k0 + r)
  {
    if days == [] || days[0] != today - 2 * k0 then 0
    else 1 + EvenGapWalk(days[1..], today, k0 + 1)
  }

  /** The characterisation above determines the walk. */
  lemma EvenGapWalkUnique(days: seq<int>, today: int, k0: nat, n: nat)
    requires n <= |days|
    requires forall k :: 0 <= k < n ==> days[k] == today - 2 * (k0 + k)
    requires n < |days| ==> days[n] != today - 2 * (k0 + n)
    ensures EvenGapWalk(days, today, k0) == n
  {
  }

  /** A walk whose newest entry is yesterday counts nothing. */
  lemma EvenGapYesterdayIsZero(days: seq<int>, today: int)
    requires days != [] && days[0] == today - 1
    ensures EvenGapWalk(days, today, 0) == 0
  {
  }

  /** Logs on today and yesterday count 1, not 2: the second must be two days back. */
  lemma EvenGapTodayYesterday(today: int)
    ensures EvenGapWalk([today, today - 1], today, 0) == 1
    ensures EvenGapWalk([today, today - 2], today, 0) == 2
  {
    assert [today, today - 1][1..] == [today - 1];
    assert [today, today - 2][1..] == [today - 2];
  }

  // ---------------------------------------------------------------------
  // Current and best streak fold

  /** The counters of the current/best streak loop. */
  datatype StreakState = StreakState(current: nat, best: nat, temp: nat, cur: int)

  /**
   * One iteration of the loop on a log day `d`: on the expected day both
   * counters grow; one day after the expected day only the running counter
   * grows; otherwise the best is updated and the run restarts at `d`. The
   * expected day moves back one day in every case.
   */
  function Step(s: StreakState, d: int): StreakState {
    if d == s.cur then StreakState(s.current + 1, s.best, s.temp + 1, s.cur - 1)
    else if d == s.cur + 1 then StreakState(s.current, s.best, s.temp + 1, s.cur - 1)
    else StreakState(s.current, Max(s.best, s.temp), 1, d - 1)
  }

  function Fold(days: seq<int>, s: StreakState): StreakState {
    if days == [] then s else Fold(days[1..], Step(s, days[0]))
  }

  /** Folding from entry `i` is one step on entry `i`, then folding from entry `i + 1`. */
  lemma FoldFrom(days: seq<int>, i: nat, s: StreakState)
    requires i < |days|
    ensures Fold(days[i..], s) == Fold(days[i + 1..], Step(s, days[i]))
  {
    assert days[i..][1..] == days[i + 1..];
  }

  /** `(currentStreak, bestStreak)` after the loop over `days` starting on `today`. */
  function CurrentAndBest(days: seq<int>, today: int): (int, int) {
    if days == [] then (0, 0)
    else
      var f := Fold(days, StreakState(0, 0, 0, today));
      (f.current, Max(f.best, f.temp))
  }

  /** Every counter grows by at most one per log. */
  lemma {:induction false} FoldBounded(days: seq<int>, s: StreakState, n: nat)
    requires s.current <= n && s.best <= n && s.temp <= n
    ensures Fold(days, s).current <= n + |days|
    ensures Fold(days, s).best <= n + |days|
    ensures Fold(days, s).temp <= n + |days|
  {
    if days != [] {
      FoldBounded(days[1..], Step(s, days[0]), n + 1);
    }
  }

  /** After at least one log the running counter is at least 1. */
  lemma {:induction false} FoldTempPositive(days: seq<int>, s: StreakState)
    requires days != [] || s.temp >= 1
    ensures Fold(days, s).temp >= 1
  {
    if days != [] {
      FoldTempPositive(days[1..], Step(s, days[0]));
    }
  }

  /** No logs give 0 and 0; otherwise the best streak is at least 1; neither exceeds the log count. */
  lemma CurrentAndBestBounds(days: seq<int>, today: int)
    ensures days == [] ==> CurrentAndBest(days, today) == (0, 0)
    ensures days != [] ==> CurrentAndBest(days, today).1 >= 1
    ensures 0 <= CurrentAndBest(days, today).0 <= |days|
    ensures 0 <= CurrentAndBest(days, today).1 <= |days|
  {
    if days != [] {
      FoldBounded(days, StreakState(0, 0, 0, today), 0);
      FoldTempPositive(days, StreakState(0, 0, 0, today));
    }
  }

  /**
   * The current counter is never reset: logs five and six days ago give a
   * current streak of 1, because after the restart at the older run the
   * second log is on the new expected day.
   */
  lemma CurrentNeverReset(today: int)
    ensures CurrentAndBest([today - 5, today - 6], today) == (1, 2)
  {
    var s0 := StreakState(0, 0, 0, today);
    var s1 := Step(s0, today - 5);
    assert s1 == StreakState(0, 0, 1, today - 6);
    var s2 := Step(s1, today - 6);
    assert s2 == StreakState(1, 0, 2, today - 7);
    assert Fold([today - 5, today - 6], s0) == Fold([today - 6], s1);
    assert Fold([today - 6], s1) == Fold([], s2);
  }

  /** Two logs today: the second is one day after the expected day, so it extends only the best. */
  lemma TwoLogsToday(today: int)
    ensures CurrentAndBest([today, today], today) == (1, 2)
  {
    var s0 := StreakState(0, 0, 0, today);
    var s1 := Step(s0, today);
    var s2 := Step(s1, today);
    assert s2 == StreakState(1, 0, 2, today - 2);
    assert Fold([today, today], s0) == Fold([today], s1);
    assert Fold([today], s1) == Fold([], s2);
  }

  // ---------------------------------------------------------------------
  // Longest run of consecutive days

  /** Entries `i .. j-1` of `s` increase by exactly one day at every step. */
  predicate ConsecutiveRun(s: seq<int>, i: int, j: int) {
    0 <= i < j <= |s| && forall k :: i <= k < j - 1 ==> s[k + 1] == s[k] + 1
  }

  /**
   * `r` is the length of the longest stretch of `s` increasing by one day at
   * every step: 0 for no entries, otherwise attained by some stretch and not
   * exceeded by any.
   */
  ghost predicate IsLongestRun(s: seq<int>, r: int) {
    if s == [] then r == 0
    else
      (exists i, j :: 0 <= i < j <= |s| && ConsecutiveRun(s, i, j) && j - i == r)
      && forall i, j :: 0 <= i < j <= |s| && ConsecutiveRun(s, i, j) ==> j - i <= r
  }

  /** At most one length satisfies `IsLongestRun`. */
  lemma LongestRunUnique(s: seq<int>, r1: int, r2: int)
    requires IsLongestRun(s, r1) && IsLongestRun(s, r2)
    ensures r1 == r2
  {
    if s != [] {
      var i1, j1 :| ConsecutiveRun(s, i1, j1) && j1 - i1 == r1;
      var i2, j2 :| ConsecutiveRun(s, i2, j2) && j2 - i2 == r2;
    }
  }

  /** A non-empty list's longest run is at least 1 (one entry is a run) and at most its length. */
  lemma LongestRunBounds(s: seq<int>, r: int)
    requires s != [] && IsLongestRun(s, r)
    ensures 1 <= r <= |s|
  {
    assert ConsecutiveRun(s, 0, 1);
  }

  /** Two equal neighbours never belong to one run: a repeated day breaks the run. */
  lemma RepeatBreaksRun(s: seq<int>, i: int, j: int, k: int)
    requires ConsecutiveRun(s, i, j)
    requires i <= k < j - 1
    ensures s[k + 1] != s[k]
  {
  }

  // ---------------------------------------------------------------------
  // Capped walk over a set of days

  /**
   * The number of consecutive days `d`, `d - 1`, ... that appear in `days`,
   * checking at most `cap` days: the walk stops at the first missing day.
   */
  function CappedWalk(days: seq<int>, d: int, cap: nat): (r: nat)
    ensures r <= cap
    ensures forall k :: d - r < k <= d ==> k in days
    ensures r < cap ==> d - r !in days
    decreases cap
  {
    if cap == 0 || d !in days then 0 else 1 + CappedWalk(days, d - 1, cap - 1)
  }

  /** The characterisation above determines the capped walk. */
  lemma {:induction false} CappedWalkUnique(days: seq<int>, d: int, cap: nat, n: nat)
    requires n <= cap
    requires forall k :: d - n < k <= d ==> k in days
    requires n < cap ==> d - n !in days
    ensures CappedWalk(days, d, cap) == n
    decreases cap
  {
    if n > 0 {
      assert d in days;
      CappedWalkUnique(days, d - 1, cap - 1, n - 1);
    }
  }

  /** A walk that finds no entry on its first day counts nothing. */
  lemma CappedWalkZero(days: seq<int>, d: int, cap: nat)
    requires d !in days
    ensures CappedWalk(days, d, cap) == 0
  {
  }

  /** When no day before `low` is present, the walk from `d` counts at most `d - low + 1` days. */
  lemma CappedWalkBelowHorizon(days: seq<int>, d: int, cap: nat, low: int)
    requires low <= d + 1
    requires forall k :: 0 <= k < |days| ==> days[k] >= low
    ensures CappedWalk(days, d, cap) <= d - low + 1
  {
    assert low - 1 !in days;
  }
}

=== FILE: strings.dfy ===
/**
 * The JavaScript string operations the application relies on: `startsWith`,
 * `includes`, `toLowerCase`, `trim`, `split(c)[0]`, `split(c).pop()`,
 * `replace(pattern, '')`, `length` in UTF-16 code units and number-to-decimal
 * conversion.
 */
module Strings {
  import opened Wrappers

  predicate StartsWith(s: string, prefix: string) {
    |prefix| <= |s| && s[..|prefix|] == prefix
  }

  /** `s.includes(sub)`: `sub` occurs at some position of `s`. */
  predicate Contains(s: string, sub: string)
    decreases |s|
  {
    StartsWith(s, sub) || (s != [] && Contains(s[1..], sub))
  }

  /** The characters `\s` and `trim` treat as white space (the ASCII ones and NBSP, BOM). */
  predicate IsWhitespace(c: char) {
    c == ' ' || c == '\t' || c == '\n' || c == '\r' || c == '\U{B}' || c == '\U{C}'
    || c == '\U{A0}' || c == '\U{FEFF}'
  }

  predicate IsDigit(c: char) {
    '0' <= c <= '9'
  }

  function LowerChar(c: char): char {
    if 'A' <= c <= 'Z' then (c as int + 32) as char else c
  }

  /** `toLowerCase` on the ASCII letters; other characters are kept. */
  function ToLower(s: string): (r: string)
    ensures |r| == |s|
    ensures forall i :: 0 <= i < |s| ==> r[i] == LowerChar(s[i])
  {
    seq(|s|, i requires 0 <= i < |s| => LowerChar(s[i]))
  }

  /** The UTF-16 code units of one character: two beyond U+FFFF (a surrogate pair), otherwise one. */
  function Utf16Units(c: char): nat {
    if c as int >= 0x1_0000 then 2 else 1
  }

  /** `s.length`: the number of UTF-16 code units, not of characters. */
  function Utf16Length(s: string): (r: nat)
    ensures |s| <= r <= 2 * |s|
  {
    if s == [] then 0 else Utf16Length(s[..|s| - 1]) + Utf16Units(s[|s| - 1])
  }

  /** The length of a concatenation is the sum of the lengths. */
  lemma {:induction false} Utf16LengthAppend(a: string, b: string)
    ensures Utf16Length(a + b) == Utf16Length(a) + Utf16Length(b)
    decreases |b|
  {
    if b == [] {
      assert a + b == a;
    } else {
      assert (a + b)[..|a + b| - 1] == a + b[..|b| - 1];
      assert (a + b)[|a + b| - 1] == b[|b| - 1];
      Utf16LengthAppend(a, b[..|b| - 1]);
    }
  }

  /** Within the Basic Multilingual Plane the code units are the characters. */
  lemma {:induction false} Utf16LengthBmp(s: string)
    requires forall i :: 0 <= i < |s| ==> s[i] as int < 0x1_0000
    ensures Utf16Length(s) == |s|
  {
    if s != [] {
      var init := s[..|s| - 1];
      assert forall i :: 0 <= i < |init| ==> init[i] == s[i];
      Utf16LengthBmp(init);
      assert Utf16Units(s[|s| - 1]) == 1;
    }
  }

  /** `trimStart`: drops the leading white space and nothing else. */
  function TrimStart(s: string): (r: string)
    ensures |r| <= |s| && r == s[|s| - |r|..]
    ensures forall k :: 0 <= k < |s| - |r| ==> IsWhitespace(s[k])
    ensures r == [] || !IsWhitespace(r[0])
  {
    if s != [] && IsWhitespace(s[0]) then
      var r := TrimStart(s[1..]);
      assert s[1..][|s| - 1 - |r|..] == s[|s| - |r|..];
      assert forall k :: 1 <= k < |s| - |r| ==> IsWhitespace(s[k]) by {
        forall k | 1 <= k < |s| - |r| ensures IsWhitespace(s[k]) {
          assert s[k] == s[1..][k - 1];
        }
      }
      r
    else s
  }

  /** `trimEnd`: drops the trailing white space and nothing else. */
  function TrimEnd(s: string): (r: string)
    ensures |r| <= |s| && r == s[..|r|]
    ensures forall k :: |r| <= k < |s| ==> IsWhitespace(s[k])
    ensures r == [] || !IsWhitespace(r[|r| - 1])
  {
    if s != [] && IsWhitespace(s[|s| - 1]) then TrimEnd(s[..|s| - 1]) else s
  }

  function Trim(s: string): string {
    TrimEnd(TrimStart(s))
  }

  /** `trim` gives the empty string exactly when every character is white space. */
  lemma TrimEmptyIff(s: string)
    ensures Trim(s) == "" <==> forall k :: 0 <= k < |s| ==> IsWhitespace(s[k])
  {
    var t := TrimStart(s);
    if Trim(s) == "" {
      forall k | 0 <= k < |s| ensures IsWhitespace(s[k]) {
        if k >= |s| - |t| {
          assert s[k] == t[k - (|s| - |t|)];
        }
      }
    } else {
      assert TrimEnd(t) != [];
      assert t != [] && !IsWhitespace(t[0]);
      assert s[|s| - |t|] == t[0];
    }
  }

  /** A trimmed string neither begins nor ends with white space. */
  lemma TrimmedHasNoOuterWhitespace(s: string)
    ensures Trim(s) == [] || (!IsWhitespace(Trim(s)[0]) && !IsWhitespace(Trim(s)[|Trim(s)| - 1]))
  {
    var t := TrimStart(s);
    var r := TrimEnd(t);
    if r != [] {
      assert r[0] == t[0];
    }
  }

  /** `s.split(c)[0]`: the text before the first `c`, or all of `s` when there is none. */
  function PrefixBefore(s: string, c: char): (r: string)
    ensures |r| <= |s| && r == s[..|r|]
    ensures c !in r
    ensures |r| < |s| ==> s[|r|] == c
  {
    if s == [] || s[0] == c then [] else [s[0]] + PrefixBefore(s[1..], c)
  }

  /** `s.split(c).pop()`: the text after the last `c`, or all of `s` when there is none. */
  function AfterLast(s: string, c: char): (r: string)
    ensures |r| <= |s| && r == s[|s| - |r|..]
    ensures c !in r
    ensures |r| < |s| ==> s[|s| - |r| - 1] == c
  {
    if s == [] then []
    else if s[|s| - 1] == c then []
    else AfterLast(s[..|s| - 1], c) + [s[|s| - 1]]
  }

  /** The first position at which `pat` occurs in `s` (`s.indexOf(pat)`). */
  function IndexOf(s: string, pat: string): (r: Option<nat>)
    ensures r.Some? ==> r.value + |pat| <= |s| && s[r.value..r.value + |pat|] == pat
    ensures r.Some? ==> forall k :: 0 <= k < r.value ==> !StartsWith(s[k..], pat)
    ensures r.None? ==> forall k :: 0 <= k <= |s| ==> !StartsWith(s[k..], pat)
    decreases |s|
  {
    if StartsWith(s, pat) then Some(0)
    else if s == [] then None
    else
      match IndexOf(s[1..], pat)
      case None =>
        assert forall k :: 1 <= k <= |s| ==> !StartsWith(s[k..], pat) by {
          forall k | 1 <= k <= |s| ensures !StartsWith(s[k..], pat) {
            assert s[k..] == s[1..][k - 1..];
          }
        }
        None
      case Some(i) =>
        assert forall k :: 1 <= k <= i ==> !StartsWith(s[k..], pat) by {
          forall k | 1 <= k <= i ensures !StartsWith(s[k..], pat) {
            assert s[k..] == s[1..][k - 1..];
          }
        }
        assert s[i + 1..i + 1 + |pat|] == s[1..][i..i + |pat|];
        Some(i + 1)
  }

  /** `s.replace(pat, rep)` with a string pattern: only the first occurrence is replaced. */
  function ReplaceFirst(s: string, pat: string, rep: string): string {
    match IndexOf(s, pat)
    case None => s
    case Some(i) => s[..i] + rep + s[i + |pat|..]
  }

  function DigitChar(d: nat): char
    requires d < 10
  {
    ('0' as int + d) as char
  }

  /** The decimal representation of a natural number, without leading zeros. */
  function NatToString(n: nat): (r: string)
    ensures r != [] && forall i :: 0 <= i < |r| ==> IsDigit(r[i])
    ensures n > 0 ==> r[0] != '0'
  {
    if n < 10 then [DigitChar(n)] else NatToString(n / 10) + [DigitChar(n % 10)]
  }

  /** `String(i)` / template interpolation of an integer. */
  function IntToString(i: int): string {
    if i < 0 then "-" + NatToString(-i) else NatToString(i)
  }
}

=== FILE: weekly_summary.dfy ===
/**
 * The weekly-summary email route (app/api/emails/weekly-summary/route.ts):
 * one entry per active habit with its completions over the fetched week and
 * a streak counted back from today over at most 30 days. The route reads the
 * `date` and `completed` columns of the log rows, so its rows have their own
 * type here. Sending the email is a parameter (its error, if any).
 */
module WeeklySummary {
  import opened Wrappers
  import opened Days
  import opened Entities
  import opened Streaks
  import opened Requests

  /** A log row as this route selects it: `habit_id`, `date` (a day) and `completed`. */
  datatype DateRow = DateRow(habitId: Id, userId: Id, date: int, completed: bool)

  const STREAK_CAP: nat := 30
  const LOOKBACK: int := 7

  /** The log query: the user's completed rows dated on or after seven days ago. */
  function FetchedRows(rows: seq<DateRow>, userId: Id, today: int): (r: seq<DateRow>)
    ensures forall i :: 0 <= i < |r| ==> r[i] in rows && r[i].userId == userId && r[i].completed && r[i].date >= today - LOOKBACK
    ensures forall i :: (0 <= i < |rows| && rows[i].userId == userId && rows[i].completed
                         && rows[i].date >= today - LOOKBACK) ==> rows[i] in r
  {
    Filter(rows, (row: DateRow) => row.userId == userId && row.date >= today - LOOKBACK && row.completed)
  }

  /** The fetched rows of one habit. */
  function RowsOf(fetched: seq<DateRow>, habitId: Id): seq<DateRow> {
    Filter(fetched, (row: DateRow) => row.habitId == habitId)
  }

  /** The dates of a habit's completed fetched rows. */
  function HabitDates(fetched: seq<DateRow>, habitId: Id): (r: seq<int>)
    ensures |r| <= |fetched|
    ensures forall d :: d in r <==> exists i :: (0 <= i < |fetched| && fetched[i].habitId == habitId
                                                 && fetched[i].date == d && fetched[i].completed)
  {
    if fetched == [] then []
    else
      var rest := HabitDates(fetched[1..], habitId);
      assert forall i :: 1 <= i < |fetched| ==> fetched[i] == fetched[1..][i - 1];
      assert forall d :: d in rest ==> exists i :: (0 <= i < |fetched| && fetched[i].habitId == habitId
                                                    && fetched[i].date == d && fetched[i].completed) by {
        forall d | d in rest ensures exists i :: (0 <= i < |fetched| && fetched[i].habitId == habitId
                                                  && fetched[i].date == d && fetched[i].completed) {
          var j :| 0 <= j < |fetched[1..]| && fetched[1..][j].habitId == habitId && fetched[1..][j].date == d
            && fetched[1..][j].completed;
          assert fetched[j + 1] == fetched[1..][j];
        }
      }
      var row := fetched[0];
      if row.habitId == habitId && row.completed then [row.date] + rest else rest
  }

  /** The streak loop: for `i` from 0 to 29, count day `today - i` while some fetched row of the habit is on it. */
  method StreakLoop(fetched: seq<DateRow>, habitId: Id, today: int) returns (streak: nat)
    ensures streak == CappedWalk(HabitDates(fetched, habitId), today, STREAK_CAP)
  {
    var days := HabitDates(fetched, habitId);
    streak := 0;
    var i := 0;
    while i < STREAK_CAP
      invariant 0 <= i <= STREAK_CAP && streak == i
      invariant forall k :: today - i < k <= today ==> k in days
    {
      var hasLog := today - i in days;
      if hasLog {
        streak := streak + 1;
      } else {
        break;
      }
      i := i + 1;
    }
    CappedWalkUnique(days, today, STREAK_CAP, streak);
  }

  datatype SummaryEntry = SummaryEntry(name: string, completedCount: nat, totalDays: nat, streak: nat)

  /** One habit's entry: its fetched rows, a seven-day total, and its streak. */
  function EntryOf(h: Habit, fetched: seq<DateRow>, today: int): (r: SummaryEntry)
    ensures r.name == h.name && r.totalDays == 7
    ensures r.completedCount == |RowsOf(fetched, h.id)|
    ensures r.streak <= STREAK_CAP
  {
    SummaryEntry(h.name, |RowsOf(fetched, h.id)|, 7, CappedWalk(HabitDates(fetched, h.id), today, STREAK_CAP))
  }

  /**
   * The fetched rows reach back only seven days, so the 30-day walk never
   * counts more than 8 days, and counts nothing without a row today.
   */
  lemma StreakWithinFetchedWeek(rows: seq<DateRow>, userId: Id, h: Habit, today: int)
    ensures EntryOf(h, FetchedRows(rows, userId, today), today).streak <= LOOKBACK + 1
    ensures today !in HabitDates(FetchedRows(rows, userId, today), h.id) ==>
      EntryOf(h, FetchedRows(rows, userId, today), today).streak == 0
  {
    var fetched := FetchedRows(rows, userId, today);
    var days := HabitDates(fetched, h.id);
    forall k | 0 <= k < |days| ensures days[k] >= today - LOOKBACK {
      assert days[k] in days;
    }
    CappedWalkBelowHorizon(days, today, STREAK_CAP, today - LOOKBACK);
  }

  /** The body of the map for one habit: its count of fetched rows and its streak loop. */
  method EntryFor(h: Habit, fetched: seq<DateRow>, today: int) returns (entry: SummaryEntry)
    ensures entry == EntryOf(h, fetched, today)
  {
    var completedCount := |RowsOf(fetched, h.id)|;
    var streak := StreakLoop(fetched, h.id, today);
    entry := SummaryEntry(h.name, completedCount, 7, streak);
  }

  /** The `userHabits?.map(...)` with its streak loop: one entry per habit, in order; none without data. */
  method SummaryEntries(userHabits: Option<seq<Habit>>, fetched: seq<DateRow>, today: int)
    returns (entries: seq<SummaryEntry>)
    ensures userHabits.None? ==> entries == []
    ensures userHabits.Some? ==> (|entries| == |userHabits.value|
      && forall k :: 0 <= k < |entries| ==> entries[k] == EntryOf(userHabits.value[k], fetched, today))
  {
    entries := [];
    if userHabits.None? {
      return;
    }
    var hs := userHabits.value;
    var k := 0;
    while k < |hs|
      invariant 0 <= k <= |hs| && |entries| == k
      invariant forall m :: 0 <= m < k ==> entries[m] == EntryOf(hs[m], fetched, today)
    {
      var entry := EntryFor(hs[k], fetched, today);
      entries := entries + [entry];
      k := k + 1;
    }
  }

  datatype SummaryEmail = SummaryEmail(to: string, username: string, habits: seq<SummaryEntry>)

  /** The user's active habits (`None` when the query returns no data). */
  function UserHabits(habitTable: Option<seq<Habit>>, userId: Id): Option<seq<Habit>> {
    match habitTable
    case None => None
    case Some(t) => Some(Filter(t, (h: Habit) => h.userId == userId && h.isActive))
  }

  /** POST: authenticate, build one entry per active habit, send; a send error gives 500 with its message. */
  method SummaryPost(header: Option<string>, sessions: map<string, User>, profileName: Option<string>,
                     habitTable: Option<seq<Habit>>, rows: seq<DateRow>, today: int, sendError: Option<string>)
    returns (reply: Reply<SummaryEmail>)
    ensures !Authenticate(header, sessions).Authed? ==> reply.Fail? && reply.status == 401
    ensures Authenticate(header, sessions).Authed? && sendError.Some? ==> reply == Fail(500, sendError.value)
    ensures Authenticate(header, sessions).Authed? && sendError.None? ==>
      var user := Authenticate(header, sessions).user;
      var hs := UserHabits(habitTable, user.id);
      reply.Ok? && reply.data.to == user.email
      && reply.data.username == (if profileName.Some? && profileName.value != "" then profileName.value else "用户")
      && (hs.None? ==> reply.data.habits == [])
      && (hs.Some? ==> (|reply.data.habits| == |hs.value|
            && forall k :: 0 <= k < |hs.value| ==>
                 reply.data.habits[k] == EntryOf(hs.value[k], FetchedRows(rows, user.id, today), today)))
  {
    var auth := Authenticate(header, sessions);
    if !auth.Authed? {
      return AuthFailure(auth);
    }
    var user := auth.user;
    var fetched := FetchedRows(rows, user.id, today);
    var habits := SummaryEntries(UserHabits(habitTable, user.id), fetched, today);
    if sendError.Some? {
      return Fail(500, sendError.value);
    }
    var username := if profileName.Some? && profileName.value != "" then profileName.value else "用户";
    reply := Ok(200, SummaryEmail(user.email, username, habits));
  }
}

=== FILE: wrappers.dfy ===
/** Optional values, standing in for the `undefined`/`null` cases of the source. */
module Wrappers {

  datatype Option<+T> = None | Some(value: T) {

    /** The value, or `default` when absent (the source's `x ?? d`). */
    function GetOr(default: T): T {
      match this
      case Some(v) => v
      case None => default
    }
  }
}
